=== FILE: README.md ===
# Application intake and CRM, modelled in Dafny

The system is a job-application pipeline in three parts:

- an intake API (Express and Mongoose) stores submitted applications and hands back a thank-you link;
- a CRM API ingests applications through an idempotent webhook, lists, filters, sorts and pages them, and lets staff look them up and update them behind a token-based login;
- a React front end walks the applicant through a five-step form, validates each step, redirects to a thank-you page after submitting, and shows the stored application there.

This project models the deterministic core of all three as pure Dafny functions and proves properties of them.

- Each MongoDB collection is a sequence of records.
- Each route handler is a function from the collection and the request to the next collection and a response: `Step(store, response)`.
- The session-token table is a map threaded through the auth handlers.
- The log sanitiser is a recursive function over a JSON tree.
- The front end's rules are functions of the form data, the step number and the URL.

Clocks, random UUIDs, new ObjectIds, environment variables, MongoDB's text search and the ObjectId cast of a route id are parameters.

Modules, one per file:

| module | models |
|---|---|
| `Wrappers` | `Option` and `Result` |
| `Seqs` | order facts about sequences: one sequence is another with elements left out |
| `Text` | the JavaScript string built-ins the code relies on: `trim`, `toLowerCase`, `split`, `filter(Boolean)`, `String(n)`, `parseInt` |
| `Url` | `encodeURIComponent`, UTF-8, `URLSearchParams` parsing and `get`, and how a query string is written |
| `Numbers` | `Number(string)`, the conversion behind `"12" < 0` |
| `Sorting` | MongoDB's cross-type key order and a stable sort |
| `Logging` | `sanitizePayload`, payload selection and status classification in `requestLogger` |
| `ObjectId` | the cast of a route id to the bytes of an ObjectId, and what it does with hex text |
| `Applicant` | the applicant paths shared by both schemas: casting (`trim`, `lowercase`), `required`, update overlays |
| `IntakeModel`, `IntakeRoutes` | the intake schema and `POST /submit`, `GET /applications`, `GET /applications/:id` |
| `CrmModel`, `CrmRoutes` | the CRM schema (status enum, defaults, unique ids) and the webhook, list, get and patch handlers |
| `AuthStore`, `AuthMiddleware`, `AuthRoutes` | the TTL token map, the route guard, and `/login`, `/logout`, `/me` |
| `StepForm`, `Skills` | the multi-step form (validation, navigation, restore, step names, redirect after submit) and the skills editor |
| `AppRouting`, `ThankYou` | the choice between thank-you page and form, and the thank-you page's id extraction, request path and outcome |
| `EndToEnd` | the links built by the intake API and by the form open the thank-you page for the right id, and the page shows the stored record |

Behaviour the model follows where a reader might expect otherwise:

- The webhook always sets `status` to 'new' and `submittedAt` to the current time, whatever the payload says.
- PATCH has no whitelist of fields: every supplied path is written.
- The thank-you page can never show "Application not found" for an unknown id. The intake API answers 404, axios throws for every non-2xx status, and the page reports "Error fetching application" (`ThankYou.NotFoundReadsAsFetchError`).
- In the CRM, `GET /:id` and `PATCH /:id` put the id into an `$or` with an `_id` clause. An id that cannot be cast to an ObjectId makes the whole query fail with a cast error, which is answered with 500.
- Both backends compare an `_id` with the bytes the route id casts to, not with its text, so a hex id is found whatever the case of its letters (`IntakeRoutes.GetIgnoresIdCase`, `CrmRoutes.IdCaseIgnored`).
- A webhook payload without `applicationId` is answered 200 "Application already exists" whenever the CRM holds any record (see Findings).
- The stored `thankYouUrl` is the chosen URL trimmed, because the path has the `trim` setter.
- A `CRM_TOKEN_TTL_MS` that does not parse gives a `NaN` expiry, and `now > NaN` is false, so such sessions never expire (`AuthStore.NaNTtlNeverExpires`).
- `yearsOfExperience` is compared as text against numbers, so JavaScript converts it with `Number`. A value of only spaces counts as 0 and a non-numeric value as `NaN`; both pass step 4 (`StepForm.YearsOfExperienceLoose`).

## Model

| member | source | states |
|---|---|---|
| Text.TrimSpec | backend/models/Application.js:5-9 | `trim` removes exactly the leading and trailing white space: the result sits inside the input with only white space around it, is empty iff the input is all white space, and otherwise starts and ends with a non-space |
| Text.TrimIdempotent | backend/models/Application.js:5-9 | trimming a trimmed value changes nothing, so the `trim` setter is stable under re-saving |
| Text.ToLower | backend/models/Application.js:15-20 | each ASCII capital becomes its lower-case letter and every other character stays, so no ASCII capital remains, as the email path's `lowercase` option promises |
| Text.SplitJoin | frontend/src/components/ThankYou.js:16 | splitting a '/'-join of separator-free pieces gives the pieces back |
| Text.ParseIntOfIntToString | frontend/src/components/MultiStepForm.js:72-74 | `parseInt(String(n))` is `n` for every integer, with or without an explicit radix 10 |
| Url.Utf8RoundTrip | frontend/src/components/MultiStepForm.js:215 | decoding the UTF-8 encoding of any string gives the string back |
| Url.EncodedIsSafe | frontend/src/components/MultiStepForm.js:215 | `encodeURIComponent` emits only unreserved characters, hex digits and '%', so never '&', '=', '+', '#' or '?' |
| Url.FormDecodeEncoded | frontend/src/components/ThankYou.js:11-12 | `URLSearchParams` decodes an `encodeURIComponent`-encoded value back to the original string, whatever characters it holds |
| Url.FormDecodePlain | frontend/src/App.js:11 | a name or value without '%' or '+' is read as written |
| Url.ParsePair | frontend/src/App.js:11 | a piece without '=' is a name with an empty value |
| Url.Get | frontend/src/components/ThankYou.js:12 | `params.get(name)` is null iff no parameter has that name, and otherwise is the value of the first one that does |
| Url.ParseJoined | frontend/src/App.js:11 | a query of '?' and non-empty '&'-free pieces joined by '&' parses piece by piece, in order |
| Url.PairOf | frontend/src/App.js:11 | "name=value" reads as the decoded name and value when the name has no '=' |
| Url.ReadQueryText | frontend/src/App.js:11 | a query written from parameters reads back as the same parameters, decoded, in order |
| Url.ReadPlainQuery | frontend/src/App.js:11 | parameters without special characters read back exactly as written |
| Url.ReadQueryHead | frontend/src/components/MultiStepForm.js:215 | an id parameter followed by plain ones reads back with only the id decoded, and the query holds no '#' |
| Url.QueryTextHasNoHash | backend/routes/applicationRoutes.js:22 | a written query without '#' in its names and values has no fragment mark |
| Numbers.NumberOfIntToString | frontend/src/components/MultiStepForm.js:176 | `Number` (`ToNumber`) undoes `String` (`IntToString`): `Number(String(k))` is `k` for every integer |
| Numbers.NumberOfDigits | frontend/src/components/MultiStepForm.js:176 | a string of decimal digits converts to its value |
| Sorting.KeyLeTotal | crm/backend/routes/applications.js:87-88 | MongoDB's order on sort keys is total across types |
| Sorting.KeyLeTrans | crm/backend/routes/applications.js:87-88 | and transitive |
| Sorting.SortBy | backend/routes/applicationRoutes.js:63 | `.sort({field: ±1})` returns a permutation of its input ordered on the key, ascending or descending |
| Sorting.SortedUnique | crm/backend/routes/applications.js:87-95 | when no two elements share a key, any two key-sorted arrangements of the same elements are equal |
| Logging.SensitiveIffContainsFragment | backend/utils/logging.js:13-14 | a key is redacted iff its lower-cased form contains one of the eight fragments; the exact-match test adds nothing |
| Logging.Sanitize | backend/utils/logging.js:3-22 | scalars and `null` come back unchanged; arrays keep their length; objects keep exactly their keys, in order |
| Logging.SanitizeIsClean | backend/utils/logging.js:12-19 | after sanitising, no sensitive key at any depth holds anything but "[REDACTED]" |
| Logging.SanitizeFixesClean | backend/utils/logging.js:3-22 | a value that is already clean is returned unchanged |
| Logging.SanitizeIdempotent | backend/utils/logging.js:3-22 | sanitising twice equals sanitising once |
| Logging.SanitizeTestPayload | backend/tests/applicationRoutes.test.js:16-32 | the test payload keeps `name` and `email` and has `ssn` redacted |
| Logging.NotSensitive | backend/utils/logging.js:13-14 | a lower-case key holding no fragment's first letter is never redacted |
| Logging.LoggedPayloadIsClean | backend/utils/logging.js:62-78 | the payload picked for the log (`SelectPayload`: the query for GET and DELETE, the body for other verbs, null when it has no keys) is logged sanitised, so it holds no unredacted sensitive key, and one is logged iff one was picked |
| Applicant.MissingPathsEmptyIffComplete | backend/models/Application.js:5-90 | the `required` validators report nothing iff all fifteen required applicant paths are filled |
| Applicant.Validate | backend/models/Application.js:3-94 | a body is accepted iff it is complete after casting; the stored applicant has trimmed strings, a trimmed lower-cased email, other values as sent, and skills defaulting to []; a rejection lists the unfilled paths |
| Applicant.LowerOfTrimmed | backend/models/Application.js:15-20 | lower-casing a trimmed email keeps it trimmed |
| Applicant.ValidatedIsWellFormed | backend/models/Application.js:5-94 | every accepted applicant satisfies the stored-document invariant: required strings non-empty, trimmed paths trimmed, email lower-case |
| Applicant.Overlay | crm/backend/routes/applications.js:190-193 | an update that supplies no path leaves the applicant unchanged |
| Applicant.OverlayIdempotent | crm/backend/routes/applications.js:183-195 | applying the same update twice equals applying it once |
| Applicant.OverlayWellFormed | crm/backend/routes/applications.js:194 | an update the validators accept keeps a stored applicant well-formed |
| IntakeModel.MetaMissing | backend/models/Application.js:97-116 | the metadata validators pass iff `applicationId` and `transactionId` are non-empty |
| IntakeModel.NewRecord | backend/models/Application.js:97-126 | a new document is valid iff its applicant is complete and neither id is set to ""; absent ids default to fresh UUIDs, `sessionId` and `thankYouUrl` to null, `submittedAt` to now, and set values are trimmed |
| IntakeModel.Insert | backend/models/Application.js:97-116 | `save()` succeeds iff validation passes and neither `applicationId` nor `transactionId` is already stored |
| IntakeModel.AppendKeepsStoreValid | backend/models/Application.js:97-116 | a valid record with unused ids keeps the collection's unique indexes and record invariant |
| IntakeModel.InsertKeepsStoreValid | backend/models/Application.js:97-126 | a saved record, with any trimmed thank-you URL, keeps the collection valid |
| IntakeRoutes.Backfill | backend/routes/applicationRoutes.js:26-29 | after the backfill the stored URL is the chosen one (trimmed), and nothing is rewritten when it already was |
| IntakeRoutes.Submit | backend/routes/applicationRoutes.js:7-58 | a failed save answers 500 with the error and leaves the collection untouched; a successful one appends exactly one record, with the chosen thank-you URL, and answers 201 with it |
| IntakeRoutes.SubmitKeepsStoreValid | backend/routes/applicationRoutes.js:15-29 | submit keeps the collection valid |
| IntakeRoutes.SubmitDefaultThankYouUrl | backend/routes/applicationRoutes.js:21-29 | without a client URL, the URL chosen (`ChooseThankYouUrl`) and stored is exactly the default link for the stored id |
| IntakeRoutes.SubmitClientThankYouUrl | backend/routes/applicationRoutes.js:21-29 | a truthy client URL is chosen (`ChooseThankYouUrl`) over the default and, when already trimmed, stored exactly as sent |
| IntakeRoutes.CompletionStatusClass | backend/utils/logging.js:86-88 | the completion log's `Logging.ClassifyStatus` names every intake answer correctly: 200 and 201 success, 404 client_error, 500 server_error, none unknown |
| IntakeRoutes.List | backend/routes/applicationRoutes.js:61-78 | every record is returned exactly once, newest `submittedAt` first, and `count` is the collection size |
| IntakeRoutes.FindById | backend/routes/applicationRoutes.js:88 | finds a record iff one has that `_id` (the canonical text of the cast bytes), and returns one that does |
| IntakeRoutes.FindByApplicationId | backend/routes/applicationRoutes.js:93 | finds a record iff one has that `applicationId`, and returns one that does |
| IntakeRoutes.Get | backend/routes/applicationRoutes.js:81-115 | 404 iff neither an `_id` equal to the id's ObjectId cast nor an `applicationId` equal to the id's text exists; an `_id` match wins over the fallback; the collection is unchanged |
| IntakeRoutes.GetByEitherId | backend/routes/applicationRoutes.js:86-94 | in a valid collection a record is found by its `_id` and by its `applicationId`, unless the `applicationId` casts to another record's `_id` |
| IntakeRoutes.GetIgnoresIdCase | backend/routes/applicationRoutes.js:87-88 | a hex id in either case finds the record whose `_id` has the same bytes |
| CrmModel.ParseStatus | crm/backend/models/Application.js:112-117 | the enum validator accepts exactly the six status names |
| CrmModel.ParseStatusName | crm/backend/models/Application.js:114 | every status survives the trip to its stored name and back |
| CrmModel.CreateErrors | crm/backend/models/Application.js:5-117 | a new document passes iff the applicant is complete, both ids are filled, and a given status is in the enum |
| CrmModel.NewCrmRecord | crm/backend/models/Application.js:3-161 | a valid body becomes a record with status defaulting to 'new', tags and skills to [], timestamps to now, and trimmed optional paths; an invalid one yields its failing paths |
| CrmModel.Insert | crm/backend/models/Application.js:5-16 | `save()` succeeds iff validation passes and both unique ids are unused |
| CrmModel.NewCrmRecordValid | crm/backend/models/Application.js:3-161 | a validated record satisfies the stored-record invariant |
| CrmModel.InsertKeepsStoreValid | crm/backend/models/Application.js:5-16 | an insert keeps the collection's unique indexes and record invariant |
| CrmModel.ReplaceKeepsStoreValid | crm/backend/models/Application.js:5-16 | replacing a record with a valid one whose unique ids clash with no other record keeps the collection valid |
| CrmModel.UpdateErrors | crm/backend/routes/applications.js:194 | an accepted update has a status in the enum and does not blank either id; an unknown status is always reported |
| CrmModel.ApplyUpdate | crm/backend/routes/applications.js:183-195 | every supplied path is written (status by name), `updatedAt` becomes now, `_id` and `createdAt` are kept (bodies carry neither); an empty body changes only `updatedAt` |
| CrmModel.ApplyUpdateIdempotent | crm/backend/routes/applications.js:183-195 | applying the update again, at the same or a later instant, changes only `updatedAt`; the instant of an update affects only `updatedAt` |
| CrmModel.ApplyUpdateValid | crm/backend/routes/applications.js:194 | an update the validators accept keeps a record valid |
| CrmRoutes.FindByApplicationId | crm/backend/routes/applications.js:17-19 | finds a record iff one has the id, and returns one that does |
| CrmRoutes.Webhook | crm/backend/routes/applications.js:6-70 | a stored `applicationId` answers 200 "already exists" and writes nothing, and so does an absent one when any record is stored, under that record's `applicationId`; otherwise the record is saved (201) exactly when the insert succeeds, appending one record; a failed save answers 500 and writes nothing |
| CrmRoutes.WebhookNewRecord | crm/backend/routes/applications.js:36-55 | the ingested record carries the payload's schema values (payloads carry no `_id` or timestamps) except that status is 'new' and `submittedAt` is now |
| CrmRoutes.WebhookWithoutApplicationId | crm/backend/routes/applications.js:17-42 | an `applicationId` of "", or an absent one sent to an empty collection, fails validation with 500 and writes nothing |
| CrmRoutes.WebhookAbsentIdReportsAnother | crm/backend/routes/applications.js:17-33 | a payload without `applicationId` sent to a non-empty collection is answered 200 "already exists" under another record's `applicationId`, and nothing is written |
| CrmRoutes.CheckedWebhookRequiresId | crm/backend/routes/applications.js:17-42 | with the lookup guarded (`WebhookChecked`), a payload without a usable `applicationId` always fails validation and writes nothing |
| CrmRoutes.WebhookAgreesWithChecked | crm/backend/routes/applications.js:17-42 | the written and the guarded handler answer alike for every payload that carries an `applicationId` |
| CrmRoutes.WebhookKeepsStoreValid | crm/backend/routes/applications.js:6-70 | the webhook keeps the collection valid |
| CrmRoutes.WebhookTwice | crm/backend/routes/applications.js:17-42 | delivering a payload twice stores it once; the second delivery reports it exists and writes nothing |
| CrmRoutes.Filter | crm/backend/routes/applications.js:77-85 | exactly the records matching the status and text conditions, as a subsequence of the collection, so in collection order |
| CrmRoutes.FilterAll | crm/backend/routes/applications.js:79-85 | without `status` or `search`, every record matches |
| CrmRoutes.FilterDistinct | crm/backend/routes/applications.js:92 | distinct `_id`s give distinct matches |
| CrmRoutes.Window | crm/backend/routes/applications.js:94-95 | `.skip(n).limit(l)` takes the elements from position n on, at most abs(l) of them, all when l is 0 |
| CrmRoutes.Sorted | crm/backend/routes/applications.js:87-93 | the matches, permuted into sort order: ascending iff `sortOrder` is 'asc' |
| CrmRoutes.IdSortFollowsIds | crm/backend/routes/applications.js:87-93 | `sortBy=_id` orders two records by their ids, greatest first unless `sortOrder` is 'asc', whatever their order in the collection |
| CrmRoutes.WindowFacts | crm/backend/routes/applications.js:92-95 | a window holds elements of the sorted matches and stays sorted |
| CrmRoutes.List | crm/backend/routes/applications.js:72-129 | the page is the window at `(page-1)*limit` of the sorted matches, `total` counts all matches, page and limit are echoed; non-numeric paging or a negative skip answers 500 |
| CrmRoutes.ListPageMatches | crm/backend/routes/applications.js:92-95 | every record on a page is stored, matches the filter, and the page is in sort order |
| CrmRoutes.ListTotalIgnoresPaging | crm/backend/routes/applications.js:97 | `total` depends only on the filter, not on page, limit or sort |
| CrmRoutes.TieFreeOrderUnique | crm/backend/routes/applications.js:87-95 | when no two matches share a sort key, every key-sorted order a page's query may return is the model's order |
| CrmRoutes.TiedPagesCanOverlap | crm/backend/routes/applications.js:87-95 | with two records on one key both orders are sorted, and page 1 of one order and page 2 of the other, one record per page, hold the same record |
| CrmRoutes.PagesDisjoint | crm/backend/routes/applications.js:90-95 | when no two matches share a sort key, two different pages of the same query and positive limit share no record |
| CrmRoutes.ListDefaults | crm/backend/routes/applications.js:75-95 | with no parameters (`NumberParam` falls back to the defaults): page 1, limit 50, the first 50 records newest first, `total` the collection size |
| CrmRoutes.NumberParamReadsBack | crm/backend/routes/applications.js:75 | a `page` or `limit` written as `String(n)` is read back (`NumberParam`, through `parseInt`) as n |
| CrmRoutes.FindFirst | crm/backend/routes/applications.js:136-141 | the first position whose `applicationId` equals the id or whose `_id` equals its cast, or none when no record matches |
| CrmRoutes.Get | crm/backend/routes/applications.js:132-175 | a cast failure answers 500; otherwise 404 iff no record has the id as `applicationId` or its cast as `_id`, and a found record has one of them |
| CrmRoutes.GetByEitherId | crm/backend/routes/applications.js:136-141 | a record is found by either identifier when no `applicationId` equals an `_id` and its own `applicationId` casts to no other record's `_id` |
| CrmRoutes.IdCaseIgnored | crm/backend/routes/applications.js:136-141 | a hex id in either case selects the record whose `_id` has the same bytes, for `GET /:id` and for the lookup of `PATCH /:id` |
| CrmRoutes.UniqueClash | crm/backend/models/Application.js:8-14 | no clash iff no other record holds the updated `applicationId` or `transactionId` |
| CrmRoutes.Patch | crm/backend/routes/applications.js:178-229 | an id that does not cast, or an update the validators reject, answers 500 and writes nothing; any other update goes on to the lookup and write of `PatchValidated` |
| CrmRoutes.PatchValidated | crm/backend/routes/applications.js:183-214 | no record has the id as `applicationId` or its cast as `_id` iff the answer is 404; a unique-index clash fails with a duplicate key; neither writes; on success the first match is replaced by the returned record, which clashes with no other record |
| CrmRoutes.PatchUpdatesMatch | crm/backend/routes/applications.js:183-195 | the record a successful PATCH returns and stores is the first match with the update applied |
| CrmRoutes.PatchFound | crm/backend/routes/applications.js:183-214 | an update that passes the validators, matches a record and clashes with no other record replaces and returns it |
| CrmRoutes.PatchRejectsUnknownStatus | crm/backend/routes/applications.js:183-195 | a status outside the enum answers 500 whether or not a record matches, and writes nothing |
| CrmRoutes.PatchKeepsStoreValid | crm/backend/routes/applications.js:183-202 | PATCH keeps the collection valid |
| CrmRoutes.PatchIdempotent | crm/backend/routes/applications.js:183-195 | re-sending an update that keeps `applicationId`, at the same or a later instant, leaves the collection and the reply exactly as sending it once at that instant; only `updatedAt` moves |
| AuthStore.Ttl | crm/backend/utils/authStore.js:1 | an unset TTL is 3,600,000 ms |
| AuthStore.CreateToken | crm/backend/utils/authStore.js:5-11 | the token maps to the user, now, and now + TTL (no expiry when the TTL is NaN); all other entries are unchanged |
| AuthStore.VerifyToken | crm/backend/utils/authStore.js:13-22 | a session is returned iff the token is truthy, known and not expired (strict `>`); an expired token is deleted; nothing else changes |
| AuthStore.RevokeToken | crm/backend/utils/authStore.js:24-26 | true iff the token was present; it is gone afterwards and other entries are unchanged |
| AuthStore.VerifyAfterCreate | crm/backend/utils/authStore.js:5-22 | a new token verifies up to and including its expiry instant, with its user, creation and expiry times |
| AuthStore.ExpiredStaysExpired | crm/backend/utils/authStore.js:17-20 | once a verify finds a token expired, every later verify of it fails |
| AuthStore.NaNTtlNeverExpires | crm/backend/utils/authStore.js:1-17 | with an unparsable TTL, a session verifies at any later time |
| AuthStore.VerifyAfterRevoke | crm/backend/utils/authStore.js:24-26 | a revoked token does not verify |
| AuthMiddleware.StripBearerPrefixed | crm/backend/middleware/authMiddleware.js:8-11 | `StripBearer` undoes writing "Bearer " + t: the token comes back unchanged |
| AuthMiddleware.GuardPassesIffLive | crm/backend/middleware/authMiddleware.js:3-21 | `Guard` lets the request on exactly when the presented token (`PresentedToken`: the winning header without "Bearer ") names a live session, and then with that session's user |
| AuthMiddleware.AuthorizationTakesPrecedence | crm/backend/middleware/authMiddleware.js:5 | with a truthy `authorization` (`AuthHeader`), `x-crm-token` does not affect the outcome |
| AuthMiddleware.MissingTokenIffNoHeader | crm/backend/middleware/authMiddleware.js:3-11 | "Missing auth token" is the answer exactly when neither `authorization` nor `x-crm-token` is a non-empty string, and then no session is touched |
| AuthRoutes.ConfiguredAdmin | crm/backend/routes/auth.js:7-8 | the account defaults to admin/password, and a truthy environment value overrides each |
| AuthRoutes.Login | crm/backend/routes/auth.js:11-31 | missing credentials give 400; a token is created iff both match the configured account; refusals create nothing |
| AuthRoutes.WhoAmI | crm/backend/routes/auth.js:50-64 | always 200; authenticated, with the user, exactly when the guard would pass |
| AuthRoutes.LoginThenMe | crm/backend/routes/auth.js:19-59 | after a successful login, `/me` with "Bearer <token>" before expiry reports the user |
| AuthRoutes.LogoutThenMe | crm/backend/routes/auth.js:34-58 | after `Logout` with a header, `/me` with the same header is not authenticated |
| AuthRoutes.LogoutKeepsOtherSessions | crm/backend/routes/auth.js:34-47 | without a header `Logout` answers 400 and changes nothing; with one, every other session stays as it was and no session is added |
| AuthRoutes.WrongCredentialsCreateNothing | crm/backend/routes/auth.js:19-26 | wrong credentials are refused and create no token |
| StepForm.EmailPatternExtends | frontend/src/components/MultiStepForm.js:135 | the email pattern is unanchored: text around a match keeps it matching |
| StepForm.EmailPatternNeedsAtAndDot | frontend/src/components/MultiStepForm.js:135 | a matching email has an '@' not first and a '.' at least two places after it, not last |
| StepForm.PhoneDigits | frontend/src/components/MultiStepForm.js:140 | removing '-' and white space leaves none of them |
| StepForm.PhoneDigitsOfJoin | frontend/src/components/MultiStepForm.js:140 | the removal works piecewise: where separators stand does not matter |
| StepForm.Reported | frontend/src/components/MultiStepForm.js:127-186 | the recorded errors are empty iff no rule fails, and are exactly the failing rules' messages |
| StepForm.ValidateStep | frontend/src/components/MultiStepForm.js:126-187 | steps outside 1..4 record nothing, and every recorded error comes from a failing rule of the step |
| StepForm.Step1Valid | frontend/src/components/MultiStepForm.js:130-144 | step 1 passes iff both names are non-blank, the email is non-blank and matches, the phone has exactly ten digits once separators go, and a birth date is given |
| StepForm.Step1Messages | frontend/src/components/MultiStepForm.js:133-142 | a blank email or phone gets the "required" message, a malformed one the "invalid" message |
| StepForm.Step2Valid | frontend/src/components/MultiStepForm.js:146-156 | step 2 passes iff the four address lines are non-blank and the untrimmed ZIP is 5 or 6 digits |
| StepForm.Step3Valid | frontend/src/components/MultiStepForm.js:158-171 | step 3 passes iff degree, institution, year and field are given and the year is not out of range |
| StepForm.GraduationYearBounds | frontend/src/components/MultiStepForm.js:161-169 | a year written as a number passes iff it lies in 1950..currentYear+10 |
| StepForm.GraduationFlagIff | frontend/src/components/MultiStepForm.js:161-169 | step 3 flags `graduationYear` iff it is empty or parses to a year outside the range |
| StepForm.YearsOfExperienceBounds | frontend/src/components/MultiStepForm.js:173-178 | a whole number of years passes step 4 iff it lies in 0..50 |
| StepForm.Step4ValidIff | frontend/src/components/MultiStepForm.js:173-178 | step 4 passes iff the years are given and `Number` of them is neither below 0 nor above 50 |
| StepForm.YearsOfExperienceLoose | frontend/src/components/MultiStepForm.js:174-176 | " " and "many" pass step 4, because `Number` (`Numbers.ToNumber`) reads a blank string as 0 and other text as NaN |
| StepForm.ClicksStayInRange | frontend/src/components/MultiStepForm.js:280-343 | using only the buttons shown (`Click` refuses the others) keeps the step within 1..6, and within 1..5 from the form's own steps |
| StepForm.NextThenPrevious | frontend/src/components/MultiStepForm.js:189-197 | Next (`NextStep`) moves on exactly when the step validates; the screen reached offers Previous, and Previous (`PrevStep`) there returns to the step left |
| StepForm.RestoreStep | frontend/src/components/MultiStepForm.js:69-91 | the restored step is always in 1..6: the URL's `stepNum` when in range, else the saved step when in range, else 1 |
| StepForm.RestoreFallsBack | frontend/src/components/MultiStepForm.js:81-86 | the saved step decides only when the URL gives no usable step |
| StepForm.StepNamesDistinct | frontend/src/components/MultiStepForm.js:43-61 | `StepName` gives different steps different names, so a saved name identifies its step |
| StepForm.RestoreAfterPersist | frontend/src/components/MultiStepForm.js:58-105 | a step written as `String(step)` to the URL or to storage is read back (`StepNumber`) and restored as that step |
| StepForm.RedirectQueryReadsBack | frontend/src/components/MultiStepForm.js:215 | the redirect query parses back to the id, whatever characters it holds, followed by the four fixed parameters, and has no '#' |
| StepForm.SubmitOutcomeButtons | frontend/src/components/MultiStepForm.js:199-286 | after `HandleSubmit`, a reply without an id sets the success screen, step 6, with no button at all; a failed request leaves the review with Previous and Submit |
| StepForm.RestoredStepSixOffersOnlyPrevious | frontend/src/components/MultiStepForm.js:314-343 | a step 6 restored from the URL or storage, with `submitSuccess` false, offers only Previous |
| Skills.RemoveSkill | frontend/src/components/steps/WorkExperience.js:13-15 | every copy of the skill goes and exactly the other skills remain |
| Skills.RemoveKeepsOrder | frontend/src/components/steps/WorkExperience.js:14 | the remaining skills keep their order |
| Skills.RemoveAbsent | frontend/src/components/steps/WorkExperience.js:14 | removing an unlisted skill changes nothing |
| Skills.AddKeepsNoDuplicates | frontend/src/components/steps/WorkExperience.js:7-8 | adding keeps a duplicate-free list duplicate-free |
| Skills.RemoveKeepsNoDuplicates | frontend/src/components/steps/WorkExperience.js:14 | removing keeps a duplicate-free list duplicate-free |
| Skills.AddThenRemove | frontend/src/components/steps/WorkExperience.js:6-15 | `AddSkill` of a new skill followed by `RemoveSkill` gives the list back |
| Skills.AddTwice | frontend/src/components/steps/WorkExperience.js:6-11 | `AddSkill` twice with the same input adds it once |
| AppRouting.LegacyPathOf | frontend/src/App.js:15 | every "/application/<id>/thankyou" path, with an id over [a-zA-Z0-9-] and an optional trailing slash, is a legacy path |
| AppRouting.LegacyPathShape | frontend/src/App.js:15 | and every legacy path has that form |
| AppRouting.FormUnlessAllThree | frontend/src/App.js:12-19 | `ChooseView` shows the form on a non-legacy path once any one of the three query conditions is spoiled |
| ThankYou.ExtractId | frontend/src/components/ThankYou.js:11-18 | a truthy query `applicationId` is the id; any id found is non-empty |
| ThankYou.ExtractFromPath | frontend/src/components/ThankYou.js:15-18 | without a query id, segment 1 of the path's non-empty segments when there are at least three, and no id otherwise |
| ThankYou.LegacyPathId | frontend/src/components/ThankYou.js:16-17 | on every legacy path the extracted id is exactly the `<id>` segment |
| ThankYou.NotFoundReadsAsFetchError | frontend/src/components/ThankYou.js:20-40 | a 404 from the API shows "Error fetching application", never "Application not found": `Axios` throws for it and `Settle` reports the throw |
| EndToEnd.ParamsAgree | frontend/src/components/MultiStepForm.js:215 | the form's redirect and the intake API's default link write the same parameters after the id |
| EndToEnd.ThankYouParamsRecognised | frontend/src/App.js:11-19 | a query that reads as an id followed by those parameters opens the thank-you page (`ChooseView`), which reads that id and shows the "success" badge (`ThankYou.Badge`) |
| EndToEnd.ServerLinkRecognised | backend/routes/applicationRoutes.js:21-22 | the intake API's default link, for an id over [a-zA-Z0-9-] and a base without '?' or '#', opens the thank-you page for that id |
| EndToEnd.ClientRedirectRecognised | frontend/src/components/MultiStepForm.js:215-216 | the form's redirect after a submit opens the thank-you page for exactly the returned id, whatever characters it holds |
| ThankYou.FetchReachesRoute | backend/routes/applicationRoutes.js:81 | the page's request for an id of [a-zA-Z0-9-] reaches `GET /applications/:id` with exactly that id |
| ThankYou.SlashIdMissesRoute | frontend/src/components/ThankYou.js:29 | an id with a '/' inside, put into the path unencoded, matches no route |
| ThankYou.MarkCutsRoute | frontend/src/components/ThankYou.js:29 | an id with a '?' or '#' reaches the route cut at that mark, so another id is looked up |
| EndToEnd.RedirectShowsRecord | frontend/src/components/ThankYou.js:27-37 | for a stored id of [a-zA-Z0-9-], following the redirect finds the id, the request reaches the route with it, the API answers 200 with the record, and the page displays it |
| EndToEnd.SubmitThenThankYou | backend/routes/applicationRoutes.js:38-46 | after a successful submit whose `applicationId` is of [a-zA-Z0-9-], following the form's redirect shows the record just stored |
| EndToEnd.UuidIsIdString | backend/models/Application.js:100 | a generated UUID is made of [a-zA-Z0-9-] |
| EndToEnd.GeneratedIdIsFetchable | backend/models/Application.js:96-101 | without a client-chosen `applicationId`, the stored one is the generated UUID, which the page's request reaches the route with |

| ObjectId.HexCast | crm/backend/routes/applications.js:136-141 | 24 hex digits cast to the bytes they name: the canonical text is the digits in lower case, and nothing else is hex text |
| ObjectId.HexCastCanonical | crm/backend/routes/applications.js:136-141 | the canonical text of a cast casts to itself, so a stored `_id` sent back as a route id finds its record |

## Left out

- Database and process I/O: MongoDB connections, the query engine, `Date.now`, `crypto.randomUUID`, ObjectId generation and `process.env` are parameters. Fresh ids are assumed unused by the collection.
- MongoDB's `$text` search is the parameter `matcher` over first name, last name and email.
- The ObjectId cast (`ObjectId.isValid` and `findById` on the intake side, the `$or`'s `_id` clause in the CRM) is the parameter `cast`. Its reading of 24 hex digits is modelled (`ObjectId.HexCast`) and required where a lemma needs it; its reading of any 12-byte string as raw bytes is not. Stored `_id`s are compared as the canonical lower-case hex text of their bytes.
- Date casting: dates are opaque text (birth date) or integer instants. Mongoose's `Date` and `Number` casting of request text, and its cast errors, are not modelled; numeric paths arrive as integers.
- JSON `null` on request paths is treated as absent.
- CrmRoutes.Webhook: a JSON `null` `applicationId` is treated as absent, so it is answered as already existing when any record is stored. In the JavaScript code `null` is not `undefined`: `findOne` looks for a null `applicationId`, finds none in a valid collection, and the save fails the `required` validator with 500.
- CrmRoutes.WebhookWithoutApplicationId: an absent `applicationId` fails validation only while the collection is empty; with any record stored the answer is 200 instead (`CrmRoutes.WebhookAbsentIdReportsAnother`), so the 500 is not promised there.
- `Text.ToLower` maps ASCII letters only; full Unicode case mapping is not modelled.
- CrmRoutes.SortKey: `dateOfBirth` sorts as `null`, because birth dates are opaque text in this model and Mongoose's `Date` cast is not modelled; MongoDB orders them by date, so `sortBy=dateOfBirth` is answered in collection order here.
- CrmRoutes.List: a `NaN` page or limit, and a negative skip, are modelled as a 500 failure; the driver's exact reaction was not established. Sort paths outside the schema, and the array paths `skills` and `tags`, sort as `null`.
- Array-valued query parameters (`?status=a&status=b`) are not modelled: every list parameter is one string.
- The relay to the CRM (backend/utils/webhook.js, crm/backend/utils/webhook.js), metrics, server wiring, CORS, static files, `extractFrontendDetails`, `getDatabaseStatus` and the pino side effects are not part of this model.
- Concurrency: every request is one atomic step, so the webhook's check-then-insert race is not modelled.
- The `catch` branches of the auth routes and the middleware (500 "Auth error") cannot be reached in a model without exceptions.
- The form's draft in localStorage (`JSON.parse`/`JSON.stringify`), `window.history.replaceState`, `URLSearchParams.toString()` in `updateStepInUrl`, the error clearing in `updateFormData`, React rendering, the loading state, and the copy and print buttons are not modelled.
- Numbers.ToNumber: values are exact reals, not IEEE doubles, so rounding, -0 and overflow to Infinity for very long literals are not modelled.
- Url.DecodeFirst: each byte of a malformed UTF-8 sequence becomes one U+FFFD. The WHATWG decoder replaces maximal subparts instead, so results differ only on malformed input.
- ThankYou.RouteId: Express percent-decodes the route segment and the browser normalises the request URL (dot segments, escaping of spaces); neither is modelled, so the route model is exact only for ids without '%', '.', spaces and the like.
- EndToEnd.RedirectShowsRecord: stated only for ids of [a-zA-Z0-9-], which the generated UUIDs are. A client may submit its own `applicationId`; the page puts it into the request path unencoded, so an id with '/', '?' or '#' is not looked up as itself (`ThankYou.SlashIdMissesRoute`, `ThankYou.MarkCutsRoute`) and the page shows an error.
- EndToEnd.SubmitThenThankYou: stated only for an `applicationId` of [a-zA-Z0-9-], for the same reason.
- IntakeModel.NewRecord: the input type `Submission` has no `_id`, `createdAt` or `updatedAt` path. `new Application(body)` keeps a client `_id` and a client `createdAt`; such bodies are not modelled, so the new record always takes the generated ObjectId and the current time.
- IntakeModel.Insert: a client `_id` equal to a stored one fails the save with a duplicate-key error, answered with 500; with client `_id`s left out, the "saved iff" covers only the generated, unused `_id`.
- CrmRoutes.WebhookNewRecord: the input type `CrmInput` has no `_id`, `createdAt` or `updatedAt` path. The webhook spreads the whole payload into the new document, so a payload `_id` would become the record's `_id` and a payload `createdAt` would be kept; payloads with these paths are not modelled.
- CrmModel.ApplyUpdate: for the same reason a PATCH body with `_id`, which MongoDB refuses as a change of an immutable field (a 500), or with `createdAt`, is not modelled; "`_id` and `createdAt` are kept" is stated for bodies without them.
- CrmRoutes.Sorted: ties between equal sort keys are broken by collection order. MongoDB leaves that order open for each query, so with tied keys two pages may overlap or miss a record (`CrmRoutes.TiedPagesCanOverlap`); `CrmRoutes.PagesDisjoint` is stated for tie-free keys only.
- `window.location` is modelled only through its `search` part, taken from a URL string by `EndToEnd.SearchOf`.
- Logging.Sanitize: JSON numbers are integers; the sanitiser never inspects them.

## Findings

| source | as written | input that shows it | evidently intended | confidence | as-written member | corrected member |
|---|---|---|---|---|---|---|
| crm/backend/routes/applications.js:17-33 | `findOne({ applicationId: applicationData.applicationId })` runs even when the payload has no `applicationId`; the filter then matches every record | a payload without `applicationId` sent while one record with `applicationId` "A" is stored: the answer is 200 "Application already exists" with `applicationId` "A", and nothing is saved | the lookup runs only for a payload that carries an `applicationId`, so the save's `required` validator answers 500 | medium, not executed | CrmRoutes.WebhookAbsentIdReportsAnother | CrmRoutes.CheckedWebhookRequiresId |

=== FILE: app_routing.dfy ===
/** The top-level choice of the frontend (frontend/src/App.js): the
    thank-you page for a thank-you query or a legacy thank-you path, the
    application form for everything else. */
module AppRouting {
  import opened Wrappers
  import opened Text
  import opened Url

  /** `params.get('page') === 'thankyou' && params.get('status') === 'success'
      && params.get('applicationId')`. */
  predicate IsThankYouQuery(search: string) {
    var ps := ParseQuery(search);
    && Get(ps, "page") == Some("thankyou")
    && Get(ps, "status") == Some("success")
    && TruthyStr(Get(ps, "applicationId"))
  }

  /** `[a-zA-Z0-9-]`. */
  predicate IdChar(c: char) {
    'a' <= c <= 'z' || 'A' <= c <= 'Z' || '0' <= c <= '9' || c == '-'
  }

  predicate IdString(s: string) {
    s != "" && forall i :: 0 <= i < |s| ==> IdChar(s[i])
  }

  /** Length of the run of id characters at the start of `s`. */
  function IdRunLen(s: string): (k: nat)
    ensures k <= |s|
    ensures forall i :: 0 <= i < k ==> IdChar(s[i])
    ensures k < |s| ==> !IdChar(s[k])
  {
    if |s| > 0 && IdChar(s[0]) then 1 + IdRunLen(s[1..]) else 0
  }

  const LegacyPrefix := "/application/"

  /** `/^\/application\/[a-zA-Z0-9-]+\/thankyou\/?$/.test(path)`. The id
      characters exclude '/', so the id is the whole run of them after the
      prefix, and the rest must be "/thankyou" or "/thankyou/". */
  predicate IsLegacyPath(path: string) {
    && StartsWith(path, LegacyPrefix)
    && var rest := path[|LegacyPrefix|..];
    && var k := IdRunLen(rest);
    && k > 0 && (rest[k..] == "/thankyou" || rest[k..] == "/thankyou/")
  }

  /** The legacy path of an id, with or without the trailing slash. */
  function LegacyPath(id: string, slash: bool): string {
    LegacyPrefix + id + "/thankyou" + (if slash then "/" else "")
  }

  lemma {:induction false} IdRunOf(id: string, rest: string)
    requires forall i :: 0 <= i < |id| ==> IdChar(id[i])
    requires rest == [] || !IdChar(rest[0])
    ensures IdRunLen(id + rest) == |id|
    decreases |id|
  {
    if |id| > 0 {
      assert (id + rest)[1..] == id[1..] + rest;
      IdRunOf(id[1..], rest);
    }
  }

  /** The legacy paths are exactly the prefix, an id, and "/thankyou" with an
      optional slash. */
  lemma LegacyPathOf(id: string, slash: bool)
    requires IdString(id)
    ensures IsLegacyPath(LegacyPath(id, slash))
  {
    var path := LegacyPath(id, slash);
    var tail := "/thankyou" + (if slash then "/" else "");
    assert path == LegacyPrefix + (id + tail);
    assert path[..|LegacyPrefix|] == LegacyPrefix;
    assert path[|LegacyPrefix|..] == id + tail;
    IdRunOf(id, tail);
    assert (id + tail)[|id|..] == tail;
  }

  lemma LegacyPathShape(path: string)
    requires IsLegacyPath(path)
    ensures var rest := path[|LegacyPrefix|..];
            var id := rest[..IdRunLen(rest)];
            IdString(id) && (path == LegacyPath(id, false) || path == LegacyPath(id, true))
  {
    var rest := path[|LegacyPrefix|..];
    var k := IdRunLen(rest);
    assert path == path[..|LegacyPrefix|] + rest;
    assert rest == rest[..k] + rest[k..];
  }

  datatype View = ThankYouPage | FormPage

  /** `isThankYouQuery || isLegacyPath ? <ThankYou /> : <MultiStepForm />`. */
  function ChooseView(path: string, search: string): (v: View)
    ensures v == ThankYouPage <==> IsThankYouQuery(search) || IsLegacyPath(path)
  {
    if IsThankYouQuery(search) || IsLegacyPath(path) then ThankYouPage else FormPage
  }

  /** Spoiling any one of the three query conditions on a path that is not
      a legacy path shows the form. */
  lemma FormUnlessAllThree(path: string, search: string)
    requires !IsLegacyPath(path)
    requires var ps := ParseQuery(search);
             || Get(ps, "page") != Some("thankyou")
             || Get(ps, "status") != Some("success")
             || !TruthyStr(Get(ps, "applicationId"))
    ensures ChooseView(path, search) == FormPage
  {
  }
}

=== FILE: applicant.dfy ===
/** The applicant fields shared by the intake schema
    (backend/models/Application.js) and the CRM schema
    (crm/backend/models/Application.js): both declare the same paths with the
    same `required`, `trim` and `lowercase` options. This module models how
    Mongoose casts an incoming object onto those paths and which paths fail
    the `required` validator. */
module Applicant {
  import opened Wrappers
  import opened Text

  /** The applicant part of a stored document, after casting. Dates are kept
      as their opaque text. */
  datatype Applicant = Applicant(
    firstName: string,
    lastName: string,
    email: string,
    phone: string,
    dateOfBirth: string,
    street: string,
    city: string,
    state: string,
    zipCode: string,
    country: string,
    highestDegree: string,
    institution: string,
    graduationYear: int,
    fieldOfStudy: string,
    currentEmployer: Option<string>,
    jobTitle: Option<string>,
    yearsOfExperience: int,
    skills: seq<string>)

  /** The applicant part of a request body: every path may be absent. */
  datatype ApplicantInput = ApplicantInput(
    firstName: Option<string>,
    lastName: Option<string>,
    email: Option<string>,
    phone: Option<string>,
    dateOfBirth: Option<string>,
    street: Option<string>,
    city: Option<string>,
    state: Option<string>,
    zipCode: Option<string>,
    country: Option<string>,
    highestDegree: Option<string>,
    institution: Option<string>,
    graduationYear: Option<int>,
    fieldOfStudy: Option<string>,
    currentEmployer: Option<string>,
    jobTitle: Option<string>,
    yearsOfExperience: Option<int>,
    skills: Option<seq<string>>)

  /** A body that supplies no applicant path at all. */
  const NoInput := ApplicantInput(None, None, None, None, None, None, None, None, None, None,
                                  None, None, None, None, None, None, None, None)

  /** The `trim: true` setter on an optional path. */
  function TrimOpt(o: Option<string>): Option<string> {
    match o
    case Some(v) => Some(Trim(v))
    case None => None
  }

  /** The `trim: true, lowercase: true` setters of `email`. */
  function LowerTrimOpt(o: Option<string>): Option<string> {
    match o
    case Some(v) => Some(ToLower(Trim(v)))
    case None => None
  }

  /** The input as the document holds it once the setters have run. */
  function Cast(a: ApplicantInput): ApplicantInput {
    a.(firstName := TrimOpt(a.firstName),
       lastName := TrimOpt(a.lastName),
       email := LowerTrimOpt(a.email),
       phone := TrimOpt(a.phone),
       street := TrimOpt(a.street),
       city := TrimOpt(a.city),
       state := TrimOpt(a.state),
       zipCode := TrimOpt(a.zipCode),
       country := TrimOpt(a.country),
       institution := TrimOpt(a.institution),
       fieldOfStudy := TrimOpt(a.fieldOfStudy),
       currentEmployer := TrimOpt(a.currentEmployer),
       jobTitle := TrimOpt(a.jobTitle))
  }

  /** Mongoose's `required` check on a String (or Date text) path: present
      and not the empty string. */
  predicate Filled(o: Option<string>) {
    o.Some? && o.value != ""
  }

  function Check(name: string, ok: bool): seq<string> {
    if ok then [] else [name]
  }

  /** The required paths a cast document leaves unfilled, in schema order. */
  function MissingPaths(d: ApplicantInput): seq<string> {
    Check("firstName", Filled(d.firstName)) + Check("lastName", Filled(d.lastName))
    + Check("email", Filled(d.email)) + Check("phone", Filled(d.phone))
    + Check("dateOfBirth", Filled(d.dateOfBirth)) + Check("street", Filled(d.street))
    + Check("city", Filled(d.city)) + Check("state", Filled(d.state))
    + Check("zipCode", Filled(d.zipCode)) + Check("country", Filled(d.country))
    + Check("highestDegree", Filled(d.highestDegree)) + Check("institution", Filled(d.institution))
    + Check("graduationYear", d.graduationYear.Some?) + Check("fieldOfStudy", Filled(d.fieldOfStudy))
    + Check("yearsOfExperience", d.yearsOfExperience.Some?)
  }

  /** Every required applicant path is filled. */
  predicate Complete(d: ApplicantInput) {
    && Filled(d.firstName) && Filled(d.lastName) && Filled(d.email) && Filled(d.phone)
    && Filled(d.dateOfBirth) && Filled(d.street) && Filled(d.city) && Filled(d.state)
    && Filled(d.zipCode) && Filled(d.country) && Filled(d.highestDegree)
    && Filled(d.institution) && d.graduationYear.Some? && Filled(d.fieldOfStudy)
    && d.yearsOfExperience.Some?
  }

  /** The validator reports nothing exactly when the document is complete. */
  lemma MissingPathsEmptyIffComplete(d: ApplicantInput)
    ensures MissingPaths(d) == [] <==> Complete(d)
  {
  }

  /** Casts a request body onto the schema and runs the `required`
      validators: either the stored applicant or the unfilled paths. */
  function Validate(a: ApplicantInput): (r: Result<Applicant, seq<string>>)
    ensures r.Ok? <==> Complete(Cast(a))
    ensures r.Err? ==> r.error == MissingPaths(Cast(a)) && r.error != []
    ensures r.Ok? ==> Stored(r.value, a)
  {
    var d := Cast(a);
    if Complete(d) then
      Ok(Applicant(
        d.firstName.value, d.lastName.value, d.email.value, d.phone.value, d.dateOfBirth.value,
        d.street.value, d.city.value, d.state.value, d.zipCode.value, d.country.value,
        d.highestDegree.value, d.institution.value, d.graduationYear.value, d.fieldOfStudy.value,
        d.currentEmployer, d.jobTitle, d.yearsOfExperience.value, a.skills.GetOr([])))
    else
      MissingPathsEmptyIffComplete(d);
      Err(MissingPaths(d))
  }

  /** `p` is the stored form of body `a`: trimmed strings, a trimmed and
      lower-cased email, the other values as sent, and skills defaulting to
      the empty list. */
  predicate Stored(p: Applicant, a: ApplicantInput) {
    && Some(p.firstName) == TrimOpt(a.firstName)
    && Some(p.lastName) == TrimOpt(a.lastName)
    && Some(p.email) == LowerTrimOpt(a.email)
    && Some(p.phone) == TrimOpt(a.phone)
    && Some(p.dateOfBirth) == a.dateOfBirth
    && Some(p.street) == TrimOpt(a.street)
    && Some(p.city) == TrimOpt(a.city)
    && Some(p.state) == TrimOpt(a.state)
    && Some(p.zipCode) == TrimOpt(a.zipCode)
    && Some(p.country) == TrimOpt(a.country)
    && Some(p.highestDegree) == a.highestDegree
    && Some(p.institution) == TrimOpt(a.institution)
    && Some(p.graduationYear) == a.graduationYear
    && Some(p.fieldOfStudy) == TrimOpt(a.fieldOfStudy)
    && p.currentEmployer == TrimOpt(a.currentEmployer)
    && p.jobTitle == TrimOpt(a.jobTitle)
    && Some(p.yearsOfExperience) == a.yearsOfExperience
    && p.skills == a.skills.GetOr([])
  }

  /** Why a `save()` or an update was rejected: the validators (the failing
      paths), or a unique index (the duplicated path). Either surfaces as a
      500 response. */
  datatype SaveError = ValidationFailed(paths: seq<string>) | DuplicateKey(path: string)

  // ---------------------------------------------------------------------
  // The stored-document invariant
  // ---------------------------------------------------------------------

  predicate Trimmed(s: string) {
    Trim(s) == s
  }

  predicate TrimmedOpt(o: Option<string>) {
    o.None? || Trimmed(o.value)
  }

  /** What every stored applicant satisfies: required strings are non-empty,
      trimmed strings are trimmed, and the email is lower-case. */
  predicate WellFormed(p: Applicant) {
    && p.firstName != "" && Trimmed(p.firstName)
    && p.lastName != "" && Trimmed(p.lastName)
    && p.email != "" && Trimmed(p.email) && IsLower(p.email)
    && p.phone != "" && Trimmed(p.phone)
    && p.dateOfBirth != ""
    && p.street != "" && Trimmed(p.street)
    && p.city != "" && Trimmed(p.city)
    && p.state != "" && Trimmed(p.state)
    && p.zipCode != "" && Trimmed(p.zipCode)
    && p.country != "" && Trimmed(p.country)
    && p.highestDegree != ""
    && p.institution != "" && Trimmed(p.institution)
    && p.fieldOfStudy != "" && Trimmed(p.fieldOfStudy)
    && TrimmedOpt(p.currentEmployer)
    && TrimmedOpt(p.jobTitle)
  }

  lemma TrimOptTrimmed(o: Option<string>)
    ensures TrimmedOpt(TrimOpt(o))
  {
    if o.Some? {
      TrimIdempotent(o.value);
    }
  }

  /** Lower-casing keeps a trimmed string trimmed. */
  lemma LowerOfTrimmed(s: string)
    requires Trimmed(s)
    ensures Trimmed(ToLower(s)) && IsLower(ToLower(s))
  {
    var t := ToLower(s);
    if t != [] {
      assert !IsSpace(s[0]) && !IsSpace(s[|s| - 1]) by {
        TrimIdempotent(s);
      }
      TrimOfTrimmed(t);
    } else {
      TrimOfTrimmed(t);
    }
  }

  /** Whatever passes validation is stored well-formed. */
  lemma ValidatedIsWellFormed(a: ApplicantInput)
    requires Validate(a).Ok?
    ensures WellFormed(Validate(a).value)
  {
    var p := Validate(a).value;
    TrimIdempotent(a.firstName.value);
    TrimIdempotent(a.lastName.value);
    TrimIdempotent(a.email.value);
    LowerOfTrimmed(Trim(a.email.value));
    TrimIdempotent(a.phone.value);
    TrimIdempotent(a.street.value);
    TrimIdempotent(a.city.value);
    TrimIdempotent(a.state.value);
    TrimIdempotent(a.zipCode.value);
    TrimIdempotent(a.country.value);
    TrimIdempotent(a.institution.value);
    TrimIdempotent(a.fieldOfStudy.value);
    TrimOptTrimmed(a.currentEmployer);
    TrimOptTrimmed(a.jobTitle);
  }

  // ---------------------------------------------------------------------
  // Updates (`findOneAndUpdate` with `runValidators: true`)
  // ---------------------------------------------------------------------

  /** The supplied paths that the update validators reject: a required
      string path set to a value that is empty once cast. */
  function RejectedUpdatePaths(a: ApplicantInput): seq<string> {
    var d := Cast(a);
    Check("firstName", d.firstName != Some("")) + Check("lastName", d.lastName != Some(""))
    + Check("email", d.email != Some("")) + Check("phone", d.phone != Some(""))
    + Check("dateOfBirth", d.dateOfBirth != Some("")) + Check("street", d.street != Some(""))
    + Check("city", d.city != Some("")) + Check("state", d.state != Some(""))
    + Check("zipCode", d.zipCode != Some("")) + Check("country", d.country != Some(""))
    + Check("highestDegree", d.highestDegree != Some(""))
    + Check("institution", d.institution != Some(""))
    + Check("fieldOfStudy", d.fieldOfStudy != Some(""))
  }

  function Pick<T>(o: Option<T>, old_: T): T {
    match o
    case Some(v) => v
    case None => old_
  }

  /** Sets every supplied path, cast, and leaves the others as they were. */
  function Overlay(p: Applicant, a: ApplicantInput): (q: Applicant)
    ensures a == NoInput ==> q == p
  {
    var d := Cast(a);
    Applicant(
      Pick(d.firstName, p.firstName), Pick(d.lastName, p.lastName), Pick(d.email, p.email),
      Pick(d.phone, p.phone), Pick(d.dateOfBirth, p.dateOfBirth), Pick(d.street, p.street),
      Pick(d.city, p.city), Pick(d.state, p.state), Pick(d.zipCode, p.zipCode),
      Pick(d.country, p.country), Pick(d.highestDegree, p.highestDegree),
      Pick(d.institution, p.institution), Pick(d.graduationYear, p.graduationYear),
      Pick(d.fieldOfStudy, p.fieldOfStudy),
      if d.currentEmployer.Some? then d.currentEmployer else p.currentEmployer,
      if d.jobTitle.Some? then d.jobTitle else p.jobTitle,
      Pick(d.yearsOfExperience, p.yearsOfExperience), Pick(d.skills, p.skills))
  }

  /** Setting the same paths again changes nothing: the setters are
      idempotent. */
  lemma OverlayIdempotent(p: Applicant, a: ApplicantInput)
    ensures Overlay(Overlay(p, a), a) == Overlay(p, a)
  {
    var fields := [a.firstName, a.lastName, a.phone, a.street, a.city, a.state, a.zipCode,
                   a.country, a.institution, a.fieldOfStudy, a.currentEmployer, a.jobTitle];
    forall i | 0 <= i < |fields| && fields[i].Some?
      ensures Trim(Trim(fields[i].value)) == Trim(fields[i].value)
    {
      TrimIdempotent(fields[i].value);
    }
    if a.email.Some? {
      var e := ToLower(Trim(a.email.value));
      TrimIdempotent(a.email.value);
      LowerOfTrimmed(Trim(a.email.value));
      assert ToLower(Trim(e)) == e;
    }
  }

  /** An update the validators accept keeps a stored applicant well-formed. */
  lemma OverlayWellFormed(p: Applicant, a: ApplicantInput)
    requires WellFormed(p)
    requires RejectedUpdatePaths(a) == []
    ensures WellFormed(Overlay(p, a))
  {
    TrimOptTrimmed(a.firstName);
    TrimOptTrimmed(a.lastName);
    if a.email.Some? {
      TrimIdempotent(a.email.value);
      LowerOfTrimmed(Trim(a.email.value));
    }
    TrimOptTrimmed(a.phone);
    TrimOptTrimmed(a.street);
    TrimOptTrimmed(a.city);
    TrimOptTrimmed(a.state);
    TrimOptTrimmed(a.zipCode);
    TrimOptTrimmed(a.country);
    TrimOptTrimmed(a.institution);
    TrimOptTrimmed(a.fieldOfStudy);
    TrimOptTrimmed(a.currentEmployer);
    TrimOptTrimmed(a.jobTitle);
  }
}

=== FILE: auth_middleware.dfy ===
/** The CRM's guard for protected routes
    (crm/backend/middleware/authMiddleware.js): where the token comes from,
    how a `Bearer ` prefix is removed, and when the request goes on. */
module AuthMiddleware {
  import opened Wrappers
  import opened Text
  import opened AuthStore

  /** The two request headers that may carry a token; absent is None. */
  datatype Headers = Headers(authorization: Option<string>, xCrmToken: Option<string>)

  /** `req.headers['authorization'] || req.headers['x-crm-token']`. */
  function AuthHeader(h: Headers): (a: Option<string>)
    ensures TruthyStr(h.authorization) ==> a == h.authorization
    ensures !TruthyStr(h.authorization) ==> a == h.xCrmToken
  {
    OrElse(h.authorization, h.xCrmToken)
  }

  const BearerPrefix := "Bearer "

  /** The header without a leading "Bearer ", or the whole header. */
  function StripBearer(auth: string): (token: string)
    ensures StartsWith(auth, BearerPrefix) ==> auth == BearerPrefix + token
    ensures !StartsWith(auth, BearerPrefix) ==> token == auth
  {
    if StartsWith(auth, BearerPrefix) then auth[|BearerPrefix|..] else auth
  }

  /** A token sent as "Bearer <token>" is read back unchanged. */
  lemma StripBearerPrefixed(token: string)
    ensures StripBearer(BearerPrefix + token) == token
  {
    assert StartsWith(BearerPrefix + token, BearerPrefix) by {
      assert (BearerPrefix + token)[..|BearerPrefix|] == BearerPrefix;
    }
  }

  /** The token a request presents, if its header is truthy. */
  function PresentedToken(h: Headers): (t: Option<string>)
    ensures t.Some? <==> TruthyStr(AuthHeader(h))
    ensures t.Some? ==> t.value == StripBearer(AuthHeader(h).value)
  {
    var auth := AuthHeader(h);
    if TruthyStr(auth) then Some(StripBearer(auth.value)) else None
  }

  /** What the middleware does with a request. */
  datatype Outcome =
    | Reject(status: int, message: string)
      /** `req.crmUser` is set to the session's user and `next()` runs once. */
    | Next(user: Session)

  const MissingTokenMessage := "Missing auth token"
  const InvalidTokenMessage := "Invalid or expired token"

  /** `authMiddleware`: 401 without a token, 401 when the token does not
      verify, and the verified user otherwise. Verifying may delete an
      expired token, so the token map is threaded through. */
  function Guard(tokens: Tokens, h: Headers, now: int): (r: (Tokens, Outcome))
    ensures PresentedToken(h).None? ==> r == (tokens, Reject(401, MissingTokenMessage))
    ensures PresentedToken(h).Some? ==>
              var v := VerifyToken(tokens, PresentedToken(h), now);
              && r.0 == v.0
              && (v.1.None? ==> r.1 == Reject(401, InvalidTokenMessage))
              && (v.1.Some? ==> r.1 == Next(v.1.value))
  {
    var token := PresentedToken(h);
    if token.None? then (tokens, Reject(401, MissingTokenMessage))
    else
      var v := VerifyToken(tokens, token, now);
      if v.1.None? then (v.0, Reject(401, InvalidTokenMessage)) else (v.0, Next(v.1.value))
  }

  /** The request goes on exactly when its token names a live session, and
      then with that session's user. */
  lemma GuardPassesIffLive(tokens: Tokens, h: Headers, now: int)
    ensures Guard(tokens, h, now).1.Next? <==>
              && PresentedToken(h).Some?
              && var t := PresentedToken(h).value;
              && t != "" && t in tokens && !Expired(tokens[t], now)
    ensures Guard(tokens, h, now).1.Next? ==>
              Guard(tokens, h, now).1.user == tokens[PresentedToken(h).value]
  {
  }

  /** A truthy `authorization` header decides alone: `x-crm-token` is
      ignored. */
  lemma AuthorizationTakesPrecedence(tokens: Tokens, auth: string, x1: Option<string>, x2: Option<string>, now: int)
    requires auth != ""
    ensures Guard(tokens, Headers(Some(auth), x1), now) == Guard(tokens, Headers(Some(auth), x2), now)
  {
  }

  /** "Missing auth token" is the answer exactly when neither header is a
      non-empty string; the guard then touches no session. */
  lemma MissingTokenIffNoHeader(tokens: Tokens, h: Headers, now: int)
    ensures Guard(tokens, h, now).1 == Reject(401, MissingTokenMessage) <==>
              !TruthyStr(h.authorization) && !TruthyStr(h.xCrmToken)
    ensures !TruthyStr(h.authorization) && !TruthyStr(h.xCrmToken) ==> Guard(tokens, h, now).0 == tokens
  {
  }
}

=== FILE: auth_routes.dfy ===
/** The CRM's login endpoints (crm/backend/routes/auth.js): `/login`
    against one configured admin account, `/logout` and `/me`. */
module AuthRoutes {
  import opened Wrappers
  import opened Text
  import opened AuthStore
  import opened AuthMiddleware

  /** The configured account: `CRM_ADMIN_USER || 'admin'` and
      `CRM_ADMIN_PASS || 'password'`. */
  datatype Admin = Admin(user: string, pass: string)

  function ConfiguredAdmin(userEnv: Option<string>, passEnv: Option<string>): (a: Admin)
    ensures !TruthyStr(userEnv) && !TruthyStr(passEnv) ==> a == Admin("admin", "password")
    ensures TruthyStr(userEnv) ==> a.user == userEnv.value
    ensures TruthyStr(passEnv) ==> a.pass == passEnv.value
  {
    Admin(OrElse(userEnv, Some("admin")).value, OrElse(passEnv, Some("password")).value)
  }

  /** A response of these endpoints. */
  datatype Reply =
    | LoggedIn(token: string, username: string)
    | LoggedOut
    | Me(authenticated: bool, user: Option<Session>)
    | Refused(status: int, message: string)
  {
    function StatusCode(): int {
      match this
      case LoggedIn(_, _) => 200
      case LoggedOut => 200
      case Me(_, _) => 200
      case Refused(status, _) => status
    }
  }

  const MissingCredentialsMessage := "Missing credentials"
  const InvalidCredentialsMessage := "Invalid credentials"
  const MissingTokenReply := "Missing token"

  /** `POST /login`: 400 unless both values are truthy, a new token for the
      configured account, 401 otherwise. `newToken` is the token
      `createToken` would draw. */
  function Login(tokens: Tokens, username: Option<string>, password: Option<string>, admin: Admin,
                 newToken: string, now: int, ttl: Option<int>): (r: (Tokens, Reply))
    ensures !TruthyStr(username) || !TruthyStr(password) ==>
              r == (tokens, Refused(400, MissingCredentialsMessage))
    ensures r.1.LoggedIn? <==>
              TruthyStr(username) && TruthyStr(password) && username.value == admin.user && password.value == admin.pass
    ensures r.1.LoggedIn? ==>
              && r.1 == LoggedIn(newToken, admin.user)
              && r.0 == CreateToken(tokens, admin.user, newToken, now, ttl).0
    ensures r.1.Refused? ==> r.0 == tokens && (r.1.status == 400 || r.1.status == 401)
  {
    if !TruthyStr(username) || !TruthyStr(password) then (tokens, Refused(400, MissingCredentialsMessage))
    else if username.value == admin.user && password.value == admin.pass then
      var created := CreateToken(tokens, username.value, newToken, now, ttl);
      (created.0, LoggedIn(created.1, username.value))
    else (tokens, Refused(401, InvalidCredentialsMessage))
  }

  /** `POST /logout`: 400 without a token header; otherwise the token is
      revoked and the answer is 200, known token or not. */
  function Logout(tokens: Tokens, h: Headers): (r: (Tokens, Reply))
    ensures PresentedToken(h).None? ==> r == (tokens, Refused(400, MissingTokenReply))
    ensures PresentedToken(h).Some? ==>
              r == (RevokeToken(tokens, PresentedToken(h).value).0, LoggedOut)
  {
    var token := PresentedToken(h);
    if token.None? then (tokens, Refused(400, MissingTokenReply))
    else (RevokeToken(tokens, token.value).0, LoggedOut)
  }

  /** `GET /me`: always 200; authenticated with the user exactly when the
      presented token verifies. */
  function WhoAmI(tokens: Tokens, h: Headers, now: int): (r: (Tokens, Reply))
    ensures r.1.Me? && r.1.StatusCode() == 200
    ensures r.1.authenticated <==> Guard(tokens, h, now).1.Next?
    ensures r.1.authenticated ==> r.1.user == Some(Guard(tokens, h, now).1.user)
    ensures !r.1.authenticated ==> r.1.user.None?
    ensures r.0 == Guard(tokens, h, now).0
  {
    var token := PresentedToken(h);
    if token.None? then (tokens, Me(false, None))
    else
      var v := VerifyToken(tokens, token, now);
      if v.1.None? then (v.0, Me(false, None)) else (v.0, Me(true, v.1))
  }

  /** After a successful login, `/me` with "Bearer <token>" reports the
      admin as authenticated until the session expires. */
  lemma LoginThenMe(tokens: Tokens, admin: Admin, newToken: string, now: int, ttl: int, later: int, x: Option<string>)
    requires admin.user != "" && admin.pass != "" && newToken != ""
    requires later <= now + ttl
    ensures var (t1, reply) := Login(tokens, Some(admin.user), Some(admin.pass), admin, newToken, now, Some(ttl));
            && reply == LoggedIn(newToken, admin.user)
            && var me := WhoAmI(t1, Headers(Some(BearerPrefix + newToken), x), later).1;
            && me.authenticated && me.user.value.username == admin.user
  {
    StripBearerPrefixed(newToken);
  }

  /** After logging out with a header, the same header no longer
      authenticates. */
  lemma LogoutThenMe(tokens: Tokens, h: Headers, now: int)
    requires PresentedToken(h).Some?
    ensures !WhoAmI(Logout(tokens, h).0, h, now).1.authenticated
  {
  }

  /** Wrong credentials create no token. */
  lemma WrongCredentialsCreateNothing(tokens: Tokens, username: string, password: string, admin: Admin,
                                      newToken: string, now: int, ttl: Option<int>)
    requires username != admin.user || password != admin.pass
    ensures Login(tokens, Some(username), Some(password), admin, newToken, now, ttl).0 == tokens
    ensures Login(tokens, Some(username), Some(password), admin, newToken, now, ttl).1.Refused?
  {
  }

  /** Logging out ends only the presented session: every other session
      stays as it was, and without a header nothing changes. */
  lemma LogoutKeepsOtherSessions(tokens: Tokens, h: Headers)
    ensures !TruthyStr(h.authorization) && !TruthyStr(h.xCrmToken) ==>
              Logout(tokens, h) == (tokens, Refused(400, MissingTokenReply))
    ensures forall t :: t in tokens && Some(t) != PresentedToken(h) ==>
              t in Logout(tokens, h).0 && Logout(tokens, h).0[t] == tokens[t]
    ensures forall t :: t in Logout(tokens, h).0 ==> t in tokens
  {
  }
}

=== FILE: auth_store.dfy ===
/** The CRM's in-memory session tokens (crm/backend/utils/authStore.js): a
    map from token to session with a time-to-live. The clock, the fresh
    token and the configured TTL are parameters. */
module AuthStore {
  import opened Wrappers
  import opened Text

  /** A session. `expiresAt` is None when it is `NaN`, which happens when
      the configured TTL does not parse as a number. */
  datatype Session = Session(username: string, createdAt: int, expiresAt: Option<int>)

  type Tokens = map<string, Session>

  const DefaultTtlText := "3600000"

  /** `parseInt(process.env.CRM_TOKEN_TTL_MS || String(1000 * 60 * 60))`;
      None is `NaN`. */
  function Ttl(env: Option<string>): (ttl: Option<int>)
    ensures !TruthyStr(env) ==> ttl == Some(3600000)
  {
    if !TruthyStr(env) then
      assert DefaultTtlText == IntToString(3600000) by {
        assert NatToString(3600000) == "3600000";
      }
      ParseIntOfIntToString(3600000, true);
      ParseInt(DefaultTtlText, true)
    else
      ParseInt(env.value, true)
  }

  /** `Date.now() > rec.expiresAt`: false when the expiry is `NaN`. */
  predicate Expired(s: Session, now: int) {
    s.expiresAt.Some? && now > s.expiresAt.value
  }

  /** `createToken`: record the session under the fresh token. */
  function CreateToken(tokens: Tokens, username: string, token: string, now: int, ttl: Option<int>): (r: (Tokens, string))
    ensures r.1 == token
    ensures token in r.0 && r.0[token].username == username && r.0[token].createdAt == now
    ensures ttl.Some? ==> r.0[token].expiresAt == Some(now + ttl.value)
    ensures ttl.None? ==> r.0[token].expiresAt.None?
    ensures forall t :: t != token ==> (t in r.0 <==> t in tokens)
    ensures forall t :: t != token && t in tokens ==> r.0[t] == tokens[t]
  {
    var expiresAt := if ttl.Some? then Some(now + ttl.value) else None;
    (tokens[token := Session(username, now, expiresAt)], token)
  }

  /** `verifyToken`: the session of a live token. A falsy or unknown token
      gives None; an expired one gives None and is deleted. */
  function VerifyToken(tokens: Tokens, token: Option<string>, now: int): (r: (Tokens, Option<Session>))
    ensures r.1.Some? <==> TruthyStr(token) && token.value in tokens && !Expired(tokens[token.value], now)
    ensures r.1.Some? ==> r.1.value == tokens[token.value] && r.0 == tokens
    ensures TruthyStr(token) && token.value in tokens && Expired(tokens[token.value], now) ==>
              r.0 == tokens - {token.value}
    ensures !(TruthyStr(token) && token.value in tokens) ==> r.0 == tokens
    ensures forall t :: t in r.0 ==> t in tokens && r.0[t] == tokens[t]
  {
    if !TruthyStr(token) then (tokens, None)
    else if token.value !in tokens then (tokens, None)
    else if Expired(tokens[token.value], now) then (tokens - {token.value}, None)
    else (tokens, Some(tokens[token.value]))
  }

  /** `revokeToken`: delete the token; true iff it was present. */
  function RevokeToken(tokens: Tokens, token: string): (r: (Tokens, bool))
    ensures r.1 <==> token in tokens
    ensures token !in r.0
    ensures forall t :: t != token ==> (t in r.0 <==> t in tokens)
    ensures forall t :: t != token && t in tokens ==> r.0[t] == tokens[t]
  {
    (tokens - {token}, token in tokens)
  }

  /** A fresh session verifies until its expiry instant, inclusive, and
      yields the user it was created for. */
  lemma VerifyAfterCreate(tokens: Tokens, username: string, token: string, now: int, ttl: int, later: int)
    requires token != "" && later <= now + ttl
    ensures var created := CreateToken(tokens, username, token, now, Some(ttl)).0;
            VerifyToken(created, Some(token), later).1 == Some(Session(username, now, Some(now + ttl)))
  {
  }

  /** Once a verify finds the token expired, every later verify of it fails,
      whatever the clock says. */
  lemma ExpiredStaysExpired(tokens: Tokens, token: string, now: int, later: int)
    requires token in tokens && Expired(tokens[token], now)
    ensures VerifyToken(tokens, Some(token), now).1.None?
    ensures var after := VerifyToken(tokens, Some(token), now).0;
            VerifyToken(after, Some(token), later).1.None?
  {
  }

  /** Without a parsable TTL a session never expires. */
  lemma NaNTtlNeverExpires(tokens: Tokens, username: string, token: string, now: int, later: int)
    requires token != ""
    ensures var created := CreateToken(tokens, username, token, now, None).0;
            VerifyToken(created, Some(token), later).1.Some?
  {
  }

  /** A revoked token no longer verifies. */
  lemma VerifyAfterRevoke(tokens: Tokens, token: string, now: int)
    ensures VerifyToken(RevokeToken(tokens, token).0, Some(token), now).1.None?
  {
  }
}

=== FILE: crm_model.dfy ===
/** The CRM collection (crm/backend/models/Application.js): the stored
    record with its CRM-only paths, the `status` enumeration, how a body
    becomes a new document or updates an existing one, and the unique
    identifiers. */
module CrmModel {
  import opened Wrappers
  import opened Text
  import opened Applicant

  /** The `status` enumeration, in schema order. */
  datatype Status = New | Reviewed | Contacted | Interviewed | Hired | Rejected

  function StatusName(s: Status): string {
    match s
    case New => "new"
    case Reviewed => "reviewed"
    case Contacted => "contacted"
    case Interviewed => "interviewed"
    case Hired => "hired"
    case Rejected => "rejected"
  }

  /** The enum validator: a string is accepted iff it names a status. */
  function ParseStatus(v: string): (r: Option<Status>)
    ensures r.Some? ==> StatusName(r.value) == v
    ensures r.None? ==> forall s: Status :: StatusName(s) != v
  {
    if v == "new" then Some(New)
    else if v == "reviewed" then Some(Reviewed)
    else if v == "contacted" then Some(Contacted)
    else if v == "interviewed" then Some(Interviewed)
    else if v == "hired" then Some(Hired)
    else if v == "rejected" then Some(Rejected)
    else None
  }

  /** Every status survives the trip to its stored name and back. */
  lemma ParseStatusName(s: Status)
    ensures ParseStatus(StatusName(s)) == Some(s)
  {
  }

  /** A stored CRM document. `id` is the Mongo `_id`; absent optional paths
      are None. Dates are instants in milliseconds. */
  datatype CrmRecord = CrmRecord(
    id: string,
    applicationId: string,
    transactionId: string,
    applicant: Applicant,
    status: Status,
    assignedTo: Option<string>,
    notes: Option<string>,
    tags: seq<string>,
    sessionId: Option<string>,
    thankYouUrl: Option<string>,
    submittedAt: int,
    createdAt: int,
    updatedAt: int,
    lastContactedAt: Option<int>)

  /** A webhook or PATCH body: every schema path may be absent, and `status`
      arrives as a plain string. */
  datatype CrmInput = CrmInput(
    applicant: ApplicantInput,
    applicationId: Option<string>,
    transactionId: Option<string>,
    status: Option<string>,
    assignedTo: Option<string>,
    notes: Option<string>,
    tags: Option<seq<string>>,
    sessionId: Option<string>,
    thankYouUrl: Option<string>,
    submittedAt: Option<int>,
    lastContactedAt: Option<int>)

  /** A body that supplies no path at all. */
  const NoUpdate := CrmInput(NoInput, None, None, None, None, None, None, None, None, None, None)

  /** The enum validator on a supplied `status`. */
  predicate StatusAccepted(v: Option<string>) {
    v.None? || ParseStatus(v.value).Some?
  }

  /** The validators of a new document: every required path filled and a
      `status`, when given, in the enumeration. */
  function CreateErrors(body: CrmInput): (e: seq<string>)
    ensures e == [] <==>
              && Complete(Cast(body.applicant))
              && Filled(body.applicationId) && Filled(body.transactionId)
              && StatusAccepted(body.status)
  {
    MissingPathsEmptyIffComplete(Cast(body.applicant));
    Check("applicationId", Filled(body.applicationId)) + Check("transactionId", Filled(body.transactionId))
    + MissingPaths(Cast(body.applicant)) + Check("status", StatusAccepted(body.status))
  }

  /** `new Application(body)`, validated: `status` defaults to 'new', `tags`
      (and `skills`) to the empty list, `submittedAt`, `createdAt` and
      `updatedAt` to the current time; trimmed paths are trimmed. */
  function NewCrmRecord(body: CrmInput, objectId: string, now: int): (r: Result<CrmRecord, seq<string>>)
    ensures r.Ok? <==> CreateErrors(body) == []
    ensures r.Err? ==> r.error == CreateErrors(body)
    ensures r.Ok? ==>
              && r.value.id == objectId
              && Some(r.value.applicationId) == body.applicationId
              && Some(r.value.transactionId) == body.transactionId
              && Stored(r.value.applicant, body.applicant)
              && (body.status.None? ==> r.value.status == New)
              && (body.status.Some? ==> StatusName(r.value.status) == body.status.value)
              && r.value.tags == body.tags.GetOr([])
              && r.value.assignedTo == TrimOpt(body.assignedTo)
              && r.value.notes == TrimOpt(body.notes)
              && r.value.sessionId == TrimOpt(body.sessionId)
              && r.value.thankYouUrl == TrimOpt(body.thankYouUrl)
              && r.value.submittedAt == body.submittedAt.GetOr(now)
              && r.value.createdAt == now && r.value.updatedAt == now
              && r.value.lastContactedAt == body.lastContactedAt
  {
    var errors := CreateErrors(body);
    if errors != [] then Err(errors)
    else
      var status := if body.status.Some? then ParseStatus(body.status.value).value else New;
      Ok(CrmRecord(objectId, body.applicationId.value, body.transactionId.value,
                   Validate(body.applicant).value, status,
                   TrimOpt(body.assignedTo), TrimOpt(body.notes), body.tags.GetOr([]),
                   TrimOpt(body.sessionId), TrimOpt(body.thankYouUrl),
                   body.submittedAt.GetOr(now), now, now, body.lastContactedAt))
  }

  // ---------------------------------------------------------------------
  // The collection
  // ---------------------------------------------------------------------

  predicate HasId(store: seq<CrmRecord>, id: string) {
    exists i :: 0 <= i < |store| && store[i].id == id
  }

  predicate HasApplicationId(store: seq<CrmRecord>, applicationId: string) {
    exists i :: 0 <= i < |store| && store[i].applicationId == applicationId
  }

  predicate HasTransactionId(store: seq<CrmRecord>, transactionId: string) {
    exists i :: 0 <= i < |store| && store[i].transactionId == transactionId
  }

  /** What a stored CRM document satisfies. */
  predicate ValidRecord(r: CrmRecord) {
    && WellFormed(r.applicant)
    && r.applicationId != "" && r.transactionId != ""
    && TrimmedOpt(r.assignedTo) && TrimmedOpt(r.notes)
    && TrimmedOpt(r.sessionId) && TrimmedOpt(r.thankYouUrl)
  }

  /** Every record valid, and the unique indexes on `_id`, `applicationId`
      and `transactionId`. */
  predicate ValidStore(store: seq<CrmRecord>) {
    && (forall i :: 0 <= i < |store| ==> ValidRecord(store[i]))
    && (forall i, j :: 0 <= i < j < |store| ==> store[i].id != store[j].id)
    && (forall i, j :: 0 <= i < j < |store| ==> store[i].applicationId != store[j].applicationId)
    && (forall i, j :: 0 <= i < j < |store| ==> store[i].transactionId != store[j].transactionId)
  }

  /** `save()` of a new document: the validators first, then the unique
      indexes (the new `_id` is unused). */
  function Insert(store: seq<CrmRecord>, body: CrmInput, objectId: string, now: int): (r: Result<CrmRecord, SaveError>)
    ensures r.Ok? <==>
              && NewCrmRecord(body, objectId, now).Ok?
              && !HasApplicationId(store, body.applicationId.value)
              && !HasTransactionId(store, body.transactionId.value)
    ensures r.Ok? ==> r.value == NewCrmRecord(body, objectId, now).value
    ensures r.Err? && r.error.ValidationFailed? ==> r.error.paths == CreateErrors(body) != []
  {
    match NewCrmRecord(body, objectId, now)
    case Err(paths) => Err(ValidationFailed(paths))
    case Ok(rec) =>
      if HasApplicationId(store, rec.applicationId) then Err(DuplicateKey("applicationId"))
      else if HasTransactionId(store, rec.transactionId) then Err(DuplicateKey("transactionId"))
      else Ok(rec)
  }

  /** A record built from a body that passed the validators is valid. */
  lemma NewCrmRecordValid(body: CrmInput, objectId: string, now: int)
    requires NewCrmRecord(body, objectId, now).Ok?
    ensures ValidRecord(NewCrmRecord(body, objectId, now).value)
  {
    ValidatedIsWellFormed(body.applicant);
    TrimOptTrimmed(body.assignedTo);
    TrimOptTrimmed(body.notes);
    TrimOptTrimmed(body.sessionId);
    TrimOptTrimmed(body.thankYouUrl);
  }

  /** An insert into a valid collection keeps it valid. */
  lemma InsertKeepsStoreValid(store: seq<CrmRecord>, body: CrmInput, objectId: string, now: int)
    requires ValidStore(store) && !HasId(store, objectId)
    requires Insert(store, body, objectId, now).Ok?
    ensures ValidStore(store + [Insert(store, body, objectId, now).value])
  {
    var rec := Insert(store, body, objectId, now).value;
    NewCrmRecordValid(body, objectId, now);
    assert rec.id == objectId;
    AppendKeepsStoreValid(store, rec);
  }

  /** Appending a valid record whose unique values are all unused keeps the
      collection valid. */
  lemma AppendKeepsStoreValid(store: seq<CrmRecord>, rec: CrmRecord)
    requires ValidStore(store) && ValidRecord(rec)
    requires !HasId(store, rec.id)
    requires !HasApplicationId(store, rec.applicationId)
    requires !HasTransactionId(store, rec.transactionId)
    ensures ValidStore(store + [rec])
  {
    var s := store + [rec];
    forall i | 0 <= i < |s|
      ensures ValidRecord(s[i])
    {
      if i < |store| {
        assert s[i] == store[i];
      }
    }
    forall i, j | 0 <= i < j < |s|
      ensures s[i].id != s[j].id
      ensures s[i].applicationId != s[j].applicationId
      ensures s[i].transactionId != s[j].transactionId
    {
      assert s[i] == store[i];
      if j < |store| {
        assert s[j] == store[j];
      }
    }
  }

  /** Replacing a record by a valid one with the same `_id` and with
      unique values no other record holds keeps the collection valid. */
  lemma ReplaceKeepsStoreValid(store: seq<CrmRecord>, k: int, u: CrmRecord)
    requires ValidStore(store) && 0 <= k < |store|
    requires ValidRecord(u) && u.id == store[k].id
    requires forall j :: 0 <= j < |store| && j != k ==>
               store[j].applicationId != u.applicationId && store[j].transactionId != u.transactionId
    ensures ValidStore(store[k := u])
  {
    var s := store[k := u];
    forall i | 0 <= i < |s|
      ensures ValidRecord(s[i])
    {
      if i != k {
        assert s[i] == store[i];
      }
    }
    ReplaceKeepsKeysUnique(store, k, u);
  }

  /** The unique indexes accept a record that takes over the `_id` of the
      one it replaces and clashes with no other record. */
  lemma ReplaceKeepsKeysUnique(store: seq<CrmRecord>, k: int, u: CrmRecord)
    requires ValidStore(store) && 0 <= k < |store| && u.id == store[k].id
    requires forall j :: 0 <= j < |store| && j != k ==>
               store[j].applicationId != u.applicationId && store[j].transactionId != u.transactionId
    ensures var s := store[k := u];
            forall i, j :: 0 <= i < j < |s| ==>
              s[i].id != s[j].id && s[i].applicationId != s[j].applicationId && s[i].transactionId != s[j].transactionId
  {
    var s := store[k := u];
    forall i, j | 0 <= i < j < |s|
      ensures s[i].id != s[j].id && s[i].applicationId != s[j].applicationId && s[i].transactionId != s[j].transactionId
    {
      if i == k {
        assert s[j] == store[j];
      } else if j == k {
        assert s[i] == store[i];
      } else {
        assert s[i] == store[i] && s[j] == store[j];
      }
    }
  }

  // ---------------------------------------------------------------------
  // Updates (`findOneAndUpdate(..., {new: true, runValidators: true})`)
  // ---------------------------------------------------------------------

  /** The paths the update validators reject: a required path set to a
      value that is empty once cast, or a `status` outside the enumeration. */
  function UpdateErrors(body: CrmInput): (e: seq<string>)
    ensures e == [] ==> StatusAccepted(body.status)
    ensures e == [] ==> body.applicationId != Some("") && body.transactionId != Some("")
    ensures !StatusAccepted(body.status) ==> "status" in e
  {
    Check("applicationId", body.applicationId != Some("")) + Check("transactionId", body.transactionId != Some(""))
    + RejectedUpdatePaths(body.applicant) + Check("status", StatusAccepted(body.status))
  }

  function PickOpt<T>(o: Option<T>, old_: Option<T>): Option<T> {
    if o.Some? then o else old_
  }

  /** Sets every supplied path (cast) and `updatedAt`, and leaves the others
      as they were; there is no whitelist. */
  function ApplyUpdate(r: CrmRecord, body: CrmInput, now: int): (u: CrmRecord)
    requires StatusAccepted(body.status)
    ensures u.id == r.id && u.createdAt == r.createdAt && u.updatedAt == now
    ensures body.status.Some? ==> StatusName(u.status) == body.status.value
    ensures body.status.None? ==> u.status == r.status
    ensures u.applicationId == body.applicationId.GetOr(r.applicationId)
    ensures u.transactionId == body.transactionId.GetOr(r.transactionId)
    ensures u.applicant == Overlay(r.applicant, body.applicant)
    ensures body == NoUpdate ==> u == r.(updatedAt := now)
  {
    CrmRecord(
      r.id,
      body.applicationId.GetOr(r.applicationId),
      body.transactionId.GetOr(r.transactionId),
      Overlay(r.applicant, body.applicant),
      if body.status.Some? then ParseStatus(body.status.value).value else r.status,
      PickOpt(TrimOpt(body.assignedTo), r.assignedTo),
      PickOpt(TrimOpt(body.notes), r.notes),
      body.tags.GetOr(r.tags),
      PickOpt(TrimOpt(body.sessionId), r.sessionId),
      PickOpt(TrimOpt(body.thankYouUrl), r.thankYouUrl),
      body.submittedAt.GetOr(r.submittedAt),
      r.createdAt,
      now,
      PickOpt(body.lastContactedAt, r.lastContactedAt))
  }

  /** Applying the same update again, at the same or a later instant,
      changes nothing but `updatedAt`; and the instant of an update affects
      only `updatedAt`. */
  lemma ApplyUpdateIdempotent(r: CrmRecord, body: CrmInput, now1: int, now2: int)
    requires StatusAccepted(body.status)
    ensures ApplyUpdate(ApplyUpdate(r, body, now1), body, now2) == ApplyUpdate(r, body, now1).(updatedAt := now2)
    ensures ApplyUpdate(r, body, now2) == ApplyUpdate(r, body, now1).(updatedAt := now2)
  {
    OverlayIdempotent(r.applicant, body.applicant);
  }

  /** An update the validators accept keeps a record valid. */
  lemma ApplyUpdateValid(r: CrmRecord, body: CrmInput, now: int)
    requires ValidRecord(r) && UpdateErrors(body) == []
    ensures ValidRecord(ApplyUpdate(r, body, now))
  {
    var u := ApplyUpdate(r, body, now);
    ApplicantPathsAccepted(body);
    OverlayWellFormed(r.applicant, body.applicant);
    assert WellFormed(u.applicant);
    assert u.applicationId != "" && u.transactionId != "";
    PickTrimmed(body.assignedTo, r.assignedTo);
    PickTrimmed(body.notes, r.notes);
    PickTrimmed(body.sessionId, r.sessionId);
    PickTrimmed(body.thankYouUrl, r.thankYouUrl);
  }

  /** An update the validators accept sets no applicant path to an empty
      value. */
  lemma ApplicantPathsAccepted(body: CrmInput)
    requires UpdateErrors(body) == []
    ensures RejectedUpdatePaths(body.applicant) == []
  {
    var e := UpdateErrors(body);
    var a := Check("applicationId", body.applicationId != Some("")) + Check("transactionId", body.transactionId != Some(""));
    assert e == a + RejectedUpdatePaths(body.applicant) + Check("status", StatusAccepted(body.status));
    assert |e| >= |RejectedUpdatePaths(body.applicant)|;
  }

  /** A trimmed update value, or the trimmed old one, is trimmed. */
  lemma PickTrimmed(o: Option<string>, old_: Option<string>)
    requires TrimmedOpt(old_)
    ensures TrimmedOpt(PickOpt(TrimOpt(o), old_))
  {
    TrimOptTrimmed(o);
  }
}

=== FILE: crm_routes.dfy ===
/** The CRM application API (crm/backend/routes/applications.js): the
    idempotent webhook ingest, the filtered, sorted and paginated list, and
    lookup and update by `applicationId` or `_id`. Each handler is a
    transition from the collection and the request to the next collection
    and a response. */
module CrmRoutes {
  import opened Wrappers
  import opened Text
  import opened Applicant
  import opened CrmModel
  import Sorting
  import Seqs
  import opened ObjectId

  /** Why a handler answered 500. */
  datatype Failure =
    | SaveFailed(error: SaveError)
      /** The `_id` clause of the `$or` filter could not cast the id to an ObjectId. */
    | CastFailed(value: string)
      /** `skip`/`limit` were not numbers, or the skip was negative. */
    | BadPaging

  datatype Response =
    | Exists(applicationId: string)
    | Saved(applicationId: string)
    | Page(data: seq<CrmRecord>, total: nat, page: int, limit: int)
    | Found(record: CrmRecord)
    | NotFound
    | Failed(message: string, reason: Failure)
  {
    function StatusCode(): int {
      match this
      case Exists(_) => 200
      case Saved(_) => 201
      case Page(_, _, _, _) => 200
      case Found(_) => 200
      case NotFound => 404
      case Failed(_, _) => 500
    }

    /** The `success` field of the JSON body. */
    predicate Success() {
      !NotFound? && !Failed?
    }
  }

  const ExistsMessage := "Application already exists"
  const SavedMessage := "Application saved to CRM"
  const NotFoundMessage := "Application not found"
  const WebhookFailedMessage := "Error processing webhook"
  const ListFailedMessage := "Error fetching applications"
  const GetFailedMessage := "Error fetching application"
  const PatchFailedMessage := "Error updating application"

  /** A collection and the response that ends a request. */
  datatype Step = Step(store: seq<CrmRecord>, response: Response)

  // ---------------------------------------------------------------------
  // POST /webhook
  // ---------------------------------------------------------------------

  /** The first record with the given `applicationId` (`findOne`). */
  function FindByApplicationId(store: seq<CrmRecord>, applicationId: string): (r: Option<CrmRecord>)
    ensures r.Some? <==> HasApplicationId(store, applicationId)
    ensures r.Some? ==> r.value in store && r.value.applicationId == applicationId
  {
    if |store| == 0 then None
    else if store[0].applicationId == applicationId then Some(store[0])
    else
      var r := FindByApplicationId(store[1..], applicationId);
      assert HasApplicationId(store, applicationId) ==> HasApplicationId(store[1..], applicationId) by {
        if HasApplicationId(store, applicationId) {
          var k :| 0 <= k < |store| && store[k].applicationId == applicationId;
          assert store[1..][k - 1].applicationId == applicationId;
        }
      }
      assert HasApplicationId(store[1..], applicationId) ==> HasApplicationId(store, applicationId) by {
        if HasApplicationId(store[1..], applicationId) {
          var k :| 0 <= k < |store[1..]| && store[1..][k].applicationId == applicationId;
          assert store[k + 1].applicationId == applicationId;
        }
      }
      r
  }

  /** The document the webhook builds: the payload with `status` forced to
      'new' and `submittedAt` to the current time. */
  function Ingested(body: CrmInput, now: int): CrmInput {
    body.(status := Some("new"), submittedAt := Some(now))
  }

  /** `POST /webhook` as it is written. `findOne({applicationId})` runs with
      the payload's `applicationId` even when it is absent; the filter then
      is `findOne({})`, which returns a stored record when there is any (the
      first in natural order), and the payload is answered as already
      existing under that record's `applicationId`. Otherwise the handler is
      `WebhookChecked`. */
  function Webhook(store: seq<CrmRecord>, body: CrmInput, objectId: string, now: int): (s: Step)
    ensures body.applicationId.Some? && HasApplicationId(store, body.applicationId.value) ==>
              s == Step(store, Exists(body.applicationId.value))
    ensures body.applicationId.None? && |store| > 0 ==> s == Step(store, Exists(store[0].applicationId))
    ensures s.response.Saved? <==>
              && (body.applicationId.Some? || |store| == 0)
              && !(body.applicationId.Some? && HasApplicationId(store, body.applicationId.value))
              && Insert(store, Ingested(body, now), objectId, now).Ok?
    ensures s.response.Saved? ==>
              && s.store == store + [Insert(store, Ingested(body, now), objectId, now).value]
              && body.applicationId.Some? && s.response.applicationId == body.applicationId.value
    ensures s.response.Failed? ==> s.store == store && s.response.reason.SaveFailed?
    ensures s.response.Exists? ==> s.store == store && HasApplicationId(store, s.response.applicationId)
    ensures s.response.Exists? || s.response.Saved? || s.response.Failed?
  {
    if body.applicationId.None? && |store| > 0 then Step(store, Exists(store[0].applicationId))
    else WebhookChecked(store, body, objectId, now)
  }

  /** `POST /webhook` as evidently intended: the lookup runs only for a
      payload that carries an `applicationId`, so a stored one is
      acknowledged without a write and every other payload is saved as a new
      document. */
  function WebhookChecked(store: seq<CrmRecord>, body: CrmInput, objectId: string, now: int): (s: Step)
    ensures body.applicationId.Some? && HasApplicationId(store, body.applicationId.value) ==>
              s == Step(store, Exists(body.applicationId.value))
    ensures s.response.Saved? <==>
              && !(body.applicationId.Some? && HasApplicationId(store, body.applicationId.value))
              && Insert(store, Ingested(body, now), objectId, now).Ok?
    ensures s.response.Saved? ==>
              && s.store == store + [Insert(store, Ingested(body, now), objectId, now).value]
              && body.applicationId.Some? && s.response.applicationId == body.applicationId.value
    ensures s.response.Failed? ==> s.store == store && s.response.reason.SaveFailed?
    ensures s.response.Exists? || s.response.Saved? || s.response.Failed?
  {
    var existing := if body.applicationId.Some? then FindByApplicationId(store, body.applicationId.value) else None;
    if existing.Some? then Step(store, Exists(existing.value.applicationId))
    else
      var ins := Insert(store, Ingested(body, now), objectId, now);
      if ins.Err? then Step(store, Failed(WebhookFailedMessage, SaveFailed(ins.error)))
      else Step(store + [ins.value], Saved(ins.value.applicationId))
  }

  /** A newly ingested record carries the payload's values, except that
      `status` is 'new' and `submittedAt` is the current time. */
  lemma WebhookNewRecord(store: seq<CrmRecord>, body: CrmInput, objectId: string, now: int)
    requires Webhook(store, body, objectId, now).response.Saved?
    ensures var s := Webhook(store, body, objectId, now);
            && |s.store| == |store| + 1 && s.store[..|store|] == store
            && var rec := s.store[|store|];
            && rec.id == objectId
            && Some(rec.applicationId) == body.applicationId
            && Some(rec.transactionId) == body.transactionId
            && Stored(rec.applicant, body.applicant)
            && rec.status == New && rec.submittedAt == now
            && rec.createdAt == now && rec.updatedAt == now
            && rec.tags == body.tags.GetOr([])
            && rec.assignedTo == TrimOpt(body.assignedTo) && rec.notes == TrimOpt(body.notes)
  {
    var s := Webhook(store, body, objectId, now);
    assert s.store[..|store|] == store;
  }

  /** A payload whose `applicationId` is "", or absent while the collection
      is empty, fails the `required` validator. */
  lemma WebhookWithoutApplicationId(store: seq<CrmRecord>, body: CrmInput, objectId: string, now: int)
    requires ValidStore(store)
    requires body.applicationId == Some("") || (body.applicationId.None? && |store| == 0)
    ensures var s := Webhook(store, body, objectId, now);
            s.store == store && s.response.Failed? && s.response.reason.SaveFailed?
            && s.response.reason.error.ValidationFailed?
            && "applicationId" in s.response.reason.error.paths
  {
    CheckedWebhookRequiresId(store, body, objectId, now);
  }

  /** As written, a payload without `applicationId` sent to a non-empty
      collection is answered 200 "Application already exists" under the
      `applicationId` of a record it never named, and nothing is saved or
      reported as invalid. */
  lemma WebhookAbsentIdReportsAnother(store: seq<CrmRecord>, body: CrmInput, objectId: string, now: int)
    requires ValidStore(store) && |store| > 0
    requires body.applicationId.None?
    ensures var s := Webhook(store, body, objectId, now);
            && s.store == store && s.response.Exists? && s.response.StatusCode() == 200
            && s.response.applicationId == store[0].applicationId
            && Some(s.response.applicationId) != body.applicationId
  {
  }

  /** With the lookup guarded, a payload without a usable `applicationId`
      always fails the `required` validator, whatever the
      collection holds. */
  lemma CheckedWebhookRequiresId(store: seq<CrmRecord>, body: CrmInput, objectId: string, now: int)
    requires ValidStore(store)
    requires body.applicationId.None? || body.applicationId == Some("")
    ensures var s := WebhookChecked(store, body, objectId, now);
            s.store == store && s.response.Failed? && s.response.reason.SaveFailed?
            && s.response.reason.error.ValidationFailed?
            && "applicationId" in s.response.reason.error.paths
  {
    var e := CreateErrors(Ingested(body, now));
    assert e[0] == "applicationId";
    if body.applicationId == Some("") {
      assert forall k :: 0 <= k < |store| ==> store[k].applicationId != "";
    }
  }

  /** The written handler and the guarded one answer alike whenever the
      payload carries an `applicationId`, or the collection is empty. */
  lemma WebhookAgreesWithChecked(store: seq<CrmRecord>, body: CrmInput, objectId: string, now: int)
    requires body.applicationId.Some? || |store| == 0
    ensures Webhook(store, body, objectId, now) == WebhookChecked(store, body, objectId, now)
  {
  }

  /** A webhook keeps a valid collection valid. */
  lemma WebhookKeepsStoreValid(store: seq<CrmRecord>, body: CrmInput, objectId: string, now: int)
    requires ValidStore(store) && !HasId(store, objectId)
    ensures ValidStore(Webhook(store, body, objectId, now).store)
  {
    if Webhook(store, body, objectId, now).response.Saved? {
      InsertKeepsStoreValid(store, Ingested(body, now), objectId, now);
    }
  }

  function ApplicationIds(store: seq<CrmRecord>): (ids: seq<string>)
    ensures |ids| == |store|
    ensures forall i :: 0 <= i < |store| ==> ids[i] == store[i].applicationId
  {
    seq(|store|, i requires 0 <= i < |store| => store[i].applicationId)
  }

  /** How many records carry the given `applicationId`. */
  function CountApplicationId(store: seq<CrmRecord>, applicationId: string): nat {
    multiset(ApplicationIds(store))[applicationId]
  }

  lemma {:induction false} OccursOnce(s: seq<string>, x: string)
    requires forall i, j :: 0 <= i < j < |s| ==> s[i] != s[j]
    requires x in s
    ensures multiset(s)[x] == 1
    decreases |s|
  {
    assert s == [s[0]] + s[1..];
    if s[0] == x {
      assert x !in s[1..] by {
        forall k | 0 <= k < |s[1..]|
          ensures s[1..][k] != x
        {
          assert s[1..][k] == s[k + 1];
        }
      }
    } else {
      var t := s[1..];
      forall i, j | 0 <= i < j < |t|
        ensures t[i] != t[j]
      {
        assert t[i] == s[i + 1] && t[j] == s[j + 1];
      }
      OccursOnce(t, x);
    }
  }

  /** Delivering the same payload twice stores it once: the second delivery
      reports that the application exists and writes nothing. */
  lemma WebhookTwice(store: seq<CrmRecord>, body: CrmInput, o1: string, t1: int, o2: string, t2: int)
    requires ValidStore(store) && !HasId(store, o1)
    requires Webhook(store, body, o1, t1).response.Saved?
    ensures var s1 := Webhook(store, body, o1, t1);
            var s2 := Webhook(s1.store, body, o2, t2);
            && s2 == Step(s1.store, Exists(body.applicationId.value))
            && CountApplicationId(s2.store, body.applicationId.value) == 1
  {
    var s1 := Webhook(store, body, o1, t1);
    SavedIsStored(store, body, o1, t1);
    WebhookKeepsStoreValid(store, body, o1, t1);
    StoredOnce(s1.store, body.applicationId.value);
  }

  /** A saved payload's `applicationId` is in the collection afterwards. */
  lemma SavedIsStored(store: seq<CrmRecord>, body: CrmInput, objectId: string, now: int)
    requires Webhook(store, body, objectId, now).response.Saved?
    ensures body.applicationId.Some?
    ensures HasApplicationId(Webhook(store, body, objectId, now).store, body.applicationId.value)
  {
    var s := Webhook(store, body, objectId, now);
    assert s.store[|store|].applicationId == body.applicationId.value;
  }

  /** A valid collection holds each stored `applicationId` exactly once. */
  lemma StoredOnce(store: seq<CrmRecord>, applicationId: string)
    requires ValidStore(store) && HasApplicationId(store, applicationId)
    ensures CountApplicationId(store, applicationId) == 1
  {
    var ids := ApplicationIds(store);
    var k :| 0 <= k < |store| && store[k].applicationId == applicationId;
    assert ids[k] == applicationId;
    OccursOnce(ids, applicationId);
  }

  // ---------------------------------------------------------------------
  // GET /
  // ---------------------------------------------------------------------

  /** The query string of `GET /`; absent parameters are None. */
  datatype ListQuery = ListQuery(
    status: Option<string>,
    search: Option<string>,
    page: Option<string>,
    limit: Option<string>,
    sortBy: Option<string>,
    sortOrder: Option<string>)

  const DefaultQuery := ListQuery(None, None, None, None, None, None)

  /** The paths the text index covers. */
  function SearchFields(r: CrmRecord): seq<string> {
    [r.applicant.firstName, r.applicant.lastName, r.applicant.email]
  }

  /** The filter document: an exact `status` when given, and a `$text`
      search when given. `matcher` stands for MongoDB's text search over the
      indexed paths. */
  predicate Matches(r: CrmRecord, q: ListQuery, matcher: (string, seq<string>) -> bool) {
    && (TruthyStr(q.status) ==> StatusName(r.status) == q.status.value)
    && (TruthyStr(q.search) ==> matcher(q.search.value, SearchFields(r)))
  }

  /** The matching records in collection order. */
  function Filter(store: seq<CrmRecord>, q: ListQuery, matcher: (string, seq<string>) -> bool): (r: seq<CrmRecord>)
    ensures |r| <= |store|
    ensures Seqs.Subsequence(r, store)
    ensures forall x :: x in r ==> x in store && Matches(x, q, matcher)
    ensures forall i :: 0 <= i < |store| && Matches(store[i], q, matcher) ==> store[i] in r
  {
    if |store| == 0 then []
    else
      var rest := Filter(store[1..], q, matcher);
      assert forall i :: 1 <= i < |store| ==> store[i] == store[1..][i - 1];
      if Matches(store[0], q, matcher) then
        assert ([store[0]] + rest)[1..] == rest;
        [store[0]] + rest
      else rest
  }

  /** Without a `status` or `search`, every record matches. */
  lemma {:induction false} FilterAll(store: seq<CrmRecord>, q: ListQuery, matcher: (string, seq<string>) -> bool)
    requires !TruthyStr(q.status) && !TruthyStr(q.search)
    ensures Filter(store, q, matcher) == store
    decreases |store|
  {
    if |store| > 0 {
      FilterAll(store[1..], q, matcher);
      assert store == [store[0]] + store[1..];
    }
  }

  /** In a collection with distinct `_id`s the matching records are distinct. */
  lemma {:induction false} FilterDistinct(store: seq<CrmRecord>, q: ListQuery, matcher: (string, seq<string>) -> bool)
    requires forall i, j :: 0 <= i < j < |store| ==> store[i].id != store[j].id
    ensures Distinct(Filter(store, q, matcher))
    decreases |store|
  {
    if |store| > 0 {
      var t := store[1..];
      forall i, j | 0 <= i < j < |t|
        ensures t[i].id != t[j].id
      {
        assert t[i] == store[i + 1] && t[j] == store[j + 1];
      }
      FilterDistinct(t, q, matcher);
      var rest := Filter(t, q, matcher);
      if Matches(store[0], q, matcher) {
        assert store[0] !in t by {
          forall k | 0 <= k < |t|
            ensures t[k] != store[0]
          {
            assert t[k] == store[k + 1];
          }
        }
      }
    }
  }

  predicate Distinct<T(==)>(s: seq<T>) {
    forall i, j :: 0 <= i < j < |s| ==> s[i] != s[j]
  }

  /** A sequence without repetitions holds each value at most once. */
  lemma {:induction false} DistinctCounts<T>(a: seq<T>, x: T)
    requires Distinct(a)
    ensures multiset(a)[x] <= 1
    decreases |a|
  {
    if |a| > 0 {
      var t := a[1..];
      assert a == [a[0]] + t;
      assert Distinct(t) by {
        forall i, j | 0 <= i < j < |t|
          ensures t[i] != t[j]
        {
          assert t[i] == a[i + 1] && t[j] == a[j + 1];
        }
      }
      DistinctCounts(t, x);
      if a[0] == x {
        assert x !in t by {
          forall k | 0 <= k < |t|
            ensures t[k] != x
          {
            assert t[k] == a[k + 1];
          }
        }
      }
    }
  }

  /** A value at two positions is counted at least twice. */
  lemma RepeatCounts<T>(b: seq<T>, i: int, j: int)
    requires 0 <= i < j < |b|
    ensures b[i] == b[j] ==> multiset(b)[b[i]] >= 2
  {
    assert b == b[..j] + b[j..];
    assert b[..j][i] == b[i];
    assert b[j..][0] == b[j];
  }

  /** A permutation of a sequence without repetitions has none. */
  lemma DistinctPermutation<T>(a: seq<T>, b: seq<T>)
    requires Distinct(a) && multiset(a) == multiset(b)
    ensures Distinct(b)
  {
    forall i, j | 0 <= i < j < |b|
      ensures b[i] != b[j]
    {
      DistinctCounts(a, b[i]);
      RepeatCounts(b, i, j);
    }
  }

  /** The value a record holds at the sort path, as MongoDB compares it. A
      missing optional value sorts as `null`. `_id` sorts by its text: an
      ObjectId compares by its twelve bytes, which is the order of its
      fixed-length lower-case hex text. The array paths, `dateOfBirth` and
      paths outside the schema sort as `null`. */
  function SortKey(field: string, r: CrmRecord): Sorting.Key {
    var a := r.applicant;
    if field == "_id" then Sorting.KStr(r.id)
    else if field == "submittedAt" then Sorting.KDate(r.submittedAt)
    else if field == "createdAt" then Sorting.KDate(r.createdAt)
    else if field == "updatedAt" then Sorting.KDate(r.updatedAt)
    else if field == "lastContactedAt" then OptDateKey(r.lastContactedAt)
    else if field == "graduationYear" then Sorting.KNum(a.graduationYear)
    else if field == "yearsOfExperience" then Sorting.KNum(a.yearsOfExperience)
    else if field == "status" then Sorting.KStr(StatusName(r.status))
    else if field == "applicationId" then Sorting.KStr(r.applicationId)
    else if field == "transactionId" then Sorting.KStr(r.transactionId)
    else if field == "firstName" then Sorting.KStr(a.firstName)
    else if field == "lastName" then Sorting.KStr(a.lastName)
    else if field == "email" then Sorting.KStr(a.email)
    else if field == "phone" then Sorting.KStr(a.phone)
    else if field == "street" then Sorting.KStr(a.street)
    else if field == "city" then Sorting.KStr(a.city)
    else if field == "state" then Sorting.KStr(a.state)
    else if field == "zipCode" then Sorting.KStr(a.zipCode)
    else if field == "country" then Sorting.KStr(a.country)
    else if field == "highestDegree" then Sorting.KStr(a.highestDegree)
    else if field == "institution" then Sorting.KStr(a.institution)
    else if field == "fieldOfStudy" then Sorting.KStr(a.fieldOfStudy)
    else if field == "currentEmployer" then OptStrKey(a.currentEmployer)
    else if field == "jobTitle" then OptStrKey(a.jobTitle)
    else if field == "assignedTo" then OptStrKey(r.assignedTo)
    else if field == "notes" then OptStrKey(r.notes)
    else if field == "sessionId" then OptStrKey(r.sessionId)
    else if field == "thankYouUrl" then OptStrKey(r.thankYouUrl)
    else Sorting.KNull
  }

  /** The sort document `{[sortBy]: 1 | -1}` as a key function and a direction. */
  function KeyOf(q: ListQuery): CrmRecord -> Sorting.Key {
    (x: CrmRecord) => SortKey(q.sortBy.GetOr("submittedAt"), x)
  }

  predicate Descending(q: ListQuery) {
    q.sortOrder != Some("asc")
  }

  /** Sorting on `_id` follows the ids, newest (greatest) first by default:
      two records whose ids differ come out in id order, whatever their
      order in the collection. */
  lemma IdSortFollowsIds(a: CrmRecord, b: CrmRecord, q: ListQuery)
    requires q.sortBy == Some("_id") && a.id != b.id && Sorting.StrLe(a.id, b.id)
    ensures Sorting.SortBy([a, b], KeyOf(q), Descending(q)) == (if Descending(q) then [b, a] else [a, b])
    ensures Sorting.SortBy([b, a], KeyOf(q), Descending(q)) == (if Descending(q) then [b, a] else [a, b])
  {
    IdKey(q, a);
    IdKey(q, b);
    if Sorting.StrLe(b.id, a.id) {
      Sorting.StrLeAntisym(a.id, b.id);
    }
    Sorting.SortTwo(a, b, KeyOf(q), Descending(q));
    Sorting.SortTwo(b, a, KeyOf(q), Descending(q));
  }

  lemma IdKey(q: ListQuery, x: CrmRecord)
    requires q.sortBy == Some("_id")
    ensures KeyOf(q)(x) == Sorting.KStr(x.id)
  {
  }

  function OptStrKey(o: Option<string>): Sorting.Key {
    if o.Some? then Sorting.KStr(o.value) else Sorting.KNull
  }

  function OptDateKey(o: Option<int>): Sorting.Key {
    if o.Some? then Sorting.KDate(o.value) else Sorting.KNull
  }

  /** `parseInt` of a query parameter, or the destructuring default when it
      is absent; None is `NaN`. */
  function NumberParam(v: Option<string>, default: int): (n: Option<int>)
    ensures v.None? ==> n == Some(default)
    ensures v.Some? ==> n == ParseInt(v.value, true)
  {
    if v.None? then Some(default) else ParseInt(v.value, true)
  }

  function Abs(n: int): nat {
    if n < 0 then -n else n
  }

  function Min(a: int, b: int): int {
    if a <= b then a else b
  }

  /** `.skip(skip).limit(limit)` over the sorted matches: a limit of 0 means
      no limit, and a negative limit returns at most its absolute value. */
  function Window<T>(s: seq<T>, skip: nat, limit: int): (w: seq<T>)
    ensures skip >= |s| ==> w == []
    ensures skip < |s| && limit == 0 ==> |w| == |s| - skip
    ensures skip < |s| && limit != 0 ==> |w| == Min(Abs(limit), |s| - skip)
    ensures forall i :: 0 <= i < |w| ==> skip + i < |s| && w[i] == s[skip + i]
  {
    if skip >= |s| then []
    else
      var n := if limit == 0 then |s| - skip else Min(Abs(limit), |s| - skip);
      s[skip..skip + n]
  }

  /** The whole result of a query, before it is windowed. */
  function Sorted(store: seq<CrmRecord>, q: ListQuery, matcher: (string, seq<string>) -> bool): (r: seq<CrmRecord>)
    ensures multiset(r) == multiset(Filter(store, q, matcher))
    ensures |r| == |Filter(store, q, matcher)|
    ensures Sorting.SortedBy(r, KeyOf(q), Descending(q))
  {
    Sorting.SortBy(Filter(store, q, matcher), KeyOf(q), Descending(q))
  }

  /** A window holds elements of the sequence, in the sequence's order. */
  lemma WindowFacts<T>(s: seq<T>, skip: nat, limit: int, key: T -> Sorting.Key, descending: bool)
    ensures forall x :: x in Window(s, skip, limit) ==> x in s
    ensures Sorting.SortedBy(s, key, descending) ==> Sorting.SortedBy(Window(s, skip, limit), key, descending)
    ensures |Window(s, skip, limit)| <= |s|
  {
    var w := Window(s, skip, limit);
    forall x | x in w
      ensures x in s
    {
      var i :| 0 <= i < |w| && w[i] == x;
      assert s[skip + i] == x;
    }
    if Sorting.SortedBy(s, key, descending) {
      forall i, j | 0 <= i < j < |w|
        ensures Sorting.InOrder(w[i], w[j], key, descending)
      {
        assert w[i] == s[skip + i] && w[j] == s[skip + j];
      }
    }
  }

  /** `GET /`: the matching records sorted on `sortBy` (ascending iff
      `sortOrder` is 'asc'), skipping `(page - 1) * limit` of them and
      returning at most `limit`; `total` counts every match. */
  function List(store: seq<CrmRecord>, q: ListQuery, matcher: (string, seq<string>) -> bool): (s: Step)
    ensures s.store == store
    ensures s.response.Page? || s.response.Failed?
    ensures s.response.Failed? <==>
              || NumberParam(q.page, 1).None? || NumberParam(q.limit, 50).None?
              || (NumberParam(q.page, 1).value - 1) * NumberParam(q.limit, 50).value < 0
    ensures s.response.Page? ==>
              var skip := (s.response.page - 1) * s.response.limit;
              && Some(s.response.page) == NumberParam(q.page, 1)
              && Some(s.response.limit) == NumberParam(q.limit, 50)
              && skip >= 0
              && s.response.total == |Filter(store, q, matcher)|
              && s.response.data == Window(Sorted(store, q, matcher), skip, s.response.limit)
  {
    var page := NumberParam(q.page, 1);
    var limit := NumberParam(q.limit, 50);
    if page.None? || limit.None? then Step(store, Failed(ListFailedMessage, BadPaging))
    else
      var skip := (page.value - 1) * limit.value;
      if skip < 0 then Step(store, Failed(ListFailedMessage, BadPaging))
      else
        var matches := Sorted(store, q, matcher);
        Step(store, Page(Window(matches, skip, limit.value), |Filter(store, q, matcher)|, page.value, limit.value))
  }

  /** Every record on a page matches the filter, and the page is in sort
      order. */
  lemma ListPageMatches(store: seq<CrmRecord>, q: ListQuery, matcher: (string, seq<string>) -> bool)
    requires List(store, q, matcher).response.Page?
    ensures var data := List(store, q, matcher).response.data;
            && (forall x :: x in data ==> x in store && Matches(x, q, matcher))
            && Sorting.SortedBy(data, KeyOf(q), Descending(q))
            && |data| <= |Filter(store, q, matcher)|
  {
    var r := List(store, q, matcher).response;
    var all := Sorted(store, q, matcher);
    var f := Filter(store, q, matcher);
    ListData(store, q, matcher);
    PageFacts(all, r.data, r.page, r.limit, KeyOf(q), Descending(q));
    forall x | x in r.data
      ensures x in store && Matches(x, q, matcher)
    {
      assert x in all;
      assert x in multiset(f);
    }
  }

  /** `total` depends on the filter only: paging and sorting leave it alone. */
  lemma ListTotalIgnoresPaging(store: seq<CrmRecord>, q1: ListQuery, q2: ListQuery, matcher: (string, seq<string>) -> bool)
    requires q1.status == q2.status && q1.search == q2.search
    requires List(store, q1, matcher).response.Page? && List(store, q2, matcher).response.Page?
    ensures List(store, q1, matcher).response.total == List(store, q2, matcher).response.total
  {
    assert forall x :: Matches(x, q1, matcher) == Matches(x, q2, matcher);
    FilterSameMatches(store, q1, q2, matcher);
  }

  lemma {:induction false} FilterSameMatches(store: seq<CrmRecord>, q1: ListQuery, q2: ListQuery, matcher: (string, seq<string>) -> bool)
    requires q1.status == q2.status && q1.search == q2.search
    ensures Filter(store, q1, matcher) == Filter(store, q2, matcher)
    decreases |store|
  {
    if |store| > 0 {
      FilterSameMatches(store[1..], q1, q2, matcher);
    }
  }

  /** The windows of two different pages of the same size do not overlap. */
  lemma PageStartsApart(p1: int, p2: int, l: int)
    requires l > 0 && p1 != p2
    ensures (p1 - 1) * l + l <= (p2 - 1) * l || (p2 - 1) * l + l <= (p1 - 1) * l
  {
    var lo := if p1 < p2 then p1 else p2;
    var d := if p1 < p2 then p2 - p1 else p1 - p2;
    var hi := lo + d;
    assert (hi - 1) * l == (lo - 1) * l + d * l;
    assert d * l == (d - 1) * l + l;
    assert (d - 1) * l >= 0;
  }

  /** No value is in both sequences. */
  predicate Disjoint<T(==)>(a: seq<T>, b: seq<T>) {
    forall x :: x in a ==> x !in b
  }

  lemma WindowsDisjoint<T>(s: seq<T>, s1: nat, s2: nat, l: int)
    requires Distinct(s) && l > 0
    requires s1 + l <= s2 || s2 + l <= s1
    ensures Disjoint(Window(s, s1, l), Window(s, s2, l))
  {
    var w1 := Window(s, s1, l);
    var w2 := Window(s, s2, l);
    forall x | x in w1
      ensures x !in w2
    {
      var i :| 0 <= i < |w1| && w1[i] == x;
      forall j | 0 <= j < |w2|
        ensures w2[j] != x
      {
        assert s1 + i != s2 + j;
        assert w2[j] == s[s2 + j] && x == s[s1 + i];
      }
    }
  }

  /** Pages at different page numbers of a distinct sequence are disjoint. */
  /** `d` is page `p` of `all` at `l` per page. */
  predicate PageAt<T(==)>(all: seq<T>, d: seq<T>, p: int, l: int) {
    (p - 1) * l >= 0 && d == Window(all, (p - 1) * l, l)
  }

  lemma PagesOfDistinct<T>(all: seq<T>, all2: seq<T>, d1: seq<T>, d2: seq<T>, p1: int, p2: int, l: int, l2: int)
    requires Distinct(all) && all2 == all && l > 0 && p1 != p2 && l2 == l
    requires PageAt(all, d1, p1, l) && PageAt(all2, d2, p2, l2)
    ensures Disjoint(d1, d2)
  {
    PageStartsApart(p1, p2, l);
    WindowsDisjoint(all, (p1 - 1) * l, (p2 - 1) * l, l);
  }

  /** What a page keeps of the sequence it is cut from. */
  lemma PageFacts<T>(all: seq<T>, d: seq<T>, p: int, l: int, key: T -> Sorting.Key, descending: bool)
    requires PageAt(all, d, p, l)
    ensures forall x :: x in d ==> x in all
    ensures Sorting.SortedBy(all, key, descending) ==> Sorting.SortedBy(d, key, descending)
    ensures |d| <= |all|
  {
    WindowFacts(all, (p - 1) * l, l, key, descending);
  }

  /** Queries that differ only in the page select and order the same
      records, none twice. */
  lemma SameSorted(store: seq<CrmRecord>, q1: ListQuery, q2: ListQuery, matcher: (string, seq<string>) -> bool)
    requires ValidStore(store)
    requires q1 == q2.(page := q1.page)
    ensures Sorted(store, q1, matcher) == Sorted(store, q2, matcher)
    ensures Distinct(Sorted(store, q1, matcher))
  {
    FilterSameMatches(store, q1, q2, matcher);
    assert KeyOf(q1) == KeyOf(q2) && Descending(q1) == Descending(q2);
    FilterDistinct(store, q1, matcher);
    DistinctPermutation(Filter(store, q1, matcher), Sorted(store, q1, matcher));
  }

  /** MongoDB orders documents with equal sort keys as it pleases, and
      each page is a query of its own. When no two matches share a key,
      every order a query may return is the model's order. */
  lemma TieFreeOrderUnique(store: seq<CrmRecord>, q: ListQuery, matcher: (string, seq<string>) -> bool, order: seq<CrmRecord>)
    requires Sorting.KeysDistinct(Filter(store, q, matcher), KeyOf(q))
    requires multiset(order) == multiset(Filter(store, q, matcher))
    requires Sorting.SortedBy(order, KeyOf(q), Descending(q))
    ensures order == Sorted(store, q, matcher)
  {
    var f := Filter(store, q, matcher);
    var r := Sorted(store, q, matcher);
    KeysDistinctPermutation(f, r, KeyOf(q));
    Sorting.SortedUnique(r, order, KeyOf(q), Descending(q));
  }

  /** Sort keys that are distinct stay distinct under any rearrangement. */
  lemma KeysDistinctPermutation<T>(a: seq<T>, b: seq<T>, key: T -> Sorting.Key)
    requires Sorting.KeysDistinct(a, key) && multiset(a) == multiset(b)
    ensures Sorting.KeysDistinct(b, key)
  {
    forall i, j | 0 <= i < j < |b|
      ensures key(b[i]) != key(b[j])
    {
      assert b[i] in multiset(a) && b[j] in multiset(a);
      var x :| 0 <= x < |a| && a[x] == b[i];
      var y :| 0 <= y < |a| && a[y] == b[j];
      if x == y {
        RepeatCounts(b, i, j);
        DistinctCounts(a, b[i]);
      }
    }
  }

  /** With tied keys both orders of two records are sorted, so the first
      page of one query and the second page of another, one record per page,
      can hold the same record. */
  lemma TiedPagesCanOverlap(a: CrmRecord, b: CrmRecord, q: ListQuery)
    requires a != b && KeyOf(q)(a) == KeyOf(q)(b)
    ensures Sorting.SortedBy([a, b], KeyOf(q), Descending(q))
    ensures Sorting.SortedBy([b, a], KeyOf(q), Descending(q))
    ensures Window([a, b], 0, 1) == [a] && Window([b, a], 1, 1) == [a]
  {
    Sorting.KeyLeTotal(KeyOf(q)(a), KeyOf(q)(a));
  }

  /** Two different pages of the same query share no record, provided no
      two matches share a sort key (otherwise see `TiedPagesCanOverlap`). */
  lemma PagesDisjoint(store: seq<CrmRecord>, q1: ListQuery, q2: ListQuery, matcher: (string, seq<string>) -> bool)
    requires ValidStore(store)
    requires q1 == q2.(page := q1.page)
    requires Sorting.KeysDistinct(Filter(store, q1, matcher), KeyOf(q1))
    requires List(store, q1, matcher).response.Page? && List(store, q2, matcher).response.Page?
    requires List(store, q1, matcher).response.page != List(store, q2, matcher).response.page
    requires List(store, q1, matcher).response.limit > 0
    ensures Disjoint(List(store, q1, matcher).response.data, List(store, q2, matcher).response.data)
  {
    var r1 := List(store, q1, matcher).response;
    var r2 := List(store, q2, matcher).response;
    SameSorted(store, q1, q2, matcher);
    SameLimit(store, q1, q2, matcher);
    ListData(store, q1, matcher);
    ListData(store, q2, matcher);
    PagesOfDistinct(Sorted(store, q1, matcher), Sorted(store, q2, matcher), r1.data, r2.data,
                    r1.page, r2.page, r1.limit, r2.limit);
  }

  /** A page is the window of the sorted matches its page and limit select. */
  lemma ListData(store: seq<CrmRecord>, q: ListQuery, matcher: (string, seq<string>) -> bool)
    requires List(store, q, matcher).response.Page?
    ensures var r := List(store, q, matcher).response;
            PageAt(Sorted(store, q, matcher), r.data, r.page, r.limit)
  {
  }

  /** Queries that differ only in the page read the same limit. */
  lemma SameLimit(store: seq<CrmRecord>, q1: ListQuery, q2: ListQuery, matcher: (string, seq<string>) -> bool)
    requires q1 == q2.(page := q1.page)
    requires List(store, q1, matcher).response.Page? && List(store, q2, matcher).response.Page?
    ensures List(store, q1, matcher).response.limit == List(store, q2, matcher).response.limit
  {
    assert q1.limit == q2.limit;
  }

  /** A page or limit written as `String(n)` reads back as n. */
  lemma NumberParamReadsBack(n: int, default: int)
    ensures NumberParam(Some(IntToString(n)), default) == Some(n)
  {
    ParseIntOfIntToString(n, true);
  }

  /** With no parameters the list is the first 50 records of the whole
      collection, newest `submittedAt` first, and `total` is its size. */
  lemma ListDefaults(store: seq<CrmRecord>, matcher: (string, seq<string>) -> bool)
    ensures var r := List(store, DefaultQuery, matcher).response;
            && r.Page? && r.page == 1 && r.limit == 50 && r.total == |store|
            && |r.data| == Min(50, |store|)
            && Sorting.SortedBy(r.data, KeyOf(DefaultQuery), true)
  {
    FilterAll(store, DefaultQuery, matcher);
    ListPageMatches(store, DefaultQuery, matcher);
  }

  // ---------------------------------------------------------------------
  // GET /:id and PATCH /:id
  // ---------------------------------------------------------------------

  /** The `$or` filter: `applicationId` or `_id` equals the id. */
  predicate Identifies(r: CrmRecord, id: string, oid: string) {
    r.applicationId == id || r.id == oid
  }

  /** The position of the first record the filter selects. */
  function FindFirst(store: seq<CrmRecord>, id: string, oid: string): (k: Option<nat>)
    ensures k.Some? ==> k.value < |store| && Identifies(store[k.value], id, oid)
    ensures k.Some? ==> forall j :: 0 <= j < k.value ==> !Identifies(store[j], id, oid)
    ensures k.None? ==> forall j :: 0 <= j < |store| ==> !Identifies(store[j], id, oid)
  {
    if |store| == 0 then None
    else if Identifies(store[0], id, oid) then Some(0)
    else
      var k := FindFirst(store[1..], id, oid);
      assert forall j :: 1 <= j < |store| ==> store[j] == store[1..][j - 1];
      if k.Some? then Some(k.value + 1) else None
  }

  /** `GET /:id`. `cast` stands for the ObjectId cast of the
      `_id` clause; when it fails the whole query fails. */
  function Get(store: seq<CrmRecord>, id: string, cast: Cast): (s: Step)
    ensures s.store == store
    ensures cast(id).None? <==> s.response.Failed?
    ensures s.response.Failed? ==> s.response == Failed(GetFailedMessage, CastFailed(id))
    ensures cast(id).Some? ==>
              (s.response.NotFound? <==> forall j :: 0 <= j < |store| ==> !Identifies(store[j], id, cast(id).value))
    ensures s.response.Found? ==>
              exists k :: 0 <= k < |store| && s.response.record == store[k] && Identifies(store[k], id, cast(id).value)
  {
    if cast(id).None? then Step(store, Failed(GetFailedMessage, CastFailed(id)))
    else
      var k := FindFirst(store, id, cast(id).value);
      if k.None? then Step(store, NotFound) else Step(store, Found(store[k.value]))
  }

  /** In a valid collection where no `applicationId` is also some record's
      `_id`, a record is found by either of its identifiers, provided its
      `_id` text casts to itself and its `applicationId` casts to no other
      record's `_id`. */
  lemma GetByEitherId(store: seq<CrmRecord>, k: int, cast: Cast)
    requires ValidStore(store) && 0 <= k < |store|
    requires forall i, j :: 0 <= i < |store| && 0 <= j < |store| ==> store[i].applicationId != store[j].id
    requires cast(store[k].id) == Some(store[k].id) && cast(store[k].applicationId).Some?
    requires forall j :: 0 <= j < |store| && j != k ==> store[j].id != cast(store[k].applicationId).value
    ensures Get(store, store[k].id, cast).response == Found(store[k])
    ensures Get(store, store[k].applicationId, cast).response == Found(store[k])
  {
    OnlyMatch(store, store[k].id, store[k].id, k);
    OnlyMatch(store, store[k].applicationId, cast(store[k].applicationId).value, k);
    GetFirstMatch(store, store[k].id, k, cast);
    GetFirstMatch(store, store[k].applicationId, k, cast);
  }

  /** A hex `_id` in a route id is matched whatever the case of its
      letters: the lookup of `GET /:id`, and so of `PATCH /:id`, selects
      the record whose `_id` has the same bytes. */
  lemma IdCaseIgnored(store: seq<CrmRecord>, k: int, id: string, cast: Cast)
    requires ValidStore(store) && 0 <= k < |store|
    requires cast(id) == HexCast(id) && HexCast(id) == Some(store[k].id)
    requires !HasApplicationId(store, id)
    ensures FindFirst(store, id, cast(id).value) == Some(k)
    ensures Get(store, id, cast).response == Found(store[k])
  {
    OnlyMatch(store, id, store[k].id, k);
    GetFirstMatch(store, id, k, cast);
  }

  /** The filter selects the only record it matches. */
  lemma OnlyMatch(store: seq<CrmRecord>, id: string, oid: string, k: int)
    requires 0 <= k < |store| && Identifies(store[k], id, oid)
    requires forall j :: 0 <= j < |store| && j != k ==> !Identifies(store[j], id, oid)
    ensures FindFirst(store, id, oid) == Some(k)
  {
  }

  /** A lookup whose id casts answers with the first record the filter selects. */
  lemma GetFirstMatch(store: seq<CrmRecord>, id: string, k: int, cast: Cast)
    requires cast(id).Some? && 0 <= k < |store| && FindFirst(store, id, cast(id).value) == Some(k)
    ensures Get(store, id, cast).response == Found(store[k])
  {
  }

  /** What the record at position `k` becomes under the update. */
  function Updated(store: seq<CrmRecord>, k: nat, body: CrmInput, now: int): (r: CrmRecord)
    requires k < |store| && StatusAccepted(body.status)
  {
    ApplyUpdate(store[k], body, now)
  }

  /** Another record already holds the updated record's unique values. */
  function UniqueClash(store: seq<CrmRecord>, k: nat, u: CrmRecord): (e: Option<string>)
    requires k < |store|
    ensures e.None? <==> forall j :: 0 <= j < |store| && j != k ==>
              store[j].applicationId != u.applicationId && store[j].transactionId != u.transactionId
  {
    if exists j :: 0 <= j < |store| && j != k && store[j].applicationId == u.applicationId then Some("applicationId")
    else if exists j :: 0 <= j < |store| && j != k && store[j].transactionId == u.transactionId then Some("transactionId")
    else None
  }

  /** `PATCH /:id`: an id that does not cast fails the query, the update
      validators run next, and an update that passes them goes on to
      `PatchValidated`. */
  function Patch(store: seq<CrmRecord>, id: string, body: CrmInput, cast: Cast, now: int): (s: Step)
    ensures cast(id).None? ==> s == Step(store, Failed(PatchFailedMessage, CastFailed(id)))
    ensures cast(id).Some? && UpdateErrors(body) != [] ==>
              s == Step(store, Failed(PatchFailedMessage, SaveFailed(ValidationFailed(UpdateErrors(body)))))
    ensures cast(id).Some? && UpdateErrors(body) == [] ==> s == PatchValidated(store, id, cast(id).value, body, now)
  {
    if cast(id).None? then Step(store, Failed(PatchFailedMessage, CastFailed(id)))
    else if UpdateErrors(body) != [] then
      Step(store, Failed(PatchFailedMessage, SaveFailed(ValidationFailed(UpdateErrors(body)))))
    else PatchValidated(store, id, cast(id).value, body, now)
  }

  /** The rest of `PATCH /:id` once the update validators passed: the first
      record the filter selects gets every supplied path and `updatedAt`,
      and the unique indexes are checked last. */
  function PatchValidated(store: seq<CrmRecord>, id: string, oid: string, body: CrmInput, now: int): (s: Step)
    requires UpdateErrors(body) == []
    ensures s.response.NotFound? <==> FindFirst(store, id, oid).None?
    ensures s.response.Found? || s.response.NotFound? || s.response.Failed?
    ensures !s.response.Found? ==> s.store == store
    ensures s.response.Failed? ==> s.response.reason.SaveFailed? && s.response.reason.error.DuplicateKey?
    ensures s.response.Found? ==>
              && FindFirst(store, id, oid).Some?
              && var k := FindFirst(store, id, oid).value;
              && s.store == store[k := s.response.record]
              && UniqueClash(store, k, s.response.record).None?
  {
    var k := FindFirst(store, id, oid);
    if k.None? then Step(store, NotFound)
    else
      var u := Updated(store, k.value, body, now);
      var clash := UniqueClash(store, k.value, u);
      if clash.Some? then Step(store, Failed(PatchFailedMessage, SaveFailed(DuplicateKey(clash.value))))
      else Step(store[k.value := u], Found(u))
  }

  /** A `status` outside the enumeration is rejected with 500 whether or not
      any record matches, and nothing is written. */
  lemma PatchRejectsUnknownStatus(store: seq<CrmRecord>, id: string, body: CrmInput, cast: Cast, now: int)
    requires body.status.Some? && ParseStatus(body.status.value).None?
    ensures var s := Patch(store, id, body, cast, now);
            s.store == store && s.response.Failed? && s.response.StatusCode() == 500
  {
    UnknownStatusFailsValidation(body);
    var s := Patch(store, id, body, cast, now);
    assert s.store == store && s.response.Failed?;
    FailedIs500(s.response);
  }

  /** Every failure answers 500. */
  lemma FailedIs500(r: Response)
    requires r.Failed?
    ensures r.StatusCode() == 500
  {
  }

  /** The update validators report a `status` outside the enumeration. */
  lemma UnknownStatusFailsValidation(body: CrmInput)
    requires body.status.Some? && ParseStatus(body.status.value).None?
    ensures "status" in UpdateErrors(body)
  {
    assert !StatusAccepted(body.status);
  }

  /** On success the record returned, and stored in place of the first
      match, is that match with the update applied. */
  lemma PatchUpdatesMatch(store: seq<CrmRecord>, id: string, body: CrmInput, cast: Cast, now: int)
    requires Patch(store, id, body, cast, now).response.Found?
    ensures var s := Patch(store, id, body, cast, now);
            var k := FindFirst(store, id, cast(id).value).value;
            && s.response.record == ApplyUpdate(store[k], body, now)
            && s.store == store[k := ApplyUpdate(store[k], body, now)]
  {
    var s := Patch(store, id, body, cast, now);
    var k := FindFirst(store, id, cast(id).value).value;
    assert s == Step(store[k := Updated(store, k, body, now)], Found(Updated(store, k, body, now)));
  }

  /** A matched record whose update passes the validators and the unique
      indexes is replaced and returned. */
  lemma PatchFound(store: seq<CrmRecord>, id: string, body: CrmInput, cast: Cast, now: int,
                   k: nat, u: CrmRecord)
    requires cast(id).Some? && UpdateErrors(body) == [] && FindFirst(store, id, cast(id).value) == Some(k)
    requires u == ApplyUpdate(store[k], body, now) && UniqueClash(store, k, u).None?
    ensures Patch(store, id, body, cast, now) == Step(store[k := u], Found(u))
  {
  }

  /** An update keeps a valid collection valid. */
  lemma PatchKeepsStoreValid(store: seq<CrmRecord>, id: string, body: CrmInput, cast: Cast, now: int)
    requires ValidStore(store)
    ensures ValidStore(Patch(store, id, body, cast, now).store)
  {
    var s := Patch(store, id, body, cast, now);
    if s.response.Found? {
      var k := FindFirst(store, id, cast(id).value).value;
      PatchUpdatesMatch(store, id, body, cast, now);
      ApplyUpdateValid(store[k], body, now);
      ReplaceKeepsStoreValid(store, k, s.response.record);
    }
  }

  /** The filter still selects position `k` once that record is replaced by
      one it also selects. */
  lemma FindFirstAfterReplace(store: seq<CrmRecord>, id: string, oid: string, k: nat, u: CrmRecord)
    requires FindFirst(store, id, oid) == Some(k) && Identifies(u, id, oid)
    ensures FindFirst(store[k := u], id, oid) == Some(k)
  {
    var t := store[k := u];
    assert forall j :: 0 <= j < k ==> t[j] == store[j] && !Identifies(t[j], id, oid);
    assert Identifies(t[k], id, oid);
  }

  /** Re-sending an update that does not change the `applicationId`, at the
      same or a later instant, leaves the collection and the reply exactly
      as sending it once at that later instant: only `updatedAt` moves. */
  lemma PatchIdempotent(store: seq<CrmRecord>, id: string, body: CrmInput, cast: Cast,
                        now1: int, now2: int)
    requires body.applicationId.None?
    requires Patch(store, id, body, cast, now1).response.Found?
    ensures var s1 := Patch(store, id, body, cast, now1);
            var s2 := Patch(s1.store, id, body, cast, now2);
            var u2 := s1.response.record.(updatedAt := now2);
            && s2 == Step(s1.store[FindFirst(store, id, cast(id).value).value := u2], Found(u2))
            && s2 == Patch(store, id, body, cast, now2)
            && (now1 == now2 ==> s2 == s1)
  {
    var s1 := Patch(store, id, body, cast, now1);
    var k := FindFirst(store, id, cast(id).value).value;
    var u := ApplyUpdate(store[k], body, now1);
    var u2 := u.(updatedAt := now2);
    PatchUpdatesMatch(store, id, body, cast, now1);
    assert s1 == Step(store[k := u], Found(u));
    ReplacedStaysPut(store, id, cast(id).value, body, now1, now2, k, u);
    PatchFound(s1.store, id, body, cast, now2, k, u2);
    PatchFound(store, id, body, cast, now2, k, u2);
    ReplaceTwice(store, k, u, u2);
  }

  /** Once position `k` holds the updated record, the filter still selects
      it, the unique indexes still accept it stamped at any instant, and
      applying the update again changes only `updatedAt`. */
  lemma ReplacedStaysPut(store: seq<CrmRecord>, id: string, oid: string, body: CrmInput, now1: int, now2: int, k: nat, u: CrmRecord)
    requires body.applicationId.None? && StatusAccepted(body.status)
    requires FindFirst(store, id, oid) == Some(k)
    requires u == ApplyUpdate(store[k], body, now1) && UniqueClash(store, k, u).None?
    ensures FindFirst(store[k := u], id, oid) == Some(k)
    ensures UniqueClash(store[k := u], k, u.(updatedAt := now2)).None?
    ensures UniqueClash(store, k, u.(updatedAt := now2)).None?
    ensures ApplyUpdate(u, body, now2) == u.(updatedAt := now2)
    ensures ApplyUpdate(store[k], body, now2) == u.(updatedAt := now2)
  {
    assert Identifies(u, id, oid);
    FindFirstAfterReplace(store, id, oid, k, u);
    ApplyUpdateIdempotent(store[k], body, now1, now2);
    assert forall j :: 0 <= j < |store| && j != k ==> store[k := u][j] == store[j];
  }

  /** Writing two records in turn at one position is writing the second. */
  lemma ReplaceTwice<T>(s: seq<T>, k: nat, x: T, y: T)
    requires k < |s|
    ensures s[k := x][k := y] == s[k := y]
  {
  }
}

=== FILE: end_to_end.dfy ===
/** How the pieces meet: the thank-you links built by the intake API
    (backend/routes/applicationRoutes.js) and by the form after a submit
    (frontend/src/components/MultiStepForm.js) are the ones the frontend's
    router (frontend/src/App.js) and thank-you page
    (frontend/src/components/ThankYou.js) recognise, and the page then finds
    the submitted record. */
module EndToEnd {
  import opened Wrappers
  import opened Text
  import opened Url
  import opened AppRouting
  import opened ThankYou
  import opened IntakeModel
  import IntakeRoutes
  import StepForm
  import opened ObjectId

  /** `window.location.search` of a URL: from the first '?' up to the
      fragment, or "" when that is empty or just "?". */
  function SearchOf(url: string): (s: string)
    ensures s == "" || s[0] == '?'
  {
    var pre := url[..IndexOf(url, '#')];
    var q := IndexOf(pre, '?');
    if q + 1 >= |pre| then "" else pre[q..]
  }

  /** Both ends write the same parameters after the id. */
  lemma ParamsAgree()
    ensures IntakeRoutes.ThankYouParams == StepForm.RedirectParams
  {
  }

  /** The search of "<base>/application?<q>" is "?<q>" when the base has no
      query or fragment and `q` is a non-empty query without a fragment. */
  lemma SearchOfApplicationUrl(base: string, q: string)
    requires '?' !in base && '#' !in base
    requires q != "" && '#' !in q
    ensures SearchOf(base + "/application?" + q) == "?" + q
  {
    var head := base + "/application";
    var url := base + "/application?" + q;
    assert url == head + "?" + q;
    assert '#' !in url;
    assert url[..IndexOf(url, '#')] == url;
    assert '?' !in head;
    IndexOfJoined(head, '?', q);
    assert url[|head|..] == "?" + q;
  }

  /** A search that reads as an id followed by the thank-you parameters
      opens the thank-you page, which reads back that id and shows the
      "success" badge. */
  lemma ThankYouParamsRecognised(search: string, id: string, path: string)
    requires id != ""
    requires ParseQuery(search) == [Param("applicationId", id)] + StepForm.RedirectParams
    ensures IsThankYouQuery(search)
    ensures ChooseView(path, search) == ThankYouPage
    ensures ExtractId(search, path) == Some(id)
    ensures Badge(search) == "success"
  {
    ThankYouGets(id);
  }

  /** The three parameters the router looks at, read from the id and the
      thank-you parameters. */
  lemma ThankYouGets(id: string)
    ensures var ps := [Param("applicationId", id)] + StepForm.RedirectParams;
            && Get(ps, "applicationId") == Some(id)
            && Get(ps, "status") == Some("success")
            && Get(ps, "page") == Some("thankyou")
  {
    var ps := [Param("applicationId", id)] + StepForm.RedirectParams;
    assert ps[1..] == StepForm.RedirectParams;
    GetSkip(ps, "status");
    GetSkip(ps, "page");
    GetSkip(StepForm.RedirectParams, "page");
    assert StepForm.RedirectParams[1..][0] == Param("page", "thankyou");
  }

  /** `get` passes over a first parameter of another name. */
  lemma GetSkip(ps: seq<Param>, name: string)
    requires |ps| > 0 && ps[0].name != name
    ensures Get(ps, name) == Get(ps[1..], name)
  {
  }

  /** The default link of the intake API, for an id of letters, digits and
      '-' (a UUID is one) and a base URL without query or fragment, opens
      the thank-you page for that id. */
  lemma ServerLinkRecognised(base: string, id: string, path: string)
    requires '?' !in base && '#' !in base
    requires IdString(id)
    ensures var search := SearchOf(IntakeRoutes.DefaultThankYouUrl(base, id));
            && IsThankYouQuery(search)
            && ChooseView(path, search) == ThankYouPage
            && ExtractId(search, path) == Some(id)
  {
    var ps := [Param("applicationId", id)] + IntakeRoutes.ThankYouParams;
    assert forall i :: 0 <= i < |id| ==> IdChar(id[i]);
    assert Plain(id);
    assert Plain("applicationId");
    ParamsAgree();
    StepForm.RedirectParamsPlain();
    ReadQueryHead(Param("applicationId", id), IntakeRoutes.ThankYouParams);
    FormDecodePlain(id);
    var q := QueryText(ps);
    QueryTextEndsWith(ps);
    SearchOfApplicationUrl(base, q);
    ThankYouParamsRecognised("?" + q, id, path);
  }

  /** The form's redirect after a submit opens the thank-you page for
      exactly the id the server returned, whatever characters it holds. */
  lemma ClientRedirectRecognised(appId: string, path: string)
    requires appId != ""
    ensures var after := StepForm.HandleSubmit(Some((Some(appId), Some(appId))));
            && after.Redirect?
            && var search := SearchOf(after.url);
            && IsThankYouQuery(search)
            && ChooseView(path, search) == ThankYouPage
            && ExtractId(search, path) == Some(appId)
  {
    var q := StepForm.RedirectQuery(appId);
    StepForm.RedirectQueryReadsBack(appId);
    assert q != "" by {
      QueryTextEndsWith([Param("applicationId", EncodeURIComponent(appId))] + StepForm.RedirectParams);
    }
    assert "/application?" + q == "" + "/application?" + q;
    SearchOfApplicationUrl("", q);
    ThankYouParamsRecognised("?" + q, appId, path);
  }

  /** Following the form's redirect for a stored record shows that record:
      the page finds its id, its request reaches the intake API's lookup
      with that id, the lookup answers 200 with the record, and the page
      displays it. The id must be made of letters, digits and '-' (as the
      generated UUIDs are), since the page puts it into the request path
      unencoded, and must not name another record when read as an
      ObjectId. */
  lemma RedirectShowsRecord(store: seq<IntakeRecord>, k: int, cast: Cast, path: string)
    requires ValidStore(store) && 0 <= k < |store|
    requires IdString(store[k].applicationId) && cast(store[k].id) == Some(store[k].id)
    requires cast(store[k].applicationId).None? || !HasId(store, cast(store[k].applicationId).value)
    ensures var rec := store[k];
            var after := StepForm.HandleSubmit(Some((Some(rec.applicationId), Some(rec.applicationId))));
            && after.Redirect?
            && var id := ExtractId(SearchOf(after.url), path);
            && id == Some(rec.applicationId)
            && RouteId(FetchPath(id.value)) == Some(rec.applicationId)
            && var reply := IntakeRoutes.Get(store, RouteId(FetchPath(id.value)).value, cast).response;
            && reply == IntakeRoutes.Found(rec)
            && Settle(id, Axios(reply.StatusCode(), reply.Success(), rec)) == Record(rec)
  {
    ClientRedirectRecognised(store[k].applicationId, path);
    FetchReachesRoute(store[k].applicationId);
    ReplyShowsRecord(store, k, cast);
  }

  /** The intake API's answer for a stored record's `applicationId` is that
      record, and the page displays it. */
  lemma ReplyShowsRecord(store: seq<IntakeRecord>, k: int, cast: Cast)
    requires ValidStore(store) && 0 <= k < |store|
    requires cast(store[k].id) == Some(store[k].id)
    requires cast(store[k].applicationId).None? || !HasId(store, cast(store[k].applicationId).value)
    ensures var rec := store[k];
            var reply := IntakeRoutes.Get(store, rec.applicationId, cast).response;
            && reply == IntakeRoutes.Found(rec)
            && Settle(Some(rec.applicationId), Axios(reply.StatusCode(), reply.Success(), rec)) == Record(rec)
  {
    IntakeRoutes.GetByEitherId(store, k, cast);
  }

  /** After a successful submit, following the form's redirect shows the
      stored record, for an `applicationId` of letters, digits and '-'. */
  lemma SubmitThenThankYou(store: seq<IntakeRecord>, sub: Submission, gen: Fresh, now: int,
                           baseEnv: Option<string>, cast: Cast, path: string)
    requires ValidStore(store) && FreshFor(store, gen)
    requires IntakeRoutes.Submit(store, sub, gen, now, baseEnv).response.Created?
    requires var s := IntakeRoutes.Submit(store, sub, gen, now, baseEnv);
             var rec := s.response.record;
             && IdString(rec.applicationId)
             && cast(rec.id) == Some(rec.id)
             && (cast(rec.applicationId).None? || !HasId(s.store, cast(rec.applicationId).value))
    ensures var s := IntakeRoutes.Submit(store, sub, gen, now, baseEnv);
            var rec := s.response.record;
            var after := StepForm.HandleSubmit(Some((Some(rec.applicationId), Some(rec.applicationId))));
            && after.Redirect?
            && var id := ExtractId(SearchOf(after.url), path);
            && id == Some(rec.applicationId)
            && RouteId(FetchPath(id.value)) == Some(rec.applicationId)
            && var reply := IntakeRoutes.Get(s.store, RouteId(FetchPath(id.value)).value, cast).response;
            && reply == IntakeRoutes.Found(rec)
            && Settle(id, Axios(reply.StatusCode(), reply.Success(), rec)) == Record(rec)
  {
    var s := IntakeRoutes.Submit(store, sub, gen, now, baseEnv);
    IntakeRoutes.SubmitKeepsStoreValid(store, sub, gen, now, baseEnv);
    assert s.store[|store|] == s.response.record;
    RedirectShowsRecord(s.store, |store|, cast, path);
  }

  /** A UUID is made of letters, digits and '-'. */
  lemma UuidIsIdString(s: string)
    requires IsUuid(s)
    ensures IdString(s)
  {
    forall i | 0 <= i < |s|
      ensures IdChar(s[i])
    {
      assert IsLowerHex(s[i]) || s[i] == '-';
    }
  }

  /** Without a client-chosen `applicationId` the stored one is the
      generated UUID, which the thank-you page can fetch. */
  lemma GeneratedIdIsFetchable(store: seq<IntakeRecord>, sub: Submission, gen: Fresh, now: int, baseEnv: Option<string>)
    requires ValidStore(store) && FreshFor(store, gen)
    requires sub.applicationId.None? && IsUuid(gen.applicationId)
    requires IntakeRoutes.Submit(store, sub, gen, now, baseEnv).response.Created?
    ensures var rec := IntakeRoutes.Submit(store, sub, gen, now, baseEnv).response.record;
            && IdString(rec.applicationId)
            && RouteId(FetchPath(rec.applicationId)) == Some(rec.applicationId)
  {
    UuidIsIdString(gen.applicationId);
    IntakeRoutes.SubmitKeepsStoreValid(store, sub, gen, now, baseEnv);
    var s := IntakeRoutes.Submit(store, sub, gen, now, baseEnv);
    assert s.store[|store|] == s.response.record;
    assert s.response.record.applicationId == gen.applicationId;
    FetchReachesRoute(gen.applicationId);
  }
}

=== FILE: form.dfy ===
/** The applicant's multi-step form (frontend/src/components/MultiStepForm.js):
    the checks each step runs before moving on, the navigation between
    steps, the step restored on load and its name in the URL, and where a
    successful submission sends the browser. */
module StepForm {
  import opened Wrappers
  import opened Text
  import opened Numbers
  import Url

  /** The form's fields as the inputs hold them: every value is text, and
      `skills` is the list kept by the skills editor. */
  datatype FormData = FormData(
    firstName: string, lastName: string, email: string, phone: string, dateOfBirth: string,
    street: string, city: string, state: string, zipCode: string, country: string,
    highestDegree: string, institution: string, graduationYear: string, fieldOfStudy: string,
    currentEmployer: string, jobTitle: string, yearsOfExperience: string, skills: seq<string>)

  /** The initial, empty form. */
  const EmptyForm := FormData("", "", "", "", "", "", "", "", "", "", "", "", "", "", "", "", "", [])

  /** One rule of a step: when it fails, `errors[field] = message`. */
  datatype Rule = Rule(fails: bool, field: string, message: string)

  /** The `newErrors` object in insertion order, as (field, message) pairs. */
  type Errors = seq<(string, string)>

  // ---------------------------------------------------------------------
  // The individual rules
  // ---------------------------------------------------------------------

  /** `/\S+@\S+\.\S+/.test(s)`, unanchored: somewhere in `s` a non-space
      character, '@', a non-empty run of non-space characters, '.', and a
      non-space character follow each other. */
  predicate EmailPattern(s: string) {
    exists p, d :: 0 < p && p + 1 < d && d + 1 < |s| && MatchesAt(s, p, d)
  }

  /** The match with '@' at `p` and the '.' at `d`. */
  predicate MatchesAt(s: string, p: int, d: int)
    requires 0 < p && p + 1 < d && d + 1 < |s|
  {
    && s[p] == '@' && s[d] == '.'
    && !IsSpace(s[p - 1]) && !IsSpace(s[d + 1])
    && forall k :: p < k < d ==> !IsSpace(s[k])
  }

  /** The pattern is unanchored: text around a match does not spoil it. */
  lemma EmailPatternExtends(s: string, before: string, after: string)
    requires EmailPattern(s)
    ensures EmailPattern(before + s + after)
  {
    var p, d :| 0 < p && p + 1 < d && d + 1 < |s| && MatchesAt(s, p, d);
    var t := before + s + after;
    var o := |before|;
    assert forall k :: 0 <= k < |s| ==> t[o + k] == s[k];
    assert MatchesAt(t, o + p, o + d);
  }

  /** The pattern needs an '@' with a '.' at least two places after it. */
  lemma EmailPatternNeedsAtAndDot(s: string)
    requires EmailPattern(s)
    ensures exists p, d :: 0 < p < d < |s| && s[p] == '@' && s[d] == '.' && d >= p + 2
  {
  }

  /** `s.replace(/[-\s]/g, '')`. */
  function PhoneDigits(s: string): (r: string)
    ensures forall i :: 0 <= i < |r| ==> r[i] != '-' && !IsSpace(r[i])
    ensures |r| <= |s|
  {
    if |s| == 0 then ""
    else if s[0] == '-' || IsSpace(s[0]) then PhoneDigits(s[1..])
    else [s[0]] + PhoneDigits(s[1..])
  }

  /** Dashes and white space are ignored wherever they stand. */
  lemma {:induction false} PhoneDigitsOfJoin(a: string, b: string)
    ensures PhoneDigits(a + b) == PhoneDigits(a) + PhoneDigits(b)
  {
    if |a| > 0 {
      assert (a + b)[1..] == a[1..] + b;
      PhoneDigitsOfJoin(a[1..], b);
    } else {
      assert a + b == b;
    }
  }

  /** `/^\d{10}$/.test(PhoneDigits(s))`. */
  predicate PhoneOk(s: string) {
    var d := PhoneDigits(s);
    |d| == 10 && AllDigits(d)
  }

  /** `/^\d{5,6}$/.test(s)`, on the value as typed. */
  predicate ZipOk(s: string) {
    5 <= |s| <= 6 && AllDigits(s)
  }

  /** `year < 1950 || year > currentYear + 10` with `year = parseInt(s)`;
      a year that does not parse is `NaN` and fails neither comparison. */
  predicate YearOutOfRange(s: string, currentYear: int) {
    var year := ParseInt(s, true);
    year.Some? && (year.value < 1950 || year.value > currentYear + 10)
  }

  /** `s < 0 || s > 50` where the text is converted to a number. */
  predicate YearsOutOfRange(s: string) {
    ToNumber(s).Below(0.0) || ToNumber(s).Above(50.0)
  }

  // ---------------------------------------------------------------------
  // validateStep
  // ---------------------------------------------------------------------

  /** The errors the failing rules record, in order. */
  function Reported(rules: seq<Rule>): (e: Errors)
    ensures e == [] <==> forall i :: 0 <= i < |rules| ==> !rules[i].fails
    ensures forall i :: 0 <= i < |rules| && rules[i].fails ==> (rules[i].field, rules[i].message) in e
    ensures forall x :: x in e ==> exists i :: 0 <= i < |rules| && rules[i].fails && x == (rules[i].field, rules[i].message)
  {
    if |rules| == 0 then []
    else
      var rest := Reported(rules[1..]);
      assert forall i :: 1 <= i < |rules| ==> rules[i] == rules[1..][i - 1];
      if rules[0].fails then [(rules[0].field, rules[0].message)] + rest else rest
  }

  /** A field that must be non-blank, then pass `ok`; the message says which
      of the two went wrong. */
  function Checked(field: string, blank: bool, ok: bool, required: string, invalid: string): Rule {
    Rule(blank || !ok, field, if blank then required else invalid)
  }

  function Step1Rules(f: FormData): seq<Rule> {
    [ Rule(IsBlank(f.firstName), "firstName", "First name is required"),
      Rule(IsBlank(f.lastName), "lastName", "Last name is required"),
      Checked("email", IsBlank(f.email), EmailPattern(f.email), "Email is required", "Email is invalid"),
      Checked("phone", IsBlank(f.phone), PhoneOk(f.phone), "Phone is required", "Phone must be 10 digits"),
      Rule(f.dateOfBirth == "", "dateOfBirth", "Date of birth is required") ]
  }

  function Step2Rules(f: FormData): seq<Rule> {
    [ Rule(IsBlank(f.street), "street", "Street address is required"),
      Rule(IsBlank(f.city), "city", "City is required"),
      Rule(IsBlank(f.state), "state", "State is required"),
      Checked("zipCode", IsBlank(f.zipCode), ZipOk(f.zipCode), "ZIP code is required", "ZIP code must be 5-6 digits"),
      Rule(IsBlank(f.country), "country", "Country is required") ]
  }

  function YearMessage(currentYear: int): string {
    "Year must be between 1950 and " + IntToString(currentYear + 10)
  }

  function Step3Rules(f: FormData, currentYear: int): seq<Rule> {
    [ Rule(f.highestDegree == "", "highestDegree", "Degree is required"),
      Rule(IsBlank(f.institution), "institution", "Institution is required"),
      Checked("graduationYear", f.graduationYear == "", !YearOutOfRange(f.graduationYear, currentYear),
              "Graduation year is required", YearMessage(currentYear)),
      Rule(IsBlank(f.fieldOfStudy), "fieldOfStudy", "Field of study is required") ]
  }

  function Step4Rules(f: FormData): seq<Rule> {
    [ Checked("yearsOfExperience", f.yearsOfExperience == "", !YearsOutOfRange(f.yearsOfExperience),
              "Years of experience is required", "Years must be between 0 and 50") ]
  }

  /** The rules of `validateStep(step)`; `currentYear` is
      `new Date().getFullYear()`. Steps other than 1 to 4 have none. */
  function StepRules(step: int, f: FormData, currentYear: int): seq<Rule> {
    match step
    case 1 => Step1Rules(f)
    case 2 => Step2Rules(f)
    case 3 => Step3Rules(f, currentYear)
    case 4 => Step4Rules(f)
    case _ => []
  }

  /** The errors `validateStep(step)` records. */
  function ValidateStep(step: int, f: FormData, currentYear: int): (e: Errors)
    ensures !(1 <= step <= 4) ==> e == []
    ensures forall x :: x in e ==>
              (exists i :: 0 <= i < |StepRules(step, f, currentYear)| && x.0 == StepRules(step, f, currentYear)[i].field)
  {
    Reported(StepRules(step, f, currentYear))
  }

  /** `validateStep` returns true iff no error was recorded. */
  predicate StepValid(step: int, f: FormData, currentYear: int) {
    ValidateStep(step, f, currentYear) == []
  }

  /** No rule of the list fails, stated rule by rule. */
  predicate AllPass(rules: seq<Rule>) {
    |rules| == 0 || (!rules[0].fails && AllPass(rules[1..]))
  }

  lemma {:induction false} NoneFails(rules: seq<Rule>)
    ensures Reported(rules) == [] <==> AllPass(rules)
  {
    if |rules| > 0 {
      NoneFails(rules[1..]);
      assert forall i :: 1 <= i < |rules| ==> rules[i] == rules[1..][i - 1];
    }
  }

  lemma AllPassFour(b: Rule, c: Rule, d: Rule, e: Rule)
    ensures AllPass([b, c, d, e]) <==> !b.fails && !c.fails && !d.fails && !e.fails
  {
    assert [b, c, d, e][1..] == [c, d, e];
    assert [c, d, e][1..] == [d, e];
    assert [d, e][1..] == [e];
    assert [e][1..] == [];
    assert AllPass([e]) == !e.fails;
    assert AllPass([d, e]) == (!d.fails && !e.fails);
    assert AllPass([c, d, e]) == (!c.fails && !d.fails && !e.fails);
  }

  lemma AllPassFive(a: Rule, b: Rule, c: Rule, d: Rule, e: Rule)
    ensures AllPass([a, b, c, d, e]) <==> !a.fails && !b.fails && !c.fails && !d.fails && !e.fails
  {
    assert [a, b, c, d, e][1..] == [b, c, d, e];
    AllPassFour(b, c, d, e);
  }

  /** `errors[field]` is set. */
  predicate Flags(e: Errors, field: string) {
    exists x :: x in e && x.0 == field
  }

  /** Step 1 passes exactly when both names are non-blank, the email is
      non-blank and matches the pattern, the phone is ten digits once dashes
      and white space are gone, and a date of birth is present. */
  lemma Step1Valid(f: FormData, currentYear: int)
    ensures StepValid(1, f, currentYear) <==>
              && !IsBlank(f.firstName) && !IsBlank(f.lastName)
              && !IsBlank(f.email) && EmailPattern(f.email)
              && !IsBlank(f.phone) && PhoneOk(f.phone)
              && f.dateOfBirth != ""
  {
    var r := Step1Rules(f);
    NoneFails(r);
    AllPassFive(r[0], r[1], r[2], r[3], r[4]);
  }

  /** Which message step 1 gives for the email and for the phone. */
  lemma Step1Messages(f: FormData, currentYear: int)
    ensures var e := ValidateStep(1, f, currentYear);
            && (IsBlank(f.email) ==> ("email", "Email is required") in e)
            && (!IsBlank(f.email) && !EmailPattern(f.email) ==> ("email", "Email is invalid") in e)
            && (IsBlank(f.phone) ==> ("phone", "Phone is required") in e)
            && (!IsBlank(f.phone) && !PhoneOk(f.phone) ==> ("phone", "Phone must be 10 digits") in e)
  {
    var r := Step1Rules(f);
    assert r[2].field == "email" && r[3].field == "phone";
  }

  /** Step 2 passes exactly when the four address lines are non-blank and
      the ZIP code, as typed, is 5 or 6 digits. */
  lemma Step2Valid(f: FormData, currentYear: int)
    ensures StepValid(2, f, currentYear) <==>
              && !IsBlank(f.street) && !IsBlank(f.city) && !IsBlank(f.state) && !IsBlank(f.country)
              && ZipOk(f.zipCode)
  {
    var r := Step2Rules(f);
    NoneFails(r);
    AllPassFive(r[0], r[1], r[2], r[3], r[4]);
    ZipOkNotBlank(f.zipCode);
    assert r[3].fails <==> !ZipOk(f.zipCode);
  }

  /** A ZIP code that passes the pattern is not blank. */
  lemma ZipOkNotBlank(s: string)
    ensures ZipOk(s) ==> !IsBlank(s)
  {
    if ZipOk(s) {
      assert !IsSpace(s[0]);
      TrimSpec(s);
    }
  }

  /** Step 3 passes exactly when the degree is chosen, institution and field
      are non-blank, and the graduation year is given and not outside
      1950..currentYear+10 (text that does not parse is not outside). */
  lemma Step3Valid(f: FormData, currentYear: int)
    ensures StepValid(3, f, currentYear) <==>
              && f.highestDegree != "" && !IsBlank(f.institution) && !IsBlank(f.fieldOfStudy)
              && f.graduationYear != "" && !YearOutOfRange(f.graduationYear, currentYear)
  {
    var r := Step3Rules(f, currentYear);
    NoneFails(r);
    AllPassFour(r[0], r[1], r[2], r[3]);
  }

  /** A year written as digits passes exactly within 1950..currentYear+10. */
  lemma GraduationYearBounds(f: FormData, year: int, currentYear: int)
    requires f.graduationYear == IntToString(year)
    ensures !Flags(ValidateStep(3, f, currentYear), "graduationYear") <==> 1950 <= year <= currentYear + 10
  {
    GraduationYearRange(year, currentYear);
    assert f.graduationYear != "";
    GraduationFlagIff(f, currentYear);
  }

  /** The written-out year is out of range exactly outside 1950..currentYear + 10. */
  lemma GraduationYearRange(year: int, currentYear: int)
    ensures YearOutOfRange(IntToString(year), currentYear) <==> !(1950 <= year <= currentYear + 10)
  {
    ParseIntOfIntToString(year, true);
  }

  /** Step 3 flags the graduation year exactly when its rule fails. */
  lemma GraduationFlagIff(f: FormData, currentYear: int)
    ensures Flags(ValidateStep(3, f, currentYear), "graduationYear") <==>
              f.graduationYear == "" || YearOutOfRange(f.graduationYear, currentYear)
  {
    var r := Step3Rules(f, currentYear);
    var e := ValidateStep(3, f, currentYear);
    assert r[2].field == "graduationYear";
    assert forall i :: 0 <= i < |r| && i != 2 ==> r[i].field != "graduationYear";
    if Flags(e, "graduationYear") {
      var x :| x in e && x.0 == "graduationYear";
      assert r[2].fails;
    }
  }

  /** A whole number of years passes exactly within 0..50. */
  lemma YearsOfExperienceBounds(f: FormData, years: int, currentYear: int)
    requires f.yearsOfExperience == IntToString(years)
    ensures StepValid(4, f, currentYear) <==> 0 <= years <= 50
  {
    YearsRange(years);
    assert f.yearsOfExperience != "";
    Step4ValidIff(f, currentYear);
  }

  /** Step 4 passes exactly when the years are given and in range. */
  lemma Step4ValidIff(f: FormData, currentYear: int)
    ensures StepValid(4, f, currentYear) <==> f.yearsOfExperience != "" && !YearsOutOfRange(f.yearsOfExperience)
  {
    var r := Step4Rules(f);
    assert StepValid(4, f, currentYear) <==> !r[0].fails;
  }

  /** The written-out integer is out of range exactly outside 0..50. */
  lemma YearsRange(years: int)
    ensures YearsOutOfRange(IntToString(years)) <==> !(0 <= years <= 50)
  {
    NumberOfIntToString(years);
  }

  /** Number() reads white space as zero, so a value of only spaces passes
      step 4, and so does text that is not a number. */
  lemma YearsOfExperienceLoose(f: FormData, currentYear: int)
    requires f.yearsOfExperience == " " || f.yearsOfExperience == "many"
    ensures StepValid(4, f, currentYear)
  {
    if f.yearsOfExperience == " " {
      assert IsSpace(' ');
      assert IsBlank(" ") by {
        TrimSpec(" ");
      }
    } else {
      ManyIsNaN();
    }
    Step4InRange(f, currentYear);
  }

  /** `Number("many")` is `NaN`. */
  lemma ManyIsNaN()
    ensures ToNumber("many") == NaN
  {
    var s := "many";
    assert Trim(s) == s by {
      assert !IsSpace(s[0]) && !IsSpace(s[|s| - 1]);
      TrimOfTrimmed(s);
    }
    assert DigitPrefixLen(s) == 0;
  }

  /** Step 4 passes when the years are given and not out of range. */
  lemma Step4InRange(f: FormData, currentYear: int)
    requires f.yearsOfExperience != "" && !YearsOutOfRange(f.yearsOfExperience)
    ensures StepValid(4, f, currentYear)
  {
  }

  // ---------------------------------------------------------------------
  // Navigation
  // ---------------------------------------------------------------------

  /** `nextStep`: one step on when the current step validates. */
  function NextStep(step: int, f: FormData, currentYear: int): (r: int)
    ensures StepValid(step, f, currentYear) ==> r == step + 1
    ensures !StepValid(step, f, currentYear) ==> r == step
  {
    if StepValid(step, f, currentYear) then step + 1 else step
  }

  /** `prevStep`. */
  function PrevStep(step: int): (r: int)
    ensures r + 1 == step
  {
    step - 1
  }

  /** The part of the form's state that decides what is on screen: the
      current step and the `submitSuccess` flag. */
  datatype View = View(step: int, submitSuccess: bool)

  /** The buttons under a step: Previous after step 1, Next before the
      review, Submit on the review. */
  datatype Action = Previous | Next | Submit

  /** Once `submitSuccess` is set the form renders only the step's content,
      with no buttons; otherwise the navigation block shows them by step. */
  predicate Offered(v: View, a: Action) {
    && !v.submitSuccess
    && match a
       case Previous => v.step > 1
       case Next => v.step < 5
       case Submit => v.step == 5
  }

  /** What a click does to the step; submitting leaves it to the
      submission's outcome. */
  function Click(v: View, a: Action, f: FormData, currentYear: int): (r: int)
    requires Offered(v, a)
    ensures a == Submit ==> r == v.step
  {
    match a
    case Previous => PrevStep(v.step)
    case Next => NextStep(v.step, f, currentYear)
    case Submit => v.step
  }

  /** Using only the buttons on screen keeps the step between 1 and 6, and
      never leaves the form steps 1..5 for the success screen. */
  lemma ClicksStayInRange(v: View, a: Action, f: FormData, currentYear: int)
    requires 1 <= v.step <= 6 && Offered(v, a)
    ensures 1 <= Click(v, a, f, currentYear) <= 6
    ensures v.step <= 5 ==> Click(v, a, f, currentYear) <= 5
  {
  }

  /** Next moves on exactly when the step validates; the screen it leads
      to offers Previous, and Previous there returns to the step left. */
  lemma NextThenPrevious(v: View, f: FormData, currentYear: int)
    requires 1 <= v.step && Offered(v, Next)
    ensures var w := View(Click(v, Next, f, currentYear), v.submitSuccess);
            && (w.step != v.step <==> StepValid(v.step, f, currentYear))
            && (w.step != v.step ==> Offered(w, Previous) && Click(w, Previous, f, currentYear) == v.step)
  {
  }

  // ---------------------------------------------------------------------
  // Restoring and naming the step
  // ---------------------------------------------------------------------

  /** `parseInt(v, 10)` for a value that may be null (`String(null)` is
      "null", which does not parse). */
  function StepNumber(v: Option<string>): (r: Option<int>)
    ensures v.None? ==> r.None?
  {
    if v.None? then None else ParseInt(v.value, false)
  }

  /** The step on load: the URL's `stepNum` if it is 1..6, else the saved
      step if it is 1..6, else the initial step 1. */
  function RestoreStep(urlStepNum: Option<string>, savedStep: Option<string>): (r: int)
    ensures 1 <= r <= 6
    ensures var u := StepNumber(urlStepNum);
            u.Some? && 1 <= u.value <= 6 ==> r == u.value
  {
    var u := StepNumber(urlStepNum);
    var s := StepNumber(savedStep);
    if u.Some? && 1 <= u.value <= 6 then u.value
    else if s.Some? && 1 <= s.value <= 6 then s.value
    else 1
  }

  /** The saved step decides only when the URL gives no usable step. */
  lemma RestoreFallsBack(urlStepNum: Option<string>, savedStep: Option<string>)
    ensures var u := StepNumber(urlStepNum);
            var s := StepNumber(savedStep);
            && (!(u.Some? && 1 <= u.value <= 6) && s.Some? && 1 <= s.value <= 6 ==>
                  RestoreStep(urlStepNum, savedStep) == s.value)
            && (!(u.Some? && 1 <= u.value <= 6) && !(s.Some? && 1 <= s.value <= 6) ==>
                  RestoreStep(urlStepNum, savedStep) == 1)
  {
  }

  /** The progress-bar labels of steps 1 to 5. */
  const Labels := ["Personal", "Address", "Education", "Experience", "Review"]

  /** `stepName` written next to `stepNum`. */
  function StepName(step: int): (name: string)
    ensures 1 <= step <= 5 ==> name == Labels[step - 1]
    ensures step == 6 ==> name == "thankyou"
    ensures !(1 <= step <= 6) ==> name == "step" + IntToString(step)
  {
    if 1 <= step <= 5 then Labels[step - 1]
    else if step == 6 then "thankyou"
    else "step" + IntToString(step)
  }

  /** Different steps get different names. */
  lemma StepNamesDistinct(a: int, b: int)
    requires a != b
    ensures StepName(a) != StepName(b)
  {
    if !(1 <= a <= 6) && !(1 <= b <= 6) {
      ParseIntOfIntToString(a, false);
      ParseIntOfIntToString(b, false);
      assert StepName(a)[4..] == IntToString(a);
      assert StepName(b)[4..] == IntToString(b);
    } else if !(1 <= a <= 6) {
      KnownNameHead(b);
      assert StepName(a)[0] == 's';
    } else if !(1 <= b <= 6) {
      KnownNameHead(a);
      assert StepName(b)[0] == 's';
    } else {
      KnownNameHead(a);
      KnownNameHead(b);
    }
  }

  /** The first two letters of the six fixed names, all different and none
      starting with 's'. */
  function KnownHead(step: int): string
    requires 1 <= step <= 6
  {
    ["Pe", "Ad", "Ed", "Ex", "Re", "th"][step - 1]
  }

  lemma KnownNameHead(step: int)
    requires 1 <= step <= 6
    ensures |StepName(step)| >= 2 && StepName(step)[..2] == KnownHead(step)
    ensures StepName(step)[0] != 's'
    ensures forall other :: 1 <= other <= 6 && other != step ==> KnownHead(other) != KnownHead(step)
  {
  }

  /** A step written to the URL (`String(step)`) or to storage is restored
      as the same step. */
  lemma RestoreAfterPersist(step: int, savedStep: Option<string>)
    requires 1 <= step <= 6
    ensures RestoreStep(Some(IntToString(step)), savedStep) == step
    ensures RestoreStep(None, Some(IntToString(step))) == step
  {
    ParseIntOfIntToString(step, false);
  }

  // ---------------------------------------------------------------------
  // After submitting
  // ---------------------------------------------------------------------

  /** The parameters after the id in the thank-you redirect. */
  const RedirectParams := [Url.Param("status", "success"), Url.Param("page", "thankyou"),
                           Url.Param("stepNum", "6"), Url.Param("stepName", "thankyou")]

  /** The query of the thank-you redirect: the id URI-encoded, the rest as
      written. */
  function RedirectQuery(appId: string): string {
    Url.QueryText([Url.Param("applicationId", Url.EncodeURIComponent(appId))] + RedirectParams)
  }

  lemma RedirectParamsPlain()
    ensures forall i :: 0 <= i < |RedirectParams| ==> Url.Plain(RedirectParams[i].name) && Url.Plain(RedirectParams[i].value)
  {
    assert Url.Plain("status") && Url.Plain("success") && Url.Plain("page") && Url.Plain("thankyou");
    assert Url.Plain("stepNum") && Url.Plain("6") && Url.Plain("stepName");
  }

  /** Reading the redirect's query gives back the id, whatever characters it
      holds, and the fixed parameters; the query has no fragment mark. */
  lemma RedirectQueryReadsBack(appId: string)
    ensures Url.ParseQuery("?" + RedirectQuery(appId)) == [Url.Param("applicationId", appId)] + RedirectParams
    ensures '#' !in RedirectQuery(appId)
  {
    var e := Url.EncodeURIComponent(appId);
    EncodedIdWritable(appId);
    IdNamePlain();
    RedirectParamsPlain();
    Url.ReadQueryHead(Url.Param("applicationId", e), RedirectParams);
    Url.FormDecodeEncoded(appId);
  }

  lemma EncodedIdWritable(appId: string)
    ensures '&' !in Url.EncodeURIComponent(appId) && '#' !in Url.EncodeURIComponent(appId)
  {
    Url.EncodedIsSafe(appId);
  }

  lemma IdNamePlain()
    ensures Url.Plain("applicationId")
  {
  }

  /** Where a submission leaves the browser. */
  datatype AfterSubmit =
    | Redirect(url: string)
      /** No id in the reply: the success screen, step 6. */
    | SuccessScreen
      /** The request failed: an alert, and the form stays as it was. */
    | Alerted

  /** `handleSubmit`, given the reply's `applicationId` and
      `data.applicationId` (None when the request threw). */
  function HandleSubmit(reply: Option<(Option<string>, Option<string>)>): (r: AfterSubmit)
    ensures reply.None? <==> r == Alerted
    ensures r.Redirect? ==>
              var id := OrElse(reply.value.0, reply.value.1);
              TruthyStr(id) && r.url == "/application?" + RedirectQuery(id.value)
  {
    if reply.None? then Alerted
    else
      var id := OrElse(reply.value.0, reply.value.1);
      if TruthyStr(id) then Redirect("/application?" + RedirectQuery(id.value)) else SuccessScreen
  }

  /** The form after a submission that stays on the page: the fallback
      success screen sets `submitSuccess` and step 6; after an alert the
      form is as it was. A redirect leaves the page, so it has no view. */
  function AfterSubmitView(v: View, r: AfterSubmit): View
    requires !r.Redirect?
  {
    if r.SuccessScreen? then View(6, true) else v
  }

  /** Submitting from the review: a reply without an id shows the success
      screen with no button at all, and a failed request leaves the review
      with its Previous and Submit buttons. */
  lemma SubmitOutcomeButtons(reply: Option<(Option<string>, Option<string>)>)
    requires !HandleSubmit(reply).Redirect?
    ensures var w := AfterSubmitView(View(5, false), HandleSubmit(reply));
            && (HandleSubmit(reply).SuccessScreen? ==> w.step == 6 && forall a :: !Offered(w, a))
            && (HandleSubmit(reply).Alerted? ==> w.step == 5 && Offered(w, Previous) && Offered(w, Submit) && !Offered(w, Next))
  {
  }

  /** A step 6 restored from the URL or from storage, with `submitSuccess`
      still false, shows the navigation block, where only Previous applies. */
  lemma RestoredStepSixOffersOnlyPrevious(urlStepNum: Option<string>, savedStep: Option<string>)
    requires RestoreStep(urlStepNum, savedStep) == 6
    ensures var v := View(RestoreStep(urlStepNum, savedStep), false);
            Offered(v, Previous) && !Offered(v, Next) && !Offered(v, Submit)
  {
  }
}

=== FILE: intake_model.dfy ===
/** The intake collection (backend/models/Application.js): the stored
    record, how a submitted body becomes one (defaults, casting, required
    paths) and the uniqueness of its identifiers. */
module IntakeModel {
  import opened Wrappers
  import opened Text
  import opened Applicant

  /** A stored intake document. `id` is the Mongo `_id`; `sessionId` and
      `thankYouUrl` are `null` (None) unless set. */
  datatype IntakeRecord = IntakeRecord(
    id: string,
    applicant: Applicant,
    applicationId: string,
    sessionId: Option<string>,
    transactionId: string,
    thankYouUrl: Option<string>,
    submittedAt: int,
    createdAt: int,
    updatedAt: int)

  /** A `POST /submit` body: the applicant paths plus the metadata paths a
      client may set. */
  datatype Submission = Submission(
    applicant: ApplicantInput,
    applicationId: Option<string>,
    sessionId: Option<string>,
    transactionId: Option<string>,
    thankYouUrl: Option<string>,
    submittedAt: Option<int>)

  /** What `crypto.randomUUID()` and the ObjectId generator return for this
      request; the clock is passed separately. */
  datatype Fresh = Fresh(objectId: string, applicationId: string, transactionId: string)

  predicate IsLowerHex(c: char) {
    '0' <= c <= '9' || 'a' <= c <= 'f'
  }

  /** The shape of `crypto.randomUUID()`: 36 characters, lower-case hex
      digits with hyphens at positions 8, 13, 18 and 23. */
  predicate IsUuid(s: string) {
    |s| == 36 && forall i :: 0 <= i < |s| ==>
      if i == 8 || i == 13 || i == 18 || i == 23 then s[i] == '-' else IsLowerHex(s[i])
  }

  /** The `required` validators of the metadata paths. */
  function MetaMissing(applicationId: string, transactionId: string): (m: seq<string>)
    ensures m == [] <==> applicationId != "" && transactionId != ""
  {
    Check("applicationId", applicationId != "") + Check("transactionId", transactionId != "")
  }

  /** `new Application(body)`, validated: defaults fill the absent paths
      (gen UUIDs, `null`, the current time), setters trim, and every
      required path must be filled. */
  function NewRecord(sub: Submission, gen: Fresh, now: int): (r: Result<IntakeRecord, seq<string>>)
    ensures r.Ok? <==>
              Validate(sub.applicant).Ok? && sub.applicationId != Some("") && sub.transactionId != Some("")
    ensures r.Ok? ==>
              && Stored(r.value.applicant, sub.applicant)
              && r.value.id == gen.objectId
              && r.value.applicationId == sub.applicationId.GetOr(gen.applicationId)
              && r.value.transactionId == sub.transactionId.GetOr(gen.transactionId)
              && r.value.sessionId == TrimOpt(sub.sessionId)
              && r.value.thankYouUrl == TrimOpt(sub.thankYouUrl)
              && r.value.submittedAt == sub.submittedAt.GetOr(now)
              && r.value.createdAt == now && r.value.updatedAt == now
    ensures r.Err? ==> r.error != []
    requires gen.applicationId != "" && gen.transactionId != ""
  {
    var applicationId := sub.applicationId.GetOr(gen.applicationId);
    var transactionId := sub.transactionId.GetOr(gen.transactionId);
    var missing := MetaMissing(applicationId, transactionId);
    var v := Validate(sub.applicant);
    assert missing == [] <==> sub.applicationId != Some("") && sub.transactionId != Some("");
    if v.Err? then Err(v.error + missing)
    else if missing != [] then Err(missing)
    else Ok(IntakeRecord(gen.objectId, v.value, applicationId, TrimOpt(sub.sessionId), transactionId,
                         TrimOpt(sub.thankYouUrl), sub.submittedAt.GetOr(now), now, now))
  }

  // ---------------------------------------------------------------------
  // The collection
  // ---------------------------------------------------------------------

  predicate HasId(store: seq<IntakeRecord>, id: string) {
    exists i :: 0 <= i < |store| && store[i].id == id
  }

  predicate HasApplicationId(store: seq<IntakeRecord>, applicationId: string) {
    exists i :: 0 <= i < |store| && store[i].applicationId == applicationId
  }

  predicate HasTransactionId(store: seq<IntakeRecord>, transactionId: string) {
    exists i :: 0 <= i < |store| && store[i].transactionId == transactionId
  }

  /** What every record in the collection satisfies, and the unique indexes
      on `_id`, `applicationId` and `transactionId`. */
  predicate ValidStore(store: seq<IntakeRecord>) {
    && (forall i :: 0 <= i < |store| ==> ValidRecord(store[i]))
    && (forall i, j :: 0 <= i < j < |store| ==> store[i].id != store[j].id)
    && (forall i, j :: 0 <= i < j < |store| ==> store[i].applicationId != store[j].applicationId)
    && (forall i, j :: 0 <= i < j < |store| ==> store[i].transactionId != store[j].transactionId)
  }

  predicate ValidRecord(r: IntakeRecord) {
    && WellFormed(r.applicant)
    && r.applicationId != "" && r.transactionId != ""
    && TrimmedOpt(r.sessionId) && TrimmedOpt(r.thankYouUrl)
  }

  /** The oracle's values are not in use yet. */
  predicate FreshFor(store: seq<IntakeRecord>, gen: Fresh) {
    && gen.applicationId != "" && gen.transactionId != ""
    && !HasId(store, gen.objectId)
    && !HasApplicationId(store, gen.applicationId)
    && !HasTransactionId(store, gen.transactionId)
  }

  /** `save()` of a new document: validation first, then the unique indexes. */
  function Insert(store: seq<IntakeRecord>, sub: Submission, gen: Fresh, now: int): (r: Result<IntakeRecord, SaveError>)
    requires FreshFor(store, gen)
    ensures r.Ok? <==>
              && NewRecord(sub, gen, now).Ok?
              && !HasApplicationId(store, NewRecord(sub, gen, now).value.applicationId)
              && !HasTransactionId(store, NewRecord(sub, gen, now).value.transactionId)
    ensures r.Ok? ==> r.value == NewRecord(sub, gen, now).value
  {
    match NewRecord(sub, gen, now)
    case Err(paths) => Err(ValidationFailed(paths))
    case Ok(rec) =>
      if HasApplicationId(store, rec.applicationId) then Err(DuplicateKey("applicationId"))
      else if HasTransactionId(store, rec.transactionId) then Err(DuplicateKey("transactionId"))
      else Ok(rec)
  }

  /** A valid record whose identifiers are all unused can join a valid
      collection. */
  lemma AppendKeepsStoreValid(store: seq<IntakeRecord>, rec: IntakeRecord)
    requires ValidStore(store) && ValidRecord(rec)
    requires !HasId(store, rec.id) && !HasApplicationId(store, rec.applicationId)
    requires !HasTransactionId(store, rec.transactionId)
    ensures ValidStore(store + [rec])
  {
    var s := store + [rec];
    forall i, j | 0 <= i < j < |s|
      ensures s[i].id != s[j].id
      ensures s[i].applicationId != s[j].applicationId
      ensures s[i].transactionId != s[j].transactionId
    {
      if j == |store| {
        assert s[i] == store[i];
      }
    }
  }

  /** A record that passed `Insert` is valid and its identifiers are unused;
      with any trimmed thank-you URL it can join a valid collection. */
  lemma InsertKeepsStoreValid(store: seq<IntakeRecord>, sub: Submission, gen: Fresh, now: int, url: Option<string>)
    requires ValidStore(store) && FreshFor(store, gen)
    requires Insert(store, sub, gen, now).Ok?
    requires TrimmedOpt(url)
    ensures ValidStore(store + [Insert(store, sub, gen, now).value.(thankYouUrl := url)])
  {
    var rec := Insert(store, sub, gen, now).value.(thankYouUrl := url);
    ValidatedIsWellFormed(sub.applicant);
    TrimOptTrimmed(sub.sessionId);
    AppendKeepsStoreValid(store, rec);
  }
}

=== FILE: intake_routes.dfy ===
/** The intake API (backend/routes/applicationRoutes.js): `POST /submit`,
    `GET /applications` and `GET /applications/:id`, each a transition from
    the collection and the request to the next collection and a response. */
module IntakeRoutes {
  import opened Wrappers
  import opened Text
  import opened Applicant
  import opened IntakeModel
  import Sorting
  import Url
  import Logging
  import opened ObjectId

  datatype Response =
    | Created(record: IntakeRecord)
    | Listed(records: seq<IntakeRecord>)
    | Found(record: IntakeRecord)
    | NotFound
    | Failed(message: string, error: SaveError)
  {
    function StatusCode(): int {
      match this
      case Created(_) => 201
      case Listed(_) => 200
      case Found(_) => 200
      case NotFound => 404
      case Failed(_, _) => 500
    }

    /** The `success` field of the JSON body. */
    predicate Success() {
      Created? || Listed? || Found?
    }
  }

  const NotFoundMessage := "Application not found"
  const SubmitFailedMessage := "Error submitting application"

  /** A collection and the response that ends a request. */
  datatype Step = Step(store: seq<IntakeRecord>, response: Response)

  // ---------------------------------------------------------------------
  // POST /submit
  // ---------------------------------------------------------------------

  /** `process.env.FRONTEND_BASE_URL || ''`. */
  function FrontendBase(env: Option<string>): string {
    match env
    case Some(v) => v
    case None => ""
  }

  /** The parameters after the id in the server's thank-you link. */
  const ThankYouParams := [Url.Param("status", "success"), Url.Param("page", "thankyou"),
                           Url.Param("stepNum", "6"), Url.Param("stepName", "thankyou")]

  /** The deep link the server builds when the client sends none: the id
      goes into the query as it is. */
  function DefaultThankYouUrl(base: string, applicationId: string): string {
    base + "/application?" + Url.QueryText([Url.Param("applicationId", applicationId)] + ThankYouParams)
  }

  /** The client's `thankYouUrl` when it is truthy, the default otherwise. */
  function ChooseThankYouUrl(client: Option<string>, base: string, applicationId: string): (u: string)
    ensures client.Some? && client.value != "" ==> u == client.value
    ensures client.None? || client.value == "" ==> u == DefaultThankYouUrl(base, applicationId)
  {
    if client.Some? && client.value != "" then client.value else DefaultThankYouUrl(base, applicationId)
  }

  /** The guard of the second save: the saved URL is falsy or differs. */
  predicate NeedsBackfill(saved: Option<string>, chosen: string) {
    saved.None? || saved.value == "" || saved.value != chosen
  }

  /** The document after the backfill: assigning through the `trim` setter. */
  function Backfill(rec: IntakeRecord, chosen: string): (r: IntakeRecord)
    requires TrimmedOpt(rec.thankYouUrl)
    ensures r == rec.(thankYouUrl := Some(Trim(chosen)))
    ensures !NeedsBackfill(rec.thankYouUrl, chosen) ==> r == rec
  {
    if NeedsBackfill(rec.thankYouUrl, chosen) then rec.(thankYouUrl := Some(Trim(chosen)))
    else rec
  }

  /** `POST /submit`: save the body as a new document, settle its thank-you
      URL, and answer 201 with the stored record, or 500 when the save fails. */
  function Submit(store: seq<IntakeRecord>, sub: Submission, gen: Fresh, now: int, baseEnv: Option<string>): (s: Step)
    requires FreshFor(store, gen)
    ensures Insert(store, sub, gen, now).Err? ==>
              s == Step(store, Failed(SubmitFailedMessage, Insert(store, sub, gen, now).error))
    ensures Insert(store, sub, gen, now).Ok? ==>
              var rec := Insert(store, sub, gen, now).value;
              var chosen := ChooseThankYouUrl(sub.thankYouUrl, FrontendBase(baseEnv), rec.applicationId);
              && s.response == Created(rec.(thankYouUrl := Some(Trim(chosen))))
              && s.store == store + [s.response.record]
    ensures s.response.Created? || s.response.Failed?
  {
    match Insert(store, sub, gen, now)
    case Err(e) => Step(store, Failed(SubmitFailedMessage, e))
    case Ok(rec) =>
      TrimOptTrimmed(sub.thankYouUrl);
      var chosen := ChooseThankYouUrl(sub.thankYouUrl, FrontendBase(baseEnv), rec.applicationId);
      var saved := Backfill(rec, chosen);
      Step(store + [saved], Created(saved))
  }

  /** A successful submit keeps the collection valid; a failed one leaves it
      untouched. */
  lemma SubmitKeepsStoreValid(store: seq<IntakeRecord>, sub: Submission, gen: Fresh, now: int, baseEnv: Option<string>)
    requires ValidStore(store) && FreshFor(store, gen)
    ensures ValidStore(Submit(store, sub, gen, now, baseEnv).store)
  {
    var ins := Insert(store, sub, gen, now);
    if ins.Ok? {
      var chosen := ChooseThankYouUrl(sub.thankYouUrl, FrontendBase(baseEnv), ins.value.applicationId);
      TrimIdempotent(chosen);
      InsertKeepsStoreValid(store, sub, gen, now, Some(Trim(chosen)));
    }
  }

  /** Without a client URL the stored link is the server default built from
      the stored `applicationId` (the base must not start with white space,
      which the `trim` setter would drop). */
  lemma SubmitDefaultThankYouUrl(store: seq<IntakeRecord>, sub: Submission, gen: Fresh, now: int, baseEnv: Option<string>)
    requires FreshFor(store, gen)
    requires sub.thankYouUrl.None? || sub.thankYouUrl == Some("")
    requires FrontendBase(baseEnv) == "" || !IsSpace(FrontendBase(baseEnv)[0])
    requires Submit(store, sub, gen, now, baseEnv).response.Created?
    ensures var rec := Submit(store, sub, gen, now, baseEnv).response.record;
            rec.thankYouUrl == Some(DefaultThankYouUrl(FrontendBase(baseEnv), rec.applicationId))
  {
    var rec := Submit(store, sub, gen, now, baseEnv).response.record;
    DefaultUrlTrimmed(FrontendBase(baseEnv), rec.applicationId);
  }

  /** The default link has no white space at either end when the base has
      none in front: it ends in "thankyou". */
  lemma DefaultUrlTrimmed(base: string, applicationId: string)
    requires base == "" || !IsSpace(base[0])
    ensures Trim(DefaultThankYouUrl(base, applicationId)) == DefaultThankYouUrl(base, applicationId)
  {
    var u := DefaultThankYouUrl(base, applicationId);
    var ps := [Url.Param("applicationId", applicationId)] + ThankYouParams;
    Url.QueryTextEndsWith(ps);
    assert ps[|ps| - 1].value == "thankyou";
    assert u[|u| - 1] == 'u';
    TrimOfTrimmed(u);
  }

  /** A client URL that is already trimmed is stored exactly as sent. */
  lemma SubmitClientThankYouUrl(store: seq<IntakeRecord>, sub: Submission, gen: Fresh, now: int, baseEnv: Option<string>)
    requires FreshFor(store, gen)
    requires sub.thankYouUrl.Some? && sub.thankYouUrl.value != "" && Trimmed(sub.thankYouUrl.value)
    requires Submit(store, sub, gen, now, baseEnv).response.Created?
    ensures Submit(store, sub, gen, now, baseEnv).response.record.thankYouUrl == sub.thankYouUrl
  {
  }

  // ---------------------------------------------------------------------
  // GET /applications
  // ---------------------------------------------------------------------

  function SubmittedKey(r: IntakeRecord): Sorting.Key {
    Sorting.KDate(r.submittedAt)
  }

  /** `GET /applications`: every record, newest `submittedAt` first; `count`
      is the number returned. */
  function List(store: seq<IntakeRecord>): (s: Step)
    ensures s.store == store && s.response.Listed?
    ensures multiset(s.response.records) == multiset(store)
    ensures |s.response.records| == |store|
    ensures forall i, j :: 0 <= i < j < |s.response.records| ==>
              s.response.records[i].submittedAt >= s.response.records[j].submittedAt
  {
    var data := Sorting.SortBy(store, SubmittedKey, true);
    assert forall i, j :: 0 <= i < j < |data| ==> Sorting.InOrder(data[i], data[j], SubmittedKey, true);
    Step(store, Listed(data))
  }

  // ---------------------------------------------------------------------
  // GET /applications/:id
  // ---------------------------------------------------------------------

  /** `findById`: the first record whose `_id` is `id`. */
  function FindById(store: seq<IntakeRecord>, id: string): (r: Option<IntakeRecord>)
    ensures r.Some? <==> HasId(store, id)
    ensures r.Some? ==> r.value in store && r.value.id == id
  {
    if |store| == 0 then None
    else if store[0].id == id then Some(store[0])
    else
      var r := FindById(store[1..], id);
      assert HasId(store, id) ==> HasId(store[1..], id) by {
        if HasId(store, id) {
          var k :| 0 <= k < |store| && store[k].id == id;
          assert store[1..][k - 1].id == id;
        }
      }
      assert HasId(store[1..], id) ==> HasId(store, id) by {
        if HasId(store[1..], id) {
          var k :| 0 <= k < |store[1..]| && store[1..][k].id == id;
          assert store[k + 1].id == id;
        }
      }
      r
  }

  /** `findOne({applicationId: id})`: the first record with that id. */
  function FindByApplicationId(store: seq<IntakeRecord>, id: string): (r: Option<IntakeRecord>)
    ensures r.Some? <==> HasApplicationId(store, id)
    ensures r.Some? ==> r.value in store && r.value.applicationId == id
  {
    if |store| == 0 then None
    else if store[0].applicationId == id then Some(store[0])
    else
      var r := FindByApplicationId(store[1..], id);
      assert HasApplicationId(store, id) ==> HasApplicationId(store[1..], id) by {
        if HasApplicationId(store, id) {
          var k :| 0 <= k < |store| && store[k].applicationId == id;
          assert store[1..][k - 1].applicationId == id;
        }
      }
      assert HasApplicationId(store[1..], id) ==> HasApplicationId(store, id) by {
        if HasApplicationId(store[1..], id) {
          var k :| 0 <= k < |store[1..]| && store[1..][k].applicationId == id;
          assert store[k + 1].applicationId == id;
        }
      }
      r
  }

  /** `GET /applications/:id`: by `_id` when `id` is a valid ObjectId
      (`ObjectId.isValid`, then `findById` with the cast bytes), falling
      back to `applicationId` compared as text; 404 when neither finds a
      record. */
  function Get(store: seq<IntakeRecord>, id: string, cast: Cast): (s: Step)
    ensures s.store == store
    ensures s.response.Found? || s.response.NotFound?
    ensures s.response.NotFound? <==>
              !(cast(id).Some? && HasId(store, cast(id).value)) && !HasApplicationId(store, id)
    ensures cast(id).Some? && HasId(store, cast(id).value) ==>
              s.response.Found? && s.response.record in store && s.response.record.id == cast(id).value
    ensures !(cast(id).Some? && HasId(store, cast(id).value)) && s.response.Found? ==>
              s.response.record in store && s.response.record.applicationId == id
  {
    var byId := if cast(id).Some? then FindById(store, cast(id).value) else None;
    var found := if byId.Some? then byId else FindByApplicationId(store, id);
    match found
    case Some(r) => Step(store, Found(r))
    case None => Step(store, NotFound)
  }

  /** In a valid collection a record is found both by its `_id` and by its
      `applicationId`, provided its `_id` text casts to itself and the
      `applicationId` is not also read as an ObjectId naming another
      record. */
  lemma GetByEitherId(store: seq<IntakeRecord>, k: int, cast: Cast)
    requires ValidStore(store) && 0 <= k < |store|
    requires cast(store[k].id) == Some(store[k].id)
    requires cast(store[k].applicationId).None? || !HasId(store, cast(store[k].applicationId).value)
    ensures Get(store, store[k].id, cast).response == Found(store[k])
    ensures Get(store, store[k].applicationId, cast).response == Found(store[k])
  {
    var r := store[k];
    assert HasId(store, r.id);
    assert HasApplicationId(store, r.applicationId);
    var a := Get(store, r.id, cast).response.record;
    var b := Get(store, r.applicationId, cast).response.record;
    var ia :| 0 <= ia < |store| && store[ia] == a;
    var ib :| 0 <= ib < |store| && store[ib] == b;
    assert ia == k;
    assert ib == k;
  }

  /** A hex `_id` is found whatever the case of its letters: the route id
      casts to the same bytes as the stored id. */
  lemma GetIgnoresIdCase(store: seq<IntakeRecord>, k: int, id: string, cast: Cast)
    requires ValidStore(store) && 0 <= k < |store|
    requires cast(id) == HexCast(id) && HexCast(id) == Some(store[k].id)
    ensures Get(store, id, cast).response == Found(store[k])
  {
    assert HasId(store, store[k].id);
    var a := Get(store, id, cast).response.record;
    var ia :| 0 <= ia < |store| && store[ia] == a;
    assert ia == k;
  }

  /** The completion log classifies every answer of these routes: a 2xx
      answer as a success, the 404 as a client error and a failed save or
      query as a server error, so none is logged as unknown. */
  lemma CompletionStatusClass(r: Response)
    ensures Logging.ClassifyStatus(r.StatusCode()) == Logging.Success <==> r.Success()
    ensures Logging.ClassifyStatus(r.StatusCode()) == Logging.ClientError <==> r.NotFound?
    ensures Logging.ClassifyStatus(r.StatusCode()) == Logging.ServerError <==> r.Failed?
    ensures Logging.ClassifyStatus(r.StatusCode()) != Logging.UnknownStatus
  {
  }
}

=== FILE: logging.dfy ===
/** Request-log hygiene of the intake backend (backend/utils/logging.js):
    the recursive key redaction applied to every logged payload, the choice
    of which payload to log, and the classification of response statuses. */
module Logging {
  import opened Wrappers
  import opened Text

  /** A JSON value as Express hands it over. Numbers are integers in this
      model; an object keeps its keys in insertion order. */
  datatype Json =
    | JNull
    | JBool(b: bool)
    | JNum(n: int)
    | JStr(s: string)
    | JArr(items: seq<Json>)
    | JObj(fields: seq<Field>)

  datatype Field = Field(key: string, value: Json)

  /** `typeof v === 'object'`: true of `null`, arrays and objects. */
  predicate IsObjectLike(j: Json) {
    j.JNull? || j.JArr? || j.JObj?
  }

  /** JavaScript truthiness. */
  predicate Truthy(j: Json) {
    match j
    case JNull => false
    case JBool(b) => b
    case JNum(n) => n != 0
    case JStr(s) => s != ""
    case _ => true
  }

  function Keys(fields: seq<Field>): (ks: seq<string>)
    ensures |ks| == |fields|
    ensures forall i :: 0 <= i < |fields| ==> ks[i] == fields[i].key
  {
    seq(|fields|, i requires 0 <= i < |fields| => fields[i].key)
  }

  // ---------------------------------------------------------------------
  // Redaction
  // ---------------------------------------------------------------------

  /** The key fragments whose presence marks a key as sensitive. */
  const SanitizeKeys: seq<string> :=
    ["ssn", "socialsecuritynumber", "ssnlast4", "creditcard", "cardnumber", "cvv", "password", "dob"]

  const Redacted: string := "[REDACTED]"

  /** The redaction test, as written: the lower-cased key is one of the
      fragments, or contains one of them. */
  predicate IsSensitiveKey(key: string) {
    var lower := ToLower(key);
    lower in SanitizeKeys || exists i :: 0 <= i < |SanitizeKeys| && Contains(lower, SanitizeKeys[i])
  }

  /** The exact-match disjunct adds nothing: a key is sensitive iff its
      lower-cased form contains one of the fragments. */
  lemma SensitiveIffContainsFragment(key: string)
    ensures IsSensitiveKey(key) <==>
              exists i :: 0 <= i < |SanitizeKeys| && Contains(ToLower(key), SanitizeKeys[i])
  {
    var lower := ToLower(key);
    if lower in SanitizeKeys {
      var i :| 0 <= i < |SanitizeKeys| && SanitizeKeys[i] == lower;
      assert OccursAt(lower, SanitizeKeys[i], 0);
    }
  }

  /** `sanitizePayload`: falsy values and non-objects come back unchanged,
      arrays are sanitised element by element, and an object is copied with
      every sensitive key's value replaced by "[REDACTED]" and every other
      object-typed value sanitised recursively. */
  function Sanitize(j: Json): (r: Json)
    ensures !j.JArr? && !j.JObj? ==> r == j
    ensures j.JArr? ==> r.JArr? && |r.items| == |j.items|
    ensures j.JObj? ==> r.JObj? && Keys(r.fields) == Keys(j.fields)
    decreases j, 1
  {
    match j
    case JArr(items) =>
      JArr(seq(|items|, i requires 0 <= i < |items| => Sanitize(items[i])))
    case JObj(fields) =>
      JObj(seq(|fields|, i requires 0 <= i < |fields| => SanitizeField(fields[i], j)))
    case _ => j
  }

  /** One key of the object copy. `parent` is the object the field belongs to. */
  function SanitizeField(f: Field, ghost parent: Json): (r: Field)
    requires parent.JObj? && f in parent.fields
    ensures r.key == f.key
    decreases parent, 0
  {
    if IsSensitiveKey(f.key) then Field(f.key, JStr(Redacted))
    else if IsObjectLike(f.value) then Field(f.key, Sanitize(f.value))
    else f
  }

  /** No sensitive key anywhere in `j` holds anything but "[REDACTED]". */
  predicate Clean(j: Json)
    decreases j, 1
  {
    match j
    case JArr(items) => forall i :: 0 <= i < |items| ==> Clean(items[i])
    case JObj(fields) => forall i :: 0 <= i < |fields| ==> CleanField(fields[i], j)
    case _ => true
  }

  predicate CleanField(f: Field, ghost parent: Json)
    requires parent.JObj? && f in parent.fields
    decreases parent, 0
  {
    if IsSensitiveKey(f.key) then f.value == JStr(Redacted) else Clean(f.value)
  }

  /** Whatever goes in, nothing sensitive survives sanitising, at any depth. */
  lemma {:induction false} SanitizeIsClean(j: Json)
    ensures Clean(Sanitize(j))
    decreases j
  {
    match j
    case JArr(items) =>
      var r := Sanitize(j);
      forall i | 0 <= i < |items|
        ensures Clean(r.items[i])
      {
        SanitizeIsClean(items[i]);
      }
    case JObj(fields) =>
      var r := Sanitize(j);
      forall i | 0 <= i < |fields|
        ensures CleanField(r.fields[i], r)
      {
        var f := fields[i];
        assert r.fields[i] == SanitizeField(f, j);
        if !IsSensitiveKey(f.key) {
          if IsObjectLike(f.value) {
            SanitizeIsClean(f.value);
          } else {
            assert Sanitize(f.value) == f.value;
            assert f.value.JNull? || !IsObjectLike(f.value);
            CleanScalar(f.value);
          }
        }
      }
    case _ =>
  }

  lemma CleanScalar(j: Json)
    requires !j.JArr? && !j.JObj?
    ensures Clean(j)
  {
  }

  /** Sanitising leaves a clean value as it is. */
  lemma {:induction false} SanitizeFixesClean(j: Json)
    requires Clean(j)
    ensures Sanitize(j) == j
    decreases j
  {
    match j
    case JArr(items) =>
      var r := Sanitize(j);
      forall i | 0 <= i < |items|
        ensures r.items[i] == items[i]
      {
        SanitizeFixesClean(items[i]);
      }
      assert r.items == items;
    case JObj(fields) =>
      var r := Sanitize(j);
      forall i | 0 <= i < |fields|
        ensures r.fields[i] == fields[i]
      {
        var f := fields[i];
        assert CleanField(f, j);
        assert r.fields[i] == SanitizeField(f, j);
        if !IsSensitiveKey(f.key) && IsObjectLike(f.value) {
          SanitizeFixesClean(f.value);
        }
      }
      assert r.fields == fields;
    case _ =>
  }

  /** Sanitising twice gives the same result as sanitising once. */
  lemma SanitizeIdempotent(j: Json)
    ensures Sanitize(Sanitize(j)) == Sanitize(j)
  {
    SanitizeIsClean(j);
    SanitizeFixesClean(Sanitize(j));
  }

  /** The payload of the intake test: `ssn` is redacted, `name` and `email`
      are kept. */
  lemma SanitizeTestPayload()
    ensures
      var p := JObj([Field("name", JStr("Alice")), Field("ssn", JStr("123-45-6789")),
                     Field("email", JStr("alice@example.com"))]);
      Sanitize(p) == JObj([Field("name", JStr("Alice")), Field("ssn", JStr(Redacted)),
                           Field("email", JStr("alice@example.com"))])
  {
    var fs := [Field("name", JStr("Alice")), Field("ssn", JStr("123-45-6789")),
               Field("email", JStr("alice@example.com"))];
    var p := JObj(fs);
    var r := Sanitize(p);
    TestKeys();
    assert r.fields[0] == SanitizeField(fs[0], p) == fs[0];
    assert r.fields[1] == SanitizeField(fs[1], p) == Field("ssn", JStr(Redacted));
    assert r.fields[2] == SanitizeField(fs[2], p) == fs[2];
  }

  /** Of the test payload's keys only `ssn` is sensitive. */
  lemma TestKeys()
    ensures IsSensitiveKey("ssn")
    ensures !IsSensitiveKey("name") && !IsSensitiveKey("email")
  {
    assert IsSensitiveKey("ssn") by {
      assert ToLower("ssn") == "ssn";
      assert SanitizeKeys[0] == "ssn";
    }
    NotSensitive("name");
    NotSensitive("email");
  }

  /** A lower-case key holding no fragment's first letter is not sensitive. */
  lemma NotSensitive(key: string)
    requires IsLower(key)
    requires forall i :: 0 <= i < |SanitizeKeys| ==> SanitizeKeys[i][0] !in key
    ensures !IsSensitiveKey(key)
  {
    assert ToLower(key) == key;
    forall i | 0 <= i < |SanitizeKeys|
      ensures !Contains(key, SanitizeKeys[i])
    {
      FirstLetterAbsent(key, SanitizeKeys[i]);
    }
    SensitiveIffContainsFragment(key);
  }

  lemma FirstLetterAbsent(hay: string, needle: string)
    requires |needle| > 0 && needle[0] !in hay
    ensures !Contains(hay, needle)
  {
    forall i | 0 <= i <= |hay| - |needle|
      ensures !OccursAt(hay, needle, i)
    {
      assert hay[i] in hay;
      assert hay[i..i + |needle|][0] == hay[i];
    }
  }

  // ---------------------------------------------------------------------
  // requestLogger
  // ---------------------------------------------------------------------

  /** Number of own enumerable keys (`Object.keys(v).length`). */
  function OwnKeyCount(j: Json): nat {
    match j
    case JObj(fields) => |fields|
    case JArr(items) => |items|
    case JStr(s) => |s|
    case _ => 0
  }

  /** The payload `requestLogger` captures: the query for GET and DELETE, the
      body otherwise, and `null` when the chosen object is absent or empty. */
  function SelectPayload(verb: string, query: seq<Field>, body: Option<Json>): (p: Option<Json>)
    ensures (verb == "GET" || verb == "DELETE") ==>
              p == (if |query| > 0 then Some(JObj(query)) else None)
    ensures verb != "GET" && verb != "DELETE" ==>
              (p.Some? <==> body.Some? && Truthy(body.value) && OwnKeyCount(body.value) > 0)
    ensures verb != "GET" && verb != "DELETE" && p.Some? ==> p == body
  {
    if verb == "GET" || verb == "DELETE" then
      if |query| > 0 then Some(JObj(query)) else None
    else
      match body
      case Some(b) => if Truthy(b) && OwnKeyCount(b) > 0 then Some(b) else None
      case None => None
  }

  /** What lands in the log line: the selected payload, sanitised. */
  function LoggedPayload(verb: string, query: seq<Field>, body: Option<Json>): Option<Json> {
    match SelectPayload(verb, query, body)
    case Some(p) => Some(Sanitize(p))
    case None => None
  }

  /** A logged payload never carries an unredacted sensitive value. */
  lemma LoggedPayloadIsClean(verb: string, query: seq<Field>, body: Option<Json>)
    ensures LoggedPayload(verb, query, body).Some? ==> Clean(LoggedPayload(verb, query, body).value)
    ensures LoggedPayload(verb, query, body).Some? <==> SelectPayload(verb, query, body).Some?
  {
    var p := SelectPayload(verb, query, body);
    if p.Some? {
      SanitizeIsClean(p.value);
    }
  }

  /** The `status` field of the completion log line. */
  datatype StatusClass = Success | ClientError | ServerError | UnknownStatus

  function ClassifyStatus(code: int): (c: StatusClass)
    ensures c == Success <==> 200 <= code <= 299
    ensures c == ClientError <==> 400 <= code <= 499
    ensures c == ServerError <==> code >= 500
    ensures c == UnknownStatus <==> code < 200 || 300 <= code <= 399
  {
    if 200 <= code < 300 then Success
    else if 400 <= code < 500 then ClientError
    else if code >= 500 then ServerError
    else UnknownStatus
  }
}

=== FILE: numbers.dfy ===
/** JavaScript's conversion of a string to a number (`Number(s)`, and what
    `<` and `>` do to a string compared with a number), following
    StringToNumber in section 7.1.4.1.1 of ECMA-262. Values are exact
    rationals rather than doubles. */
module Numbers {
  import opened Wrappers
  import opened Text

  datatype Num = NaN | Finite(v: real) | PosInf | NegInf
  {
    /** `this < x` for a finite `x`: false whenever `this` is `NaN`. */
    predicate Below(x: real) {
      match this
      case NaN => false
      case Finite(v) => v < x
      case PosInf => false
      case NegInf => true
    }

    /** `this > x` for a finite `x`: false whenever `this` is `NaN`. */
    predicate Above(x: real) {
      match this
      case NaN => false
      case Finite(v) => v > x
      case PosInf => true
      case NegInf => false
    }
  }

  function Pow10(n: nat): (p: nat)
    ensures p >= 1
  {
    if n == 0 then 1 else 10 * Pow10(n - 1)
  }

  /** `m * 10^e`. */
  function Scale(m: real, e: int): real {
    if e >= 0 then m * (Pow10(e) as real) else m / (Pow10(-e) as real)
  }

  /** The value of a string of digits in base 8 or 2 (`0o…`, `0b…`). */
  function RadixValue(d: string, radix: nat): nat
    requires AllDigits(d)
  {
    if |d| == 0 then 0 else RadixValue(d[..|d| - 1], radix) * radix + DigitValue(d[|d| - 1])
  }

  predicate RadixDigits(d: string, radix: nat) {
    AllDigits(d) && forall i :: 0 <= i < |d| ==> DigitValue(d[i]) < radix
  }

  /** An ExponentPart without its 'e': optional sign, at least one digit,
      nothing after. */
  function Exponent(t: string): Option<int> {
    var negative := |t| > 0 && t[0] == '-';
    var digits := if |t| > 0 && (t[0] == '-' || t[0] == '+') then t[1..] else t;
    if |digits| > 0 && AllDigits(digits) then Some(Signed(negative, DigitsValue(digits))) else None
  }

  /** StrUnsignedDecimalLiteral other than `Infinity`: digits, an optional
      '.' and digits (at least one digit overall), an optional exponent. */
  function UnsignedDecimal(u: string): (r: Option<real>)
    ensures AllDigits(u) && u != "" ==> r == Some(DigitsValue(u) as real)
  {
    var i := DigitPrefixLen(u);
    var whole := u[..i];
    var rest := u[i..];
    var hasDot := |rest| > 0 && rest[0] == '.';
    var afterDot := if hasDot then rest[1..] else rest;
    var j := if hasDot then DigitPrefixLen(afterDot) else 0;
    var frac := afterDot[..j];
    var tail := afterDot[j..];
    var e := if |tail| == 0 then Some(0)
             else if tail[0] == 'e' || tail[0] == 'E' then Exponent(tail[1..])
             else None;
    if AllDigits(u) && u != "" then
      DigitPrefixOfDigits(u);
      assert whole == u;
      Some(DigitsValue(u) as real)
    else if |whole| + |frac| == 0 || e.None? then None
    else
      var m := DigitsValue(whole) as real + (DigitsValue(frac) as real) / (Pow10(|frac|) as real);
      Some(Scale(m, e.value))
  }

  /** `Number(s)` for a string: white space around the literal is ignored
      and a blank string is 0. */
  function ToNumber(s: string): (n: Num)
    ensures IsBlank(s) ==> n == Finite(0.0)
  {
    var t := Trim(s);
    if t == "" then Finite(0.0) else LiteralNumber(t)
  }

  /** A non-empty literal: a `0x`, `0o` or `0b` integer, or a signed
      decimal. */
  function LiteralNumber(t: string): (n: Num)
    requires t != ""
  {
    if |t| >= 2 && t[0] == '0' && (t[1] == 'x' || t[1] == 'X') then
      var d := t[2..];
      if |d| > 0 && forall i :: 0 <= i < |d| ==> IsHexDigit(d[i]) then Finite(HexDigitsValue(d) as real) else NaN
    else if |t| >= 2 && t[0] == '0' && (t[1] == 'o' || t[1] == 'O') then
      var d := t[2..];
      if |d| > 0 && RadixDigits(d, 8) then Finite(RadixValue(d, 8) as real) else NaN
    else if |t| >= 2 && t[0] == '0' && (t[1] == 'b' || t[1] == 'B') then
      var d := t[2..];
      if |d| > 0 && RadixDigits(d, 2) then Finite(RadixValue(d, 2) as real) else NaN
    else SignedDecimal(t)
  }

  /** StrDecimalLiteral: an optional sign, then `Infinity` or an unsigned
      decimal. */
  function SignedDecimal(t: string): (n: Num)
    requires t != ""
  {
    var negative := t[0] == '-';
    var u := if t[0] == '-' || t[0] == '+' then t[1..] else t;
    if u == "Infinity" then (if negative then NegInf else PosInf)
    else
      match UnsignedDecimal(u)
      case None => NaN
      case Some(v) => Finite(if negative then -v else v)
  }

  /** `Number(String(k))` is `k` for every integer. */
  lemma NumberOfIntToString(k: int)
    ensures ToNumber(IntToString(k)) == Finite(k as real)
  {
    if k < 0 {
      NumberOfNegativeInt(k);
    } else {
      NumberOfNatInt(k);
    }
  }

  lemma NumberOfNegativeInt(k: int)
    requires k < 0
    ensures ToNumber(IntToString(k)) == Finite(k as real)
  {
    NegativeText(k);
    NegativeValue(k);
  }

  lemma NegativeText(k: int)
    requires k < 0
    ensures IntToString(k) == "-" + NatToString(-k)
  {
  }

  lemma NegativeValue(k: int)
    requires k < 0
    ensures ToNumber("-" + NatToString(-k)) == Finite(k as real)
  {
    DigitsValueOfNatToString(-k);
    NumberOfNegativeDigits(NatToString(-k), k);
  }

  lemma NumberOfNatInt(k: int)
    requires k >= 0
    ensures ToNumber(IntToString(k)) == Finite(k as real)
  {
    var d := NatToString(k);
    assert IntToString(k) == d;
    DigitsValueOfNatToString(k);
    NumberOfDigits(d);
  }

  /** A literal with no white space at its ends is read as it stands. */
  lemma NumberOfTrimmed(t: string)
    requires t != "" && !IsSpace(t[0]) && !IsSpace(t[|t| - 1])
    ensures ToNumber(t) == LiteralNumber(t)
  {
    TrimOfTrimmed(t);
  }

  /** A literal whose second character is a digit has no radix prefix. */
  lemma LiteralIsDecimal(t: string)
    requires t != "" && (|t| >= 2 ==> IsDigit(t[1]))
    ensures LiteralNumber(t) == SignedDecimal(t)
  {
  }

  /** A string of decimal digits reads as its value. */
  lemma NumberOfDigits(d: string)
    requires d != "" && AllDigits(d)
    ensures ToNumber(d) == Finite(DigitsValue(d) as real)
  {
    assert IsDigit(d[0]) && IsDigit(d[|d| - 1]);
    NumberOfTrimmed(d);
    LiteralIsDecimal(d);
    NotPrefixed(d);
    assert UnsignedDecimal(d) == Some(DigitsValue(d) as real);
  }

  /** A string of decimal digits takes none of `Number`'s special routes:
      no radix prefix, no sign, not "Infinity". */
  lemma NotPrefixed(d: string)
    requires d != "" && AllDigits(d)
    ensures d[0] != '-' && d[0] != '+' && d != "Infinity"
    ensures |d| >= 2 ==> IsDigit(d[1])
  {
    assert IsDigit(d[0]);
    assert "Infinity"[0] == 'I';
  }

  /** '-' and a string of decimal digits of value `-k` reads as `k`. */
  lemma NumberOfNegativeDigits(d: string, k: int)
    requires d != "" && AllDigits(d) && DigitsValue(d) == -k
    ensures ToNumber("-" + d) == Finite(k as real)
  {
    NegativeShape(d);
    NumberOfTrimmed("-" + d);
    LiteralIsDecimal("-" + d);
    NegativeDecimal(d);
    NegatedReal(k);
  }

  /** '-' and a string of decimal digits has no white space at its ends
      and a digit second. */
  lemma NegativeShape(d: string)
    requires d != "" && AllDigits(d)
    ensures var t := "-" + d;
            |t| >= 2 && !IsSpace(t[0]) && !IsSpace(t[|t| - 1]) && IsDigit(t[1])
  {
    var t := "-" + d;
    assert t[0] == '-' && t[1] == d[0] && t[|t| - 1] == d[|d| - 1];
    assert IsDigit(t[|t| - 1]) && IsDigit(t[1]);
  }

  /** The signed-decimal reading of '-' and a string of decimal digits. */
  lemma NegativeDecimal(d: string)
    requires d != "" && AllDigits(d)
    ensures SignedDecimal("-" + d) == Finite(-(DigitsValue(d) as real))
  {
    assert ("-" + d)[1..] == d;
    NotPrefixed(d);
    assert UnsignedDecimal(d) == Some(DigitsValue(d) as real);
  }

  /** Negating twice around the conversion to `real`. */
  lemma NegatedReal(k: int)
    ensures -((-k) as real) == k as real
  {
  }
}

=== FILE: objectid.dfy ===
/** The ObjectId cast both backends apply to a route id before comparing it
    with a stored `_id`. */
module ObjectId {
  import opened Wrappers
  import opened Text

  /** Mongoose's ObjectId cast of request text: None when the text is not a
      valid ObjectId (`ObjectId.isValid` is false, and a query's `_id`
      clause fails to cast), otherwise the canonical text of the twelve
      bytes read, which is how a stored `_id` is written in this model. The
      handlers take the cast as a parameter: besides 24 hex digits it also
      reads any 12-byte string as raw bytes, which is not modelled. */
  type Cast = string -> Option<string>

  /** Twenty-four hex digits, in either case. */
  predicate IsHexId(s: string) {
    |s| == 24 && forall i :: 0 <= i < |s| ==> IsHexDigit(s[i])
  }

  /** What the cast does with hex text: the digits name the bytes whatever
      their case, and the canonical text of the bytes is the digits in lower
      case. */
  function HexCast(s: string): (r: Option<string>)
    ensures r.Some? <==> IsHexId(s)
    ensures r.Some? ==> IsHexId(r.value) && IsLower(r.value) && |r.value| == |s|
    ensures r.Some? ==> forall i :: 0 <= i < |s| ==> r.value[i] == LowerChar(s[i])
  {
    if IsHexId(s) then
      var t := ToLower(s);
      assert forall i :: 0 <= i < |t| ==> IsHexDigit(t[i]) by {
        forall i | 0 <= i < |t| ensures IsHexDigit(t[i]) {
          assert IsHexDigit(s[i]);
        }
      }
      Some(t)
    else None
  }

  /** The canonical text casts to itself, so a stored `_id` written back
      into a request finds its record. */
  lemma {:induction false} HexCastCanonical(s: string)
    requires IsHexId(s)
    ensures HexCast(HexCast(s).value) == HexCast(s)
  {
    var t := HexCast(s).value;
    var u := HexCast(t).value;
    assert |u| == |t|;
    forall i | 0 <= i < |t| ensures u[i] == t[i] {
      assert t[i] == LowerChar(s[i]);
      assert u[i] == LowerChar(t[i]);
    }
    assert u == t;
  }
}

=== FILE: seqs.dfy ===
/** Order facts about sequences shared by the list operations of the front
    end and the CRM. */
module Seqs {

  /** `r` is `s` with some elements left out, the others in their order. */
  predicate Subsequence<T(==)>(r: seq<T>, s: seq<T>)
    decreases |s|
  {
    if |r| == 0 then true
    else if |s| == 0 then false
    else (r[0] == s[0] && Subsequence(r[1..], s[1..])) || Subsequence(r, s[1..])
  }
}

=== FILE: skills.dfy ===
/** The skills editor of the work-experience step
    (frontend/src/components/steps/WorkExperience.js): a list without
    duplicates, grown from a text input and shrunk by removing a value. */
module Skills {
  import opened Text
  import opened Seqs

  /** No skill appears twice. */
  predicate NoDuplicates(s: seq<string>) {
    forall i, j :: 0 <= i < j < |s| ==> s[i] != s[j]
  }

  /** The list and the text input after `addSkill`. */
  datatype Editor = Editor(skills: seq<string>, input: string)

  /** `addSkill`: the trimmed input is appended, and the input cleared, when
      it is non-blank and not yet listed; otherwise nothing changes. */
  function AddSkill(e: Editor): (r: Editor)
    ensures var t := Trim(e.input);
            (t != "" && t !in e.skills) ==> r == Editor(e.skills + [t], "")
    ensures var t := Trim(e.input);
            !(t != "" && t !in e.skills) ==> r == e
  {
    var t := Trim(e.input);
    if t != "" && t !in e.skills then Editor(e.skills + [t], "") else e
  }

  /** `removeSkill`: every copy of `skill` goes, the rest keep their order. */
  function RemoveSkill(skills: seq<string>, skill: string): (r: seq<string>)
    ensures skill !in r
    ensures forall x :: x in r <==> x in skills && x != skill
    ensures |r| <= |skills|
  {
    if |skills| == 0 then []
    else if skills[0] == skill then RemoveSkill(skills[1..], skill)
    else [skills[0]] + RemoveSkill(skills[1..], skill)
  }

  /** Removing keeps the order of the remaining skills. */
  lemma {:induction false} RemoveKeepsOrder(skills: seq<string>, skill: string)
    ensures Subsequence(RemoveSkill(skills, skill), skills)
  {
    if |skills| > 0 {
      RemoveKeepsOrder(skills[1..], skill);
      if skills[0] != skill {
        var r := RemoveSkill(skills, skill);
        assert r[1..] == RemoveSkill(skills[1..], skill);
      }
    }
  }

  /** Removing a skill that is not listed leaves the list as it was. */
  lemma {:induction false} RemoveAbsent(skills: seq<string>, skill: string)
    requires skill !in skills
    ensures RemoveSkill(skills, skill) == skills
  {
    if |skills| > 0 {
      assert skill !in skills[1..];
      RemoveAbsent(skills[1..], skill);
    }
  }

  /** Adding never creates a duplicate. */
  lemma AddKeepsNoDuplicates(e: Editor)
    requires NoDuplicates(e.skills)
    ensures NoDuplicates(AddSkill(e).skills)
  {
  }

  /** Removing never creates a duplicate. */
  lemma {:induction false} RemoveKeepsNoDuplicates(skills: seq<string>, skill: string)
    requires NoDuplicates(skills)
    ensures NoDuplicates(RemoveSkill(skills, skill))
  {
    if |skills| > 0 {
      RemoveKeepsNoDuplicates(skills[1..], skill);
      if skills[0] != skill {
        var r := RemoveSkill(skills, skill);
        assert skills[0] !in skills[1..];
        assert skills[0] !in RemoveSkill(skills[1..], skill);
        assert r == [skills[0]] + RemoveSkill(skills[1..], skill);
      }
    }
  }

  /** Adding a new skill and then removing it gives the list back. */
  lemma AddThenRemove(e: Editor)
    requires Trim(e.input) != "" && Trim(e.input) !in e.skills
    ensures RemoveSkill(AddSkill(e).skills, Trim(e.input)) == e.skills
  {
    var t := Trim(e.input);
    RemoveAppended(e.skills, t);
  }

  lemma {:induction false} RemoveAppended(skills: seq<string>, t: string)
    requires t !in skills
    ensures RemoveSkill(skills + [t], t) == skills
  {
    if |skills| == 0 {
      assert skills + [t] == [t];
    } else {
      assert (skills + [t])[1..] == skills[1..] + [t];
      assert t !in skills[1..];
      RemoveAppended(skills[1..], t);
      assert skills == [skills[0]] + skills[1..];
    }
  }

  /** Adding the same input twice in a row adds it once: the input is cleared
      by the first add, or the first add changed nothing. */
  lemma AddTwice(e: Editor)
    ensures AddSkill(AddSkill(e)) == AddSkill(e)
  {
    assert Trim("") == "";
  }
}

=== FILE: sorting.dfy ===
/** The ordering MongoDB applies for `.sort({field: 1 | -1})`, and a sort
    over a collection snapshot. Values of different BSON types compare by
    type (null before numbers before strings before dates); strings compare
    by code point, which is the byte order of their UTF-8 encoding. */
module Sorting {

  /** A sort key: the value a document holds at the sorted field. */
  datatype Key = KNull | KNum(n: int) | KStr(s: string) | KDate(t: int)

  /** Position of the key's BSON type in MongoDB's cross-type order. */
  function TypeRank(k: Key): nat {
    match k
    case KNull => 0
    case KNum(_) => 1
    case KStr(_) => 2
    case KDate(_) => 3
  }

  /** Lexicographic order on strings by code point. */
  predicate StrLe(a: string, b: string)
    decreases |a|
  {
    |a| == 0 || (|b| > 0 && (a[0] < b[0] || (a[0] == b[0] && StrLe(a[1..], b[1..]))))
  }

  predicate KeyLe(a: Key, b: Key) {
    if TypeRank(a) != TypeRank(b) then TypeRank(a) < TypeRank(b)
    else match a
      case KNull => true
      case KNum(x) => x <= b.n
      case KStr(x) => StrLe(x, b.s)
      case KDate(x) => x <= b.t
  }

  lemma {:induction false} StrLeTotal(a: string, b: string)
    ensures StrLe(a, b) || StrLe(b, a)
    decreases |a|
  {
    if |a| > 0 && |b| > 0 && a[0] == b[0] {
      StrLeTotal(a[1..], b[1..]);
    }
  }

  lemma {:induction false} StrLeTrans(a: string, b: string, c: string)
    requires StrLe(a, b) && StrLe(b, c)
    ensures StrLe(a, c)
    decreases |a|
  {
    if |a| > 0 && a[0] == b[0] && b[0] == c[0] {
      StrLeTrans(a[1..], b[1..], c[1..]);
    }
  }

  /** Any two keys are comparable. */
  lemma KeyLeTotal(a: Key, b: Key)
    ensures KeyLe(a, b) || KeyLe(b, a)
  {
    if a.KStr? && b.KStr? {
      StrLeTotal(a.s, b.s);
    }
  }

  lemma KeyLeTrans(a: Key, b: Key, c: Key)
    requires KeyLe(a, b) && KeyLe(b, c)
    ensures KeyLe(a, c)
  {
    if a.KStr? && b.KStr? && c.KStr? {
      StrLeTrans(a.s, b.s, c.s);
    }
  }

  lemma {:induction false} StrLeAntisym(a: string, b: string)
    requires StrLe(a, b) && StrLe(b, a)
    ensures a == b
    decreases |a|
  {
    if |a| > 0 {
      StrLeAntisym(a[1..], b[1..]);
      assert a == [a[0]] + a[1..] && b == [b[0]] + b[1..];
    }
  }

  /** Keys that are each no greater than the other are the same key. */
  lemma KeyLeAntisym(a: Key, b: Key)
    requires KeyLe(a, b) && KeyLe(b, a)
    ensures a == b
  {
    if a.KStr? && b.KStr? {
      StrLeAntisym(a.s, b.s);
    }
  }

  /** `a` may precede `b` in a sort on `key`, ascending or descending. */
  predicate InOrder<T>(a: T, b: T, key: T -> Key, descending: bool) {
    if descending then KeyLe(key(b), key(a)) else KeyLe(key(a), key(b))
  }

  predicate SortedBy<T>(s: seq<T>, key: T -> Key, descending: bool) {
    forall i, j :: 0 <= i < j < |s| ==> InOrder(s[i], s[j], key, descending)
  }

  /** No two elements share a sort key: the sort leaves nothing to break
      ties with. */
  predicate KeysDistinct<T>(s: seq<T>, key: T -> Key) {
    forall i, j :: 0 <= i < j < |s| ==> key(s[i]) != key(s[j])
  }

  /** Without ties there is one sorted order: any two sorted arrangements
      of the same elements are equal. */
  lemma {:induction false} SortedUnique<T>(a: seq<T>, b: seq<T>, key: T -> Key, descending: bool)
    requires multiset(a) == multiset(b)
    requires SortedBy(a, key, descending) && SortedBy(b, key, descending)
    requires KeysDistinct(a, key)
    ensures a == b
    decreases |a|
  {
    assert |a| == |multiset(a)| == |multiset(b)| == |b|;
    if |a| > 0 {
      HeadsAgree(a, b, key, descending);
      assert a == [a[0]] + a[1..] && b == [b[0]] + b[1..];
      assert multiset(a) == multiset{a[0]} + multiset(a[1..]);
      assert multiset(b) == multiset{b[0]} + multiset(b[1..]);
      assert multiset(a[1..]) == multiset(a) - multiset{a[0]};
      SortedUnique(a[1..], b[1..], key, descending);
    }
  }

  lemma HeadsAgree<T>(a: seq<T>, b: seq<T>, key: T -> Key, descending: bool)
    requires |a| > 0 && |b| > 0 && multiset(a) == multiset(b)
    requires SortedBy(a, key, descending) && SortedBy(b, key, descending)
    requires KeysDistinct(a, key)
    ensures a[0] == b[0]
  {
    if a[0] != b[0] {
      assert b[0] in multiset(a) && a[0] in multiset(b);
      var k :| 0 <= k < |a| && a[k] == b[0];
      var m :| 0 <= m < |b| && b[m] == a[0];
      assert InOrder(a[0], a[k], key, descending) && InOrder(b[0], b[m], key, descending);
      KeyLeAntisym(key(a[0]), key(a[k]));
      assert false;
    }
  }

  /** Places `x` before the first element it may precede. */
  function Insert<T>(x: T, s: seq<T>, key: T -> Key, descending: bool): (r: seq<T>)
    requires SortedBy(s, key, descending)
    ensures SortedBy(r, key, descending)
    ensures multiset(r) == multiset(s) + multiset{x}
  {
    if |s| == 0 then [x]
    else if InOrder(x, s[0], key, descending) then
      InsertFront(x, s, key, descending);
      [x] + s
    else
      var t := Insert(x, s[1..], key, descending);
      InsertBehind(x, s, t, key, descending);
      assert s == [s[0]] + s[1..];
      [s[0]] + t
  }

  lemma InsertFront<T>(x: T, s: seq<T>, key: T -> Key, descending: bool)
    requires SortedBy(s, key, descending)
    requires |s| > 0 && InOrder(x, s[0], key, descending)
    ensures SortedBy([x] + s, key, descending)
  {
    var r := [x] + s;
    forall i, j | 0 <= i < j < |r|
      ensures InOrder(r[i], r[j], key, descending)
    {
      if i == 0 && j > 1 {
        if descending {
          KeyLeTrans(key(s[j - 1]), key(s[0]), key(x));
        } else {
          KeyLeTrans(key(x), key(s[0]), key(s[j - 1]));
        }
      }
    }
  }

  lemma InsertBehind<T>(x: T, s: seq<T>, t: seq<T>, key: T -> Key, descending: bool)
    requires SortedBy(s, key, descending) && SortedBy(t, key, descending)
    requires |s| > 0 && !InOrder(x, s[0], key, descending)
    requires multiset(t) == multiset(s[1..]) + multiset{x}
    ensures SortedBy([s[0]] + t, key, descending)
  {
    KeyLeTotal(key(x), key(s[0]));
    var r := [s[0]] + t;
    forall j | 0 < j < |r|
      ensures InOrder(s[0], r[j], key, descending)
    {
      var y := r[j];
      assert y == t[j - 1];
      assert y in multiset(t);
      if y != x {
        assert y in multiset(s[1..]);
        var k :| 0 <= k < |s[1..]| && s[1..][k] == y;
        assert s[k + 1] == y;
      }
    }
  }

  /** A sorted permutation of `s` (insertion sort; elements with equal keys
      keep their relative order). */
  function SortBy<T>(s: seq<T>, key: T -> Key, descending: bool): (r: seq<T>)
    ensures SortedBy(r, key, descending)
    ensures multiset(r) == multiset(s)
    ensures |r| == |s|
  {
    if |s| == 0 then []
    else
      assert s == [s[0]] + s[1..];
      Insert(s[0], SortBy(s[1..], key, descending), key, descending)
  }

  /** Two elements come out in order: as given when the first may precede
      the second, swapped otherwise. */
  lemma SortTwo<T>(x: T, y: T, key: T -> Key, descending: bool)
    ensures SortBy([x, y], key, descending) == if InOrder(x, y, key, descending) then [x, y] else [y, x]
  {
    assert [x, y][1..] == [y];
    assert [y][1..] == [];
    assert SortBy([y], key, descending) == [y];
  }
}

=== FILE: text.dfy ===
/** String helpers with the semantics of the JavaScript built-ins the
    program relies on: `String.prototype.trim`, `toLowerCase`, `includes`,
    `startsWith`, `split`/`join`, `String(n)` and `parseInt`. */
module Text {
  import opened Wrappers

  // ---------------------------------------------------------------------
  // Characters
  // ---------------------------------------------------------------------

  /** JavaScript's WhiteSpace and LineTerminator code points: the set that
      `trim()` removes and that `\s` matches in a regular expression. */
  predicate IsSpace(c: char) {
    || ('\t' <= c <= '\r')
    || c == ' '
    || c == '\U{00A0}'
    || c == '\U{1680}'
    || ('\U{2000}' <= c <= '\U{200A}')
    || c == '\U{2028}'
    || c == '\U{2029}'
    || c == '\U{202F}'
    || c == '\U{205F}'
    || c == '\U{3000}'
    || c == '\U{FEFF}'
  }

  /** `\d` in a JavaScript regular expression: ASCII digits only. */
  predicate IsDigit(c: char) {
    '0' <= c <= '9'
  }

  predicate IsHexDigit(c: char) {
    IsDigit(c) || 'a' <= c <= 'f' || 'A' <= c <= 'F'
  }

  predicate AllSpace(s: string) {
    forall i :: 0 <= i < |s| ==> IsSpace(s[i])
  }

  predicate AllDigits(s: string) {
    forall i :: 0 <= i < |s| ==> IsDigit(s[i])
  }

  /** A possibly absent string that JavaScript treats as true: present and
      not empty. */
  predicate TruthyStr(o: Option<string>) {
    o.Some? && o.value != ""
  }

  /** `a || b` on two possibly absent strings. */
  function OrElse(a: Option<string>, b: Option<string>): (r: Option<string>)
    ensures TruthyStr(a) ==> r == a
    ensures !TruthyStr(a) ==> r == b
  {
    if TruthyStr(a) then a else b
  }

  // ---------------------------------------------------------------------
  // trim()
  // ---------------------------------------------------------------------

  /** Number of white-space characters at the start of `s`. */
  function LeadingSpaces(s: string): (k: nat)
    ensures k <= |s|
    ensures forall i :: 0 <= i < k ==> IsSpace(s[i])
    ensures k < |s| ==> !IsSpace(s[k])
  {
    if |s| > 0 && IsSpace(s[0]) then 1 + LeadingSpaces(s[1..]) else 0
  }

  /** Index where the white space at the end of `s` begins. */
  function TrailingStart(s: string): (j: nat)
    ensures j <= |s|
    ensures forall i :: j <= i < |s| ==> IsSpace(s[i])
    ensures j > 0 ==> !IsSpace(s[j - 1])
  {
    if |s| > 0 && IsSpace(s[|s| - 1]) then TrailingStart(s[..|s| - 1]) else |s|
  }

  /** `s.trimStart()`. */
  function TrimStart(s: string): (r: string)
    ensures |r| <= |s| && r == s[|s| - |r|..]
    ensures forall i :: 0 <= i < |s| - |r| ==> IsSpace(s[i])
    ensures r == [] || !IsSpace(r[0])
  {
    s[LeadingSpaces(s)..]
  }

  /** `s.trim()`: `s` without the white space at either end. */
  function Trim(s: string): (r: string)
    ensures |r| <= |s|
  {
    var k := LeadingSpaces(s);
    if k == |s| then [] else s[k..TrailingStart(s)]
  }

  /** What `trim()` returns: the infix of `s` left after removing the white
      space at both ends; empty exactly when `s` is all white space. */
  lemma TrimSpec(s: string)
    ensures exists k :: TrimmedAt(s, Trim(s), k)
    ensures Trim(s) == [] <==> AllSpace(s)
    ensures Trim(s) == [] || (!IsSpace(Trim(s)[0]) && !IsSpace(Trim(s)[|Trim(s)| - 1]))
  {
    var k := LeadingSpaces(s);
    if k == |s| {
      TrimAllSpace(s);
    } else {
      TrimInner(s);
    }
    assert TrimmedAt(s, Trim(s), k);
  }

  /** A string of white space trims to "". */
  lemma TrimAllSpace(s: string)
    requires LeadingSpaces(s) == |s|
    ensures Trim(s) == [] && AllSpace(s) && TrimmedAt(s, Trim(s), |s|)
  {
  }

  /** A string with a non-space character trims to the infix from the
      first to the last of them, which starts and ends with non-space
      characters. */
  lemma TrimInner(s: string)
    requires LeadingSpaces(s) < |s|
    ensures TrimmedAt(s, Trim(s), LeadingSpaces(s))
    ensures Trim(s) != [] && !AllSpace(s)
    ensures !IsSpace(Trim(s)[0]) && !IsSpace(Trim(s)[|Trim(s)| - 1])
  {
    var k := LeadingSpaces(s);
    var j := TrailingStart(s);
    assert !IsSpace(s[k]);
    assert Trim(s) == s[k..j];
    InfixFacts(s, k, j);
  }

  /** The infix between the leading and the trailing white space sits there
      with only white space around it and starts and ends with non-space
      characters. */
  lemma InfixFacts(s: string, k: nat, j: nat)
    requires k == LeadingSpaces(s) && j == TrailingStart(s) && k < j
    ensures TrimmedAt(s, s[k..j], k)
    ensures !IsSpace(s[k..j][0]) && !IsSpace(s[k..j][j - k - 1])
    ensures !AllSpace(s)
  {
    assert s[k..j][0] == s[k] && s[k..j][j - k - 1] == s[j - 1];
  }

  /** `r` sits at offset `k` of `s` with only white space around it. */
  predicate TrimmedAt(s: string, r: string, k: int) {
    && 0 <= k && k + |r| <= |s|
    && r == s[k..k + |r|]
    && (forall i :: 0 <= i < k ==> IsSpace(s[i]))
    && (forall i :: k + |r| <= i < |s| ==> IsSpace(s[i]))
  }

  /** A string is blank (falsy after `trim()`) exactly when it is all white space. */
  predicate IsBlank(s: string) {
    Trim(s) == []
  }

  lemma TrimOfTrimmed(s: string)
    requires s == [] || (!IsSpace(s[0]) && !IsSpace(s[|s| - 1]))
    ensures Trim(s) == s
  {
  }

  /** Trimming twice is trimming once. */
  lemma TrimIdempotent(s: string)
    ensures Trim(Trim(s)) == Trim(s)
  {
    TrimSpec(s);
    TrimOfTrimmed(Trim(s));
  }

  // ---------------------------------------------------------------------
  // toLowerCase(), includes(), startsWith()
  // ---------------------------------------------------------------------

  function LowerChar(c: char): char {
    if 'A' <= c <= 'Z' then (c as int + 32) as char else c
  }

  /** `s.toLowerCase()` restricted to the ASCII letters. */
  function ToLower(s: string): (r: string)
    ensures |r| == |s|
    ensures forall i :: 0 <= i < |s| ==> r[i] == LowerChar(s[i])
    ensures IsLower(r)
  {
    seq(|s|, i requires 0 <= i < |s| => LowerChar(s[i]))
  }

  predicate IsLower(s: string) {
    forall i :: 0 <= i < |s| ==> !('A' <= s[i] <= 'Z')
  }

  predicate OccursAt(hay: string, needle: string, i: int) {
    0 <= i && i + |needle| <= |hay| && hay[i..i + |needle|] == needle
  }

  /** `hay.includes(needle)`. */
  predicate Contains(hay: string, needle: string) {
    exists i :: 0 <= i <= |hay| - |needle| && OccursAt(hay, needle, i)
  }

  /** `s.startsWith(prefix)`. */
  predicate StartsWith(s: string, prefix: string) {
    |prefix| <= |s| && s[..|prefix|] == prefix
  }

  // ---------------------------------------------------------------------
  // split() and join()
  // ---------------------------------------------------------------------

  /** Index of the first `c` in `s`, or `|s|` when there is none. */
  function IndexOf(s: string, c: char): (i: nat)
    ensures i <= |s|
    ensures i < |s| ==> s[i] == c
    ensures c !in s[..i]
  {
    if |s| == 0 then 0
    else if s[0] == c then 0
    else
      var j := IndexOf(s[1..], c);
      assert s[..j + 1] == [s[0]] + s[1..][..j];
      j + 1
  }

  /** `parts.join(d)`. */
  function Join(parts: seq<string>, d: char): string {
    if |parts| == 0 then ""
    else if |parts| == 1 then parts[0]
    else parts[0] + [d] + Join(parts[1..], d)
  }

  /** `s.split(d)` for a one-character separator: never empty, no piece holds
      the separator, and joining the pieces gives `s` back. */
  function Split(s: string, d: char): (parts: seq<string>)
    ensures |parts| >= 1
    ensures forall i :: 0 <= i < |parts| ==> d !in parts[i]
    ensures Join(parts, d) == s
    decreases |s|
  {
    var i := IndexOf(s, d);
    if i == |s| then
      assert s[..i] == s;
      [s]
    else
      var rest := Split(s[i + 1..], d);
      assert s == s[..i] + [d] + s[i + 1..];
      [s[..i]] + rest
  }

  lemma {:induction false} IndexOfJoined(p: string, d: char, t: string)
    requires d !in p
    ensures IndexOf(p + [d] + t, d) == |p|
    decreases |p|
  {
    if |p| > 0 {
      assert (p + [d] + t)[1..] == p[1..] + [d] + t;
      IndexOfJoined(p[1..], d, t);
    }
  }

  /** Splitting a join of separator-free pieces gives the pieces back. */
  lemma {:induction false} SplitJoin(parts: seq<string>, d: char)
    requires |parts| >= 1
    requires forall i :: 0 <= i < |parts| ==> d !in parts[i]
    ensures Split(Join(parts, d), d) == parts
    decreases |parts|
  {
    if |parts| == 1 {
      var s := parts[0];
      assert forall j :: 0 <= j < |s| ==> s[j] != d;
      assert IndexOf(s, d) == |s|;
    } else {
      var s := Join(parts, d);
      var rest := Join(parts[1..], d);
      assert s == parts[0] + [d] + rest;
      IndexOfJoined(parts[0], d, rest);
      assert s[..|parts[0]|] == parts[0];
      assert s[|parts[0]| + 1..] == rest;
      SplitJoin(parts[1..], d);
      assert parts == [parts[0]] + parts[1..];
    }
  }

  /** `parts.filter(Boolean)`: keeps the non-empty pieces in order. */
  function NonEmpty(parts: seq<string>): (r: seq<string>)
    ensures |r| <= |parts|
    ensures forall i :: 0 <= i < |r| ==> r[i] != [] && r[i] in parts
  {
    if |parts| == 0 then []
    else if parts[0] == [] then NonEmpty(parts[1..])
    else [parts[0]] + NonEmpty(parts[1..])
  }

  // ---------------------------------------------------------------------
  // String(n) and parseInt
  // ---------------------------------------------------------------------

  function DigitChar(n: nat): (c: char)
    requires n < 10
    ensures IsDigit(c)
  {
    ('0' as int + n) as char
  }

  function DigitValue(c: char): nat
    requires IsDigit(c)
  {
    c as int - '0' as int
  }

  function HexValue(c: char): nat
    requires IsHexDigit(c)
  {
    if IsDigit(c) then DigitValue(c)
    else if 'a' <= c <= 'f' then c as int - 'a' as int + 10
    else c as int - 'A' as int + 10
  }

  /** `String(n)` for a non-negative integer: decimal digits, no leading zero. */
  function NatToString(n: nat): (r: string)
    ensures |r| >= 1 && AllDigits(r)
    ensures r[0] == '0' ==> n == 0
  {
    if n < 10 then [DigitChar(n)]
    else NatToString(n / 10) + [DigitChar(n % 10)]
  }

  /** `String(i)` for an integer. */
  function IntToString(i: int): string {
    if i < 0 then "-" + NatToString(-i) else NatToString(i)
  }

  /** The value of a string of decimal digits. */
  function DigitsValue(d: string): nat
    requires AllDigits(d)
  {
    if |d| == 0 then 0 else DigitsValue(d[..|d| - 1]) * 10 + DigitValue(d[|d| - 1])
  }

  /** The value of a string of hexadecimal digits. */
  function HexDigitsValue(d: string): nat
    requires forall i :: 0 <= i < |d| ==> IsHexDigit(d[i])
  {
    if |d| == 0 then 0 else HexDigitsValue(d[..|d| - 1]) * 16 + HexValue(d[|d| - 1])
  }

  /** Length of the run of decimal digits at the start of `s`. */
  function DigitPrefixLen(s: string): (k: nat)
    ensures k <= |s| && AllDigits(s[..k])
    ensures k < |s| ==> !IsDigit(s[k])
  {
    if |s| > 0 && IsDigit(s[0]) then
      var k := 1 + DigitPrefixLen(s[1..]);
      assert s[..k] == [s[0]] + s[1..][..k - 1];
      k
    else 0
  }

  /** Length of the run of hexadecimal digits at the start of `s`. */
  function HexPrefixLen(s: string): (k: nat)
    ensures k <= |s| && forall i :: 0 <= i < k ==> IsHexDigit(s[i])
    ensures k < |s| ==> !IsHexDigit(s[k])
  {
    if |s| > 0 && IsHexDigit(s[0]) then 1 + HexPrefixLen(s[1..]) else 0
  }

  function Signed(negative: bool, n: nat): int {
    if negative then -(n as int) else n
  }

  /** `parseInt(s)` (when `autoRadix`, a `0x`/`0X` prefix selects base 16) or
      `parseInt(s, 10)`: skip leading white space, read an optional sign and
      the longest run of digits after it; `None` is `NaN`, the case where no
      digit follows. */
  function ParseInt(s: string, autoRadix: bool): Option<int>
  {
    var t := TrimStart(s);
    var u := Unsigned(t);
    var negative := |t| > 0 && t[0] == '-';
    if autoRadix && |u| >= 2 && u[0] == '0' && (u[1] == 'x' || u[1] == 'X') then
      var h := u[2..];
      var k := HexPrefixLen(h);
      if k == 0 then None else Some(Signed(negative, HexDigitsValue(h[..k])))
    else
      var k := DigitPrefixLen(u);
      if k == 0 then None else Some(Signed(negative, DigitsValue(u[..k])))
  }

  /** `t` without a leading `+` or `-`. */
  function Unsigned(t: string): string {
    if |t| > 0 && (t[0] == '-' || t[0] == '+') then t[1..] else t
  }

  lemma {:induction false} DigitsValueOfNatToString(n: nat)
    ensures DigitsValue(NatToString(n)) == n
    decreases n
  {
    if n >= 10 {
      var d := NatToString(n);
      assert d[..|d| - 1] == NatToString(n / 10);
      DigitsValueOfNatToString(n / 10);
    }
  }

  lemma {:induction false} DigitPrefixOfDigits(s: string)
    requires AllDigits(s)
    ensures DigitPrefixLen(s) == |s|
    decreases |s|
  {
    if |s| > 0 {
      DigitPrefixOfDigits(s[1..]);
    }
  }

  /** `parseInt(String(n))` is `n`, in either radix mode. */
  lemma ParseIntOfIntToString(n: int, autoRadix: bool)
    ensures ParseInt(IntToString(n), autoRadix) == Some(n)
  {
    var s := IntToString(n);
    var m: nat := if n < 0 then -n else n;
    var d := NatToString(m);
    assert !IsSpace(s[0]);
    assert TrimStart(s) == s;
    assert Unsigned(s) == d;
    DigitPrefixOfDigits(d);
    DigitsValueOfNatToString(m);
    assert d[..|d|] == d;
    if autoRadix && |d| >= 2 && d[0] == '0' {
      assert false;
    }
  }
}

=== FILE: thank_you.dfy ===
/** The thank-you page (frontend/src/components/ThankYou.js): which
    application it shows, what it asks the intake API for, and which message
    or record it ends up displaying. */
module ThankYou {
  import opened Wrappers
  import opened Text
  import opened Url
  import opened AppRouting

  /** The application id: the query's `applicationId` when truthy, else the
      second non-empty segment of a path with at least three of them. */
  function ExtractId(search: string, path: string): (id: Option<string>)
    ensures TruthyStr(Get(ParseQuery(search), "applicationId")) ==> id == Get(ParseQuery(search), "applicationId")
    ensures id.Some? ==> id.value != ""
  {
    var q := Get(ParseQuery(search), "applicationId");
    if TruthyStr(q) then q
    else
      var parts := NonEmpty(Split(path, '/'));
      if |parts| >= 3 then Some(parts[1]) else None
  }

  /** The segments of a path read by the fallback. */
  function PathSegments(path: string): seq<string> {
    NonEmpty(Split(path, '/'))
  }

  /** Without a query id, the fallback takes segment 1 of three or more. */
  lemma ExtractFromPath(search: string, path: string)
    requires !TruthyStr(Get(ParseQuery(search), "applicationId"))
    ensures |PathSegments(path)| >= 3 ==> ExtractId(search, path) == Some(PathSegments(path)[1])
    ensures |PathSegments(path)| < 3 ==> ExtractId(search, path).None?
  {
  }

  /** On every legacy path the fallback finds exactly the id between
      "/application/" and "/thankyou". */
  lemma LegacyPathId(search: string, id: string, slash: bool)
    requires IdString(id)
    requires !TruthyStr(Get(ParseQuery(search), "applicationId"))
    ensures ExtractId(search, LegacyPath(id, slash)) == Some(id)
  {
    LegacySegments(id, slash);
  }

  /** The pieces of a legacy path split on '/'. */
  function LegacyPieces(id: string, slash: bool): seq<string> {
    ["", "application", id, "thankyou"] + (if slash then [""] else [])
  }

  /** Joining a non-empty list with one more piece in front. */
  lemma JoinCons(head: string, rest: seq<string>, d: char)
    requires |rest| >= 1
    ensures Join([head] + rest, d) == head + [d] + Join(rest, d)
  {
    assert ([head] + rest)[1..] == rest;
  }

  /** The join of four pieces. */
  lemma Join4(a: string, b: string, c: string, e: string, d: char)
    ensures Join([a, b, c, e], d) == a + [d] + b + [d] + c + [d] + e
  {
    JoinCons(c, [e], d);
    assert [b, c, e] == [b] + [c, e];
    JoinCons(b, [c, e], d);
    assert [a, b, c, e] == [a] + [b, c, e];
    JoinCons(a, [b, c, e], d);
  }

  /** The join of five pieces, the last one empty. */
  lemma Join4Empty(a: string, b: string, c: string, e: string, d: char)
    ensures Join([a, b, c, e, ""], d) == a + [d] + b + [d] + c + [d] + e + [d]
  {
    JoinCons(e, [""], d);
    JoinCons(c, [e, ""], d);
    assert [b, c, e, ""] == [b] + [c, e, ""];
    JoinCons(b, [c, e, ""], d);
    assert [a, b, c, e, ""] == [a] + [b, c, e, ""];
    JoinCons(a, [b, c, e, ""], d);
  }

  lemma LegacyJoin(id: string, slash: bool)
    ensures Join(LegacyPieces(id, slash), '/') == LegacyPath(id, slash)
  {
    assert LegacyPrefix == "" + ['/'] + "application" + ['/'];
    assert "/thankyou" == ['/'] + "thankyou";
    if slash {
      assert LegacyPieces(id, slash) == ["", "application", id, "thankyou", ""];
      Join4Empty("", "application", id, "thankyou", '/');
    } else {
      assert LegacyPieces(id, slash) == ["", "application", id, "thankyou"];
      Join4("", "application", id, "thankyou", '/');
    }
  }

  lemma LegacySegments(id: string, slash: bool)
    requires IdString(id)
    ensures PathSegments(LegacyPath(id, slash)) == ["application", id, "thankyou"]
  {
    LegacySplit(id, slash);
    LegacyKept(id, slash);
  }

  lemma LegacySplit(id: string, slash: bool)
    requires IdString(id)
    ensures Split(LegacyPath(id, slash), '/') == LegacyPieces(id, slash)
  {
    var pieces := LegacyPieces(id, slash);
    assert '/' !in id by {
      assert forall i :: 0 <= i < |id| ==> id[i] != '/';
    }
    assert forall i :: 0 <= i < |pieces| ==> '/' !in pieces[i];
    LegacyJoin(id, slash);
    SplitJoin(pieces, '/');
  }

  lemma LegacyKept(id: string, slash: bool)
    requires id != ""
    ensures NonEmpty(LegacyPieces(id, slash)) == ["application", id, "thankyou"]
  {
    var pieces := LegacyPieces(id, slash);
    var kept := ["application", id, "thankyou"];
    assert pieces[0] == "";
    assert NonEmpty(pieces) == NonEmpty(pieces[1..]);
    if slash {
      assert pieces[1..] == kept + [""];
      NonEmptyAppendEmpty(kept);
    } else {
      assert pieces[1..] == kept;
      NonEmptyKeepsAll(kept);
    }
  }

  lemma {:induction false} NonEmptyAppendEmpty(parts: seq<string>)
    requires forall i :: 0 <= i < |parts| ==> parts[i] != ""
    ensures NonEmpty(parts + [""]) == parts
  {
    if |parts| == 0 {
      assert parts + [""] == [""];
    } else {
      assert (parts + [""])[1..] == parts[1..] + [""];
      NonEmptyAppendEmpty(parts[1..]);
      assert parts == [parts[0]] + parts[1..];
    }
  }

  /** `status || 'thankyou'` on the badge. */
  function Badge(search: string): (b: string)
    ensures TruthyStr(Get(ParseQuery(search), "status")) ==> b == Get(ParseQuery(search), "status").value
    ensures !TruthyStr(Get(ParseQuery(search), "status")) ==> b == "thankyou"
  {
    OrElse(Get(ParseQuery(search), "status"), Some("thankyou")).value
  }

  const ApplicationsPrefix := "/api/applications/"

  /** `/api/applications/${applicationId}`: the id goes in unencoded. */
  function FetchPath(id: string): string {
    ApplicationsPrefix + id
  }

  /** The `:id` the intake API's `GET /api/applications/:id` route receives
      for a request to `url`, or None when that route does not match: the
      query ('?') and the fragment ('#') are cut off, and what is left must
      be the prefix followed by one non-empty segment, optionally ended by
      one '/' since the routes are not strict. */
  function RouteId(url: string): (id: Option<string>)
    ensures id.Some? ==> id.value != "" && '/' !in id.value && '?' !in id.value && '#' !in id.value
  {
    var beforeQuery := url[..IndexOf(url, '?')];
    var path := beforeQuery[..IndexOf(beforeQuery, '#')];
    if !StartsWith(path, ApplicationsPrefix) then None
    else
      var tail := path[|ApplicationsPrefix|..];
      var segment := if |tail| > 0 && tail[|tail| - 1] == '/' then tail[..|tail| - 1] else tail;
      if segment == "" || '/' in segment then None else Some(segment)
  }

  /** The page's request for an id of letters, digits and '-' (a UUID is
      one) reaches the route with exactly that id. */
  lemma FetchReachesRoute(id: string)
    requires IdString(id)
    ensures RouteId(FetchPath(id)) == Some(id)
  {
    assert forall i :: 0 <= i < |id| ==> IdChar(id[i]);
    RouteOfFetch(id);
    assert id[|id| - 1] != '/';
  }

  /** For an id without '?' or '#' the route sees the id, less one
      trailing '/', when that is a single non-empty segment. */
  lemma RouteOfFetch(id: string)
    requires '?' !in id && '#' !in id
    ensures var segment := if |id| > 0 && id[|id| - 1] == '/' then id[..|id| - 1] else id;
            RouteId(FetchPath(id)) == if segment == "" || '/' in segment then None else Some(segment)
  {
    var url := FetchPath(id);
    PrefixUnmarked();
    assert '?' !in url && '#' !in url;
    NoMarkIndex(url, '?');
    NoMarkIndex(url, '#');
    assert StartsWith(url, ApplicationsPrefix);
    assert url[|ApplicationsPrefix|..] == id;
  }

  lemma PrefixUnmarked()
    ensures '?' !in ApplicationsPrefix && '#' !in ApplicationsPrefix
  {
  }

  lemma NoMarkIndex(s: string, c: char)
    requires c !in s
    ensures IndexOf(s, c) == |s| && s[..IndexOf(s, c)] == s
  {
  }

  /** What follows a '?' or '#' does not reach the route. */
  lemma RouteIgnoresAfterMark(p: string, c: char, rest: string)
    requires '?' !in p && '#' !in p && (c == '?' || c == '#') && '?' !in rest
    ensures RouteId(p + [c] + rest) == RouteId(p)
  {
    var url := p + [c] + rest;
    NoMarkIndex(p, '?');
    NoMarkIndex(p, '#');
    IndexOfJoined(p, c, rest);
    assert url[..|p|] == p;
    if c == '#' {
      NoMarkIndex(url, '?');
    } else {
      assert url[..IndexOf(url, '?')] == p;
    }
  }

  /** Other ids do not. An id with a '/' inside matches no route. */
  lemma SlashIdMissesRoute(a: string, b: string)
    requires IdString(a) && IdString(b)
    ensures RouteId(FetchPath(a + "/" + b)) == None
  {
    var id := a + "/" + b;
    assert forall i :: 0 <= i < |a| ==> IdChar(a[i]);
    assert forall i :: 0 <= i < |b| ==> IdChar(b[i]);
    assert '?' !in id && '#' !in id;
    RouteOfFetch(id);
    assert id[|id| - 1] == b[|b| - 1] != '/';
    assert id[|a|] == '/';
  }

  /** An id made of a safe part, a '?' or '#', and more reaches the route
      as the safe part alone, so the page asks for another record. */
  lemma MarkCutsRoute(id: string, c: char, rest: string)
    requires IdString(id) && (c == '?' || c == '#') && '?' !in rest
    ensures RouteId(FetchPath(id + [c] + rest)) == Some(id)
  {
    assert forall i :: 0 <= i < |id| ==> IdChar(id[i]);
    PrefixUnmarked();
    assert FetchPath(id + [c] + rest) == FetchPath(id) + [c] + rest;
    RouteIgnoresAfterMark(FetchPath(id), c, rest);
    FetchReachesRoute(id);
  }

  /** What the request for the application came back with: axios throws
      for a transport error and for any status outside 2xx; otherwise the
      body's `success` and `data`. */
  datatype Fetched<T> = Threw | Answered(success: bool, data: T)

  /** axios' reading of an HTTP reply. */
  function Axios<T>(status: int, success: bool, data: T): (f: Fetched<T>)
    ensures f.Answered? <==> 200 <= status < 300
  {
    if 200 <= status < 300 then Answered(success, data) else Threw
  }

  /** What the page settles on after loading. */
  datatype Shown<T> = Record(application: T) | Message(error: string)

  const InvalidUrlMessage := "Invalid application URL"
  const NotFoundMessage := "Application not found"
  const FetchErrorMessage := "Error fetching application"

  /** The settled page. Without an id nothing is fetched, so `fetched`
      plays no part. */
  function Settle<T>(id: Option<string>, fetched: Fetched<T>): (s: Shown<T>)
    ensures id.None? ==> s == Message(InvalidUrlMessage)
    ensures id.Some? && fetched.Threw? ==> s == Message(FetchErrorMessage)
    ensures id.Some? && fetched.Answered? && fetched.success ==> s == Record(fetched.data)
    ensures id.Some? && fetched.Answered? && !fetched.success ==> s == Message(NotFoundMessage)
  {
    if id.None? then Message(InvalidUrlMessage)
    else match fetched
      case Threw => Message(FetchErrorMessage)
      case Answered(success, data) => if success then Record(data) else Message(NotFoundMessage)
  }

  /** A 404 reaches the page as a thrown error, so a missing application is
      reported as a fetch error and never as "Application not found". */
  lemma NotFoundReadsAsFetchError<T>(id: string, data: T)
    ensures Settle(Some(id), Axios(404, false, data)) == Message(FetchErrorMessage)
  {
  }
}

=== FILE: url.dfy ===
/** The two URL facilities the frontend leans on: `encodeURIComponent`,
    which writes the thank-you redirect, and `URLSearchParams`, which reads
    the query string back (the application/x-www-form-urlencoded parser of
    the WHATWG URL standard, section 5.1). Text goes through UTF-8 on the
    way, so both are modelled with a UTF-8 encoder and decoder. */
module Url {
  import opened Wrappers
  import opened Text

  type Byte = b: int | 0 <= b < 256

  // ---------------------------------------------------------------------
  // UTF-8
  // ---------------------------------------------------------------------

  const Replacement: char := '\U{FFFD}'

  predicate IsCont(b: Byte) {
    0x80 <= b < 0xC0
  }

  /** The UTF-8 encoding of one code point: 1 to 4 bytes, only the first
      of which is not a continuation byte. */
  function Utf8Char(c: char): (bs: seq<Byte>)
    ensures 1 <= |bs| <= 4
    ensures (c as int < 0x80) <==> |bs| == 1
    ensures |bs| == 1 ==> bs[0] == c as int
    ensures forall i :: 1 <= i < |bs| ==> IsCont(bs[i])
  {
    var cp := c as int;
    if cp < 0x80 then [cp]
    else if cp < 0x800 then [0xC0 + cp / 64, 0x80 + cp % 64]
    else if cp < 0x10000 then [0xE0 + cp / 4096, 0x80 + cp / 64 % 64, 0x80 + cp % 64]
    else [0xF0 + cp / 262144, 0x80 + cp / 4096 % 64, 0x80 + cp / 64 % 64, 0x80 + cp % 64]
  }

  function Utf8Encode(s: string): (bs: seq<Byte>)
    ensures |bs| >= |s|
  {
    if |s| == 0 then [] else Utf8Char(s[0]) + Utf8Encode(s[1..])
  }

  /** Decodes the first code point of `bs` and says how many bytes it used.
      A byte that does not start a well-formed sequence becomes U+FFFD and
      uses one byte; overlong forms, surrogates and code points above
      U+10FFFF are not well-formed. */
  function DecodeFirst(bs: seq<Byte>): (r: (char, nat))
    requires |bs| > 0
    ensures 1 <= r.1 <= |bs|
  {
    var b0: int := bs[0];
    var b1: int := if |bs| > 1 then bs[1] else 0;
    var b2: int := if |bs| > 2 then bs[2] else 0;
    var b3: int := if |bs| > 3 then bs[3] else 0;
    if b0 < 0x80 then (b0 as char, 1)
    else if 0xC2 <= b0 < 0xE0 && |bs| >= 2 && IsCont(b1) then
      (((b0 - 0xC0) * 64 + (b1 - 0x80)) as char, 2)
    else if 0xE0 <= b0 < 0xF0 && |bs| >= 3 && IsCont(b1) && IsCont(b2) then
      var cp := (b0 - 0xE0) * 4096 + (b1 - 0x80) * 64 + (b2 - 0x80);
      if 0x800 <= cp && !(0xD800 <= cp < 0xE000) then (cp as char, 3) else (Replacement, 1)
    else if 0xF0 <= b0 < 0xF5 && |bs| >= 4 && IsCont(b1) && IsCont(b2) && IsCont(b3) then
      var cp := (b0 - 0xF0) * 262144 + (b1 - 0x80) * 4096 + (b2 - 0x80) * 64 + (b3 - 0x80);
      if 0x10000 <= cp < 0x110000 then (cp as char, 4) else (Replacement, 1)
    else (Replacement, 1)
  }

  function Utf8Decode(bs: seq<Byte>): (s: string)
    ensures |s| <= |bs|
    ensures |bs| > 0 ==> |s| > 0
    decreases |bs|
  {
    if |bs| == 0 then []
    else
      var (c, n) := DecodeFirst(bs);
      [c] + Utf8Decode(bs[n..])
  }

  /** The decoder reads an encoded code point back whole. */
  lemma DecodeFirstOfChar(c: char, rest: seq<Byte>)
    ensures DecodeFirst(Utf8Char(c) + rest) == (c, |Utf8Char(c)|)
  {
    var cp := c as int;
    if cp < 0x80 {
    } else if cp < 0x800 {
      DecodeTwo(c, rest);
    } else if cp < 0x10000 {
      DecodeThree(c, rest);
    } else {
      DecodeFour(c, rest);
    }
  }

  lemma DecodeTwo(c: char, rest: seq<Byte>)
    requires 0x80 <= c as int < 0x800
    ensures DecodeFirst(Utf8Char(c) + rest) == (c, 2)
  {
    var cp := c as int;
    var bs := Utf8Char(c) + rest;
    var hi, lo := cp / 64, cp % 64;
    assert cp == 64 * hi + lo;
    assert bs[0] == 0xC0 + hi && bs[1] == 0x80 + lo;
  }

  lemma DecodeThree(c: char, rest: seq<Byte>)
    requires 0x800 <= c as int < 0x10000
    ensures DecodeFirst(Utf8Char(c) + rest) == (c, 3)
  {
    var cp := c as int;
    var bs := Utf8Char(c) + rest;
    var hi, mid, lo := cp / 4096, cp / 64 % 64, cp % 64;
    assert cp / 64 == 64 * hi + mid;
    assert cp == 4096 * hi + 64 * mid + lo;
    assert bs[0] == 0xE0 + hi && bs[1] == 0x80 + mid && bs[2] == 0x80 + lo;
  }

  lemma DecodeFour(c: char, rest: seq<Byte>)
    requires 0x10000 <= c as int
    ensures DecodeFirst(Utf8Char(c) + rest) == (c, 4)
  {
    var cp := c as int;
    var bs := Utf8Char(c) + rest;
    var top, hi, mid, lo := cp / 262144, cp / 4096 % 64, cp / 64 % 64, cp % 64;
    assert cp / 4096 == 64 * top + hi;
    assert cp / 64 == 64 * (cp / 4096) + mid;
    assert cp == 262144 * top + 4096 * hi + 64 * mid + lo;
    assert bs[0] == 0xF0 + top && bs[1] == 0x80 + hi && bs[2] == 0x80 + mid && bs[3] == 0x80 + lo;
  }

  /** UTF-8 decoding undoes UTF-8 encoding, for every string. */
  lemma {:induction false} Utf8RoundTrip(s: string)
    ensures Utf8Decode(Utf8Encode(s)) == s
  {
    if |s| > 0 {
      var bs := Utf8Encode(s);
      DecodeFirstOfChar(s[0], Utf8Encode(s[1..]));
      assert bs[|Utf8Char(s[0])|..] == Utf8Encode(s[1..]);
      Utf8RoundTrip(s[1..]);
    }
  }

  // ---------------------------------------------------------------------
  // encodeURIComponent
  // ---------------------------------------------------------------------

  /** The characters `encodeURIComponent` leaves alone. */
  predicate Unreserved(c: char) {
    || 'A' <= c <= 'Z' || 'a' <= c <= 'z' || '0' <= c <= '9'
    || c == '-' || c == '_' || c == '.' || c == '!' || c == '~'
    || c == '*' || c == '\'' || c == '(' || c == ')'
  }

  const UpperHex := "0123456789ABCDEF"

  /** "%XY" with upper-case hex digits. */
  function PercentByte(b: Byte): (t: string)
    ensures |t| == 3 && t[0] == '%' && IsHexDigit(t[1]) && IsHexDigit(t[2])
    ensures HexValue(t[1]) * 16 + HexValue(t[2]) == b
  {
    var t := ['%', UpperHex[b / 16], UpperHex[b % 16]];
    assert forall k :: 0 <= k < 16 ==> IsHexDigit(UpperHex[k]) && HexValue(UpperHex[k]) == k;
    t
  }

  function PercentBytes(bs: seq<Byte>): (t: string)
    ensures |t| == 3 * |bs|
  {
    if |bs| == 0 then [] else PercentByte(bs[0]) + PercentBytes(bs[1..])
  }

  function EncodeChar(c: char): string {
    if Unreserved(c) then [c] else PercentBytes(Utf8Char(c))
  }

  /** `encodeURIComponent(s)`. Dafny strings hold no lone surrogates, so the
      URIError the built-in throws for them cannot arise. */
  function EncodeURIComponent(s: string): (t: string)
    ensures |t| >= |s|
  {
    if |s| == 0 then [] else EncodeChar(s[0]) + EncodeURIComponent(s[1..])
  }

  /** Every character of an encoded component is unreserved, a hex digit or
      '%': in particular it holds no '&', '=', '+', '#' or '?'. */
  predicate UriSafe(c: char) {
    Unreserved(c) || c == '%'
  }

  lemma {:induction false} PercentBytesSafe(bs: seq<Byte>)
    ensures forall i :: 0 <= i < |PercentBytes(bs)| ==> UriSafe(PercentBytes(bs)[i])
  {
    if |bs| > 0 {
      PercentBytesSafe(bs[1..]);
      var t := PercentBytes(bs);
      assert t == PercentByte(bs[0]) + PercentBytes(bs[1..]);
    }
  }

  lemma {:induction false} EncodedIsSafe(s: string)
    ensures forall i :: 0 <= i < |EncodeURIComponent(s)| ==> UriSafe(EncodeURIComponent(s)[i])
  {
    if |s| > 0 {
      EncodedIsSafe(s[1..]);
      if !Unreserved(s[0]) {
        PercentBytesSafe(Utf8Char(s[0]));
      }
    }
  }

  // ---------------------------------------------------------------------
  // Form decoding
  // ---------------------------------------------------------------------

  /** '+' stands for a space in a form-encoded name or value. */
  function PlusToSpace(s: string): (r: string)
    ensures |r| == |s|
    ensures forall i :: 0 <= i < |s| ==> r[i] == (if s[i] == '+' then ' ' else s[i])
  {
    seq(|s|, i requires 0 <= i < |s| => if s[i] == '+' then ' ' else s[i])
  }

  /** Percent-decoding of the UTF-8 bytes of `s`: "%XY" with two hex digits
      is the byte XY, every other character stands for its own UTF-8 bytes.
      Working on characters gives the same bytes as working on the encoded
      bytes, because no byte of a multi-byte sequence is '%' or a hex digit. */
  function PercentDecode(s: string): (bs: seq<Byte>)
    decreases |s|
  {
    if |s| == 0 then []
    else if |s| >= 3 && s[0] == '%' && IsHexDigit(s[1]) && IsHexDigit(s[2]) then
      [HexValue(s[1]) * 16 + HexValue(s[2])] + PercentDecode(s[3..])
    else Utf8Char(s[0]) + PercentDecode(s[1..])
  }

  /** How a name or a value of the query is read: '+' to space, percent
      decoding, UTF-8 decoding. */
  function FormDecode(s: string): (r: string)
    ensures |s| > 0 ==> |r| > 0
  {
    var bs := PercentDecode(PlusToSpace(s));
    assert |s| > 0 ==> |bs| > 0;
    Utf8Decode(bs)
  }

  lemma PercentDecodeTriple(b: Byte, tail: string)
    ensures PercentDecode(PercentByte(b) + tail) == [b] + PercentDecode(tail)
  {
    var t := PercentByte(b);
    var u := t + tail;
    assert u[3..] == tail;
    assert u[0] == '%' && u[1] == t[1] && u[2] == t[2];
  }

  lemma {:induction false} PercentDecodeBytes(bs: seq<Byte>, rest: string)
    ensures PercentDecode(PercentBytes(bs) + rest) == bs + PercentDecode(rest)
  {
    if |bs| > 0 {
      var tail := PercentBytes(bs[1..]) + rest;
      PercentBytesCons(bs, rest);
      PercentDecodeTriple(bs[0], tail);
      PercentDecodeBytes(bs[1..], rest);
      ConsAppend(bs, PercentDecode(rest));
    } else {
      assert PercentBytes(bs) + rest == rest;
    }
  }

  lemma PercentBytesCons(bs: seq<Byte>, rest: string)
    requires |bs| > 0
    ensures PercentBytes(bs) + rest == PercentByte(bs[0]) + (PercentBytes(bs[1..]) + rest)
  {
    assert PercentBytes(bs) == PercentByte(bs[0]) + PercentBytes(bs[1..]);
    AppendAssoc(PercentByte(bs[0]), PercentBytes(bs[1..]), rest);
  }

  lemma AppendAssoc<T>(a: seq<T>, b: seq<T>, c: seq<T>)
    ensures (a + b) + c == a + (b + c)
  {
  }

  lemma ConsAppend<T>(xs: seq<T>, ys: seq<T>)
    requires |xs| > 0
    ensures [xs[0]] + (xs[1..] + ys) == xs + ys
  {
    assert xs == [xs[0]] + xs[1..];
  }

  /** Percent-decoding an encoded component gives the UTF-8 bytes of the
      original. */
  lemma {:induction false} PercentDecodeEncoded(s: string)
    ensures PercentDecode(EncodeURIComponent(s)) == Utf8Encode(s)
  {
    if |s| > 0 {
      var tail := EncodeURIComponent(s[1..]);
      PercentDecodeEncoded(s[1..]);
      if Unreserved(s[0]) {
        assert ([s[0]] + tail)[1..] == tail;
      } else {
        PercentDecodeBytes(Utf8Char(s[0]), tail);
      }
    }
  }

  /** `new URLSearchParams('a=' + encodeURIComponent(s)).get('a')` is `s`:
      decoding inverts encoding for every string. */
  lemma FormDecodeEncoded(s: string)
    ensures FormDecode(EncodeURIComponent(s)) == s
  {
    var t := EncodeURIComponent(s);
    EncodedIsSafe(s);
    assert PlusToSpace(t) == t;
    PercentDecodeEncoded(s);
    Utf8RoundTrip(s);
  }

  /** Text without '%' or '+' reads back as itself. */
  lemma {:induction false} FormDecodePlain(s: string)
    requires forall i :: 0 <= i < |s| ==> s[i] != '%' && s[i] != '+'
    ensures FormDecode(s) == s
  {
    assert PlusToSpace(s) == s;
    PercentDecodePlain(s);
    Utf8RoundTrip(s);
  }

  lemma {:induction false} PercentDecodePlain(s: string)
    requires forall i :: 0 <= i < |s| ==> s[i] != '%'
    ensures PercentDecode(s) == Utf8Encode(s)
  {
    if |s| > 0 {
      PercentDecodePlain(s[1..]);
    }
  }

  // ---------------------------------------------------------------------
  // URLSearchParams
  // ---------------------------------------------------------------------

  datatype Param = Param(name: string, value: string)

  /** One `&`-separated piece: the name runs to the first '=', the value is
      the rest; without '=', the value is empty. */
  function ParsePair(p: string): (r: Param)
    ensures '=' !in p ==> r == Param(FormDecode(p), "")
  {
    var k := IndexOf(p, '=');
    if k < |p| then Param(FormDecode(p[..k]), FormDecode(p[k + 1..]))
    else
      assert p[..k] == p;
      Param(FormDecode(p), "")
  }

  /** `new URLSearchParams(search)`: a single leading '?' is dropped, the
      rest split on '&', empty pieces skipped. */
  function ParseQuery(search: string): (ps: seq<Param>)
  {
    var body := if |search| > 0 && search[0] == '?' then search[1..] else search;
    var pieces := NonEmpty(Split(body, '&'));
    seq(|pieces|, i requires 0 <= i < |pieces| => ParsePair(pieces[i]))
  }

  /** `params.get(name)`: the value of the first parameter with that name,
      None for `null`. */
  function Get(ps: seq<Param>, name: string): (r: Option<string>)
    ensures r.Some? <==> exists i :: 0 <= i < |ps| && ps[i].name == name
    ensures r.Some? ==> exists i :: 0 <= i < |ps| && ps[i].name == name && ps[i].value == r.value &&
                          forall j :: 0 <= j < i ==> ps[j].name != name
  {
    if |ps| == 0 then None
    else if ps[0].name == name then Some(ps[0].value)
    else
      var r := Get(ps[1..], name);
      assert forall i :: 1 <= i < |ps| ==> ps[i] == ps[1..][i - 1];
      r
  }

  lemma {:induction false} NonEmptyKeepsAll(parts: seq<string>)
    requires forall i :: 0 <= i < |parts| ==> parts[i] != ""
    ensures NonEmpty(parts) == parts
  {
    if |parts| > 0 {
      NonEmptyKeepsAll(parts[1..]);
      assert parts == [parts[0]] + parts[1..];
    }
  }

  /** A query written as '?' and non-empty, '&'-free pieces joined by '&'
      is read piece by piece. */
  lemma ParseJoined(pieces: seq<string>)
    requires |pieces| >= 1
    requires forall i :: 0 <= i < |pieces| ==> pieces[i] != "" && '&' !in pieces[i]
    ensures var ps := ParseQuery("?" + Join(pieces, '&'));
            |ps| == |pieces| && forall i :: 0 <= i < |pieces| ==> ps[i] == ParsePair(pieces[i])
  {
    var search := "?" + Join(pieces, '&');
    assert search[1..] == Join(pieces, '&');
    SplitJoin(pieces, '&');
    NonEmptyKeepsAll(pieces);
  }

  /** "name=value" is read as the decoded name and value when the name
      holds no '='; the value may hold any character but '&'. */
  lemma PairOf(name: string, value: string)
    requires '=' !in name
    ensures ParsePair(name + "=" + value) == Param(FormDecode(name), FormDecode(value))
  {
    var p := name + "=" + value;
    IndexOfJoined(name, '=', value);
    assert p[..|name|] == name;
    assert p[|name| + 1..] == value;
  }

  /** Text holding none of the characters that a query gives a meaning. */
  predicate Plain(s: string) {
    forall i :: 0 <= i < |s| ==> s[i] != '%' && s[i] != '+' && s[i] != '&' && s[i] != '=' && s[i] != '#'
  }

  /** A parameter written into a query as it is, without encoding. */
  function PairText(p: Param): string {
    p.name + "=" + p.value
  }

  /** Parameters written into a query string: "name=value" pieces joined by
      '&', nothing encoded. */
  function QueryText(ps: seq<Param>): string {
    Join(seq(|ps|, i requires 0 <= i < |ps| => PairText(ps[i])), '&')
  }

  /** A parameter list is written readably when no name holds '=' and no
      name or value holds '&' or '#'. */
  predicate Writable(ps: seq<Param>) {
    forall i :: 0 <= i < |ps| ==> '=' !in ps[i].name && '&' !in ps[i].name + ps[i].value && '#' !in ps[i].name + ps[i].value
  }

  lemma {:induction false} JoinAvoids(parts: seq<string>, d: char, c: char)
    requires c != d
    requires forall i :: 0 <= i < |parts| ==> c !in parts[i]
    ensures c !in Join(parts, d)
    decreases |parts|
  {
    if |parts| > 1 {
      JoinAvoids(parts[1..], d, c);
    }
  }

  /** The written query holds no fragment mark. */
  lemma QueryTextHasNoHash(ps: seq<Param>)
    requires Writable(ps)
    ensures '#' !in QueryText(ps)
  {
    var pieces := seq(|ps|, i requires 0 <= i < |ps| => PairText(ps[i]));
    forall i | 0 <= i < |pieces|
      ensures '#' !in pieces[i]
    {
      assert pieces[i] == ps[i].name + "=" + ps[i].value;
    }
    JoinAvoids(pieces, '&', '#');
  }

  lemma {:induction false} JoinEndsWith(parts: seq<string>, d: char)
    requires |parts| >= 1
    ensures var j, last := Join(parts, d), parts[|parts| - 1];
            |last| <= |j| && j[|j| - |last|..] == last
    decreases |parts|
  {
    if |parts| > 1 {
      JoinEndsWith(parts[1..], d);
      var rest := Join(parts[1..], d);
      assert Join(parts, d) == (parts[0] + [d]) + rest;
    }
  }

  /** A written query ends with its last parameter's value. */
  lemma QueryTextEndsWith(ps: seq<Param>)
    requires |ps| >= 1
    ensures var q, v := QueryText(ps), ps[|ps| - 1].value;
            |v| <= |q| && q[|q| - |v|..] == v
  {
    var pieces := seq(|ps|, i requires 0 <= i < |ps| => PairText(ps[i]));
    JoinEndsWith(pieces, '&');
    var last := ps[|ps| - 1];
    assert pieces[|ps| - 1] == (last.name + "=") + last.value;
  }

  /** Every parameter with its name and value form-decoded. */
  function Decoded(ps: seq<Param>): (r: seq<Param>)
    ensures |r| == |ps|
  {
    seq(|ps|, i requires 0 <= i < |ps| => Param(FormDecode(ps[i].name), FormDecode(ps[i].value)))
  }

  /** Reading back a written query gives every parameter, in order, with
      name and value form-decoded. */
  lemma ReadQueryText(ps: seq<Param>)
    requires |ps| >= 1 && Writable(ps)
    ensures ParseQuery("?" + QueryText(ps)) == Decoded(ps)
  {
    var pieces := seq(|ps|, i requires 0 <= i < |ps| => PairText(ps[i]));
    forall i | 0 <= i < |pieces|
      ensures pieces[i] != "" && '&' !in pieces[i]
    {
      assert pieces[i] == ps[i].name + "=" + ps[i].value;
    }
    ParseJoined(pieces);
    forall i | 0 <= i < |ps|
      ensures ParsePair(pieces[i]) == Decoded(ps)[i]
    {
      PairOf(ps[i].name, ps[i].value);
    }
  }

  /** Plain parameters are their own decoding. */
  lemma DecodedPlain(ps: seq<Param>)
    requires forall i :: 0 <= i < |ps| ==> Plain(ps[i].name) && Plain(ps[i].value)
    ensures Decoded(ps) == ps
  {
    forall i | 0 <= i < |ps|
      ensures Decoded(ps)[i] == ps[i]
    {
      FormDecodePlain(ps[i].name);
      FormDecodePlain(ps[i].value);
    }
  }

  /** Parameters whose names and values are plain read back as written. */
  lemma ReadPlainQuery(ps: seq<Param>)
    requires |ps| >= 1
    requires forall i :: 0 <= i < |ps| ==> Plain(ps[i].name) && Plain(ps[i].value)
    ensures ParseQuery("?" + QueryText(ps)) == ps
  {
    forall i | 0 <= i < |ps|
      ensures '=' !in ps[i].name && '&' !in ps[i].name + ps[i].value && '#' !in ps[i].name + ps[i].value
    {
      assert Plain(ps[i].name + ps[i].value);
    }
    ReadQueryText(ps);
    DecodedPlain(ps);
  }

  lemma WritableHead(p: Param, rest: seq<Param>)
    requires Plain(p.name) && '&' !in p.value && '#' !in p.value
    requires forall i :: 0 <= i < |rest| ==> Plain(rest[i].name) && Plain(rest[i].value)
    ensures Writable([p] + rest)
  {
    var ps := [p] + rest;
    forall i | 0 <= i < |ps|
      ensures '=' !in ps[i].name && '&' !in ps[i].name + ps[i].value && '#' !in ps[i].name + ps[i].value
    {
      if i == 0 {
        assert Plain(p.name);
      } else {
        assert ps[i] == rest[i - 1];
        assert Plain(rest[i - 1].name) && Plain(rest[i - 1].value);
      }
    }
  }

  /** A query of one parameter whose value is written as it comes, followed
      by plain ones, reads back with only that value form-decoded, and holds
      no fragment mark. */
  lemma ReadQueryHead(p: Param, rest: seq<Param>)
    requires Plain(p.name) && '&' !in p.value && '#' !in p.value
    requires forall i :: 0 <= i < |rest| ==> Plain(rest[i].name) && Plain(rest[i].value)
    ensures ParseQuery("?" + QueryText([p] + rest)) == [Param(p.name, FormDecode(p.value))] + rest
    ensures '#' !in QueryText([p] + rest)
  {
    var ps := [p] + rest;
    WritableHead(p, rest);
    ReadQueryText(ps);
    QueryTextHasNoHash(ps);
    DecodedHead(p, rest);
  }

  lemma DecodedHead(p: Param, rest: seq<Param>)
    requires Plain(p.name)
    requires forall i :: 0 <= i < |rest| ==> Plain(rest[i].name) && Plain(rest[i].value)
    ensures Decoded([p] + rest) == [Param(p.name, FormDecode(p.value))] + rest
  {
    var ps := [p] + rest;
    DecodedPlain(rest);
    FormDecodePlain(p.name);
    forall i | 0 <= i < |ps|
      ensures Decoded(ps)[i] == ([Param(p.name, FormDecode(p.value))] + Decoded(rest))[i]
    {
      if i > 0 {
        assert ps[i] == rest[i - 1];
      }
    }
  }
}

=== FILE: wrappers.dfy ===
/** Option and Result: the model's stand-ins for JavaScript's `null`/`undefined`
    and for a thrown error. */
module Wrappers {

  /** A value that may be absent (`undefined` or `null` in the JavaScript code). */
  datatype Option<+T> = None | Some(value: T) {

    /** The value, or `default` when absent (JavaScript's `x ?? default`). */
    function GetOr(default: T): T {
      match this
      case Some(v) => v
      case None => default
    }
  }

  /** The outcome of an operation that may throw. */
  datatype Result<+T, +E> = Ok(value: T) | Err(error: E)
}
